=== FILE: README.md ===
# Translation resolver: a Dafny model

This project models the deterministic core of a small English→Russian lookup tool and proves properties of it in Dafny. The tool's GNOME desktop window is left out. The model covers three parts:

- two generations of source adapters: the older `translator/providers/*` and the newer `translate_logic/providers/*`;
- the shared helpers for text normalisation, candidate cleaning, an LRU+TTL page cache and a small HTML tree;
- the desktop application's request bookkeeping and settings file.

One Dafny module models each source component:

| module | models |
|---|---|
| `Text` | `translator/text.py`: `str.split()`, whitespace normalisation, `strip`, `lower`, the Cambridge slug |
| `Url`, `Query` | `quote` / `quote_plus` (UTF-8, upper-case `%XX`, section 2.3 of RFC 3986 for the unreserved set) and `&`-joined query strings |
| `Translation` | `translator/translation.py`: cleaning, meta classification, partition, limit, combine, primary selection |
| `Cache` | `translator/cache.py`: the ordered LRU map with per-entry expiry, with the clock as a parameter |
| `Html`, `HtmlBuilder` | `translator/html_parser.py`: an inductive node tree, parent links as ancestor paths, the tree builder as a stack machine over parser callbacks, and `find_all` / `find_first` / `has_ancestor_with_class` |
| `Json` | decoded JSON values (section 3 of RFC 8259) and the adapters' defensive accessors |
| `Fetch` | the guard the single-request adapters put around their fetch |
| `Google`, `Tatoeba`, `DictionaryApi`, `Cambridge` | the newer adapters |
| `LegacyGoogle`, `LegacyTatoeba`, `LegacyDictionaryApi`, `LegacyCambridge` | the older adapters, each related to its newer counterpart where they agree |
| `Ranking` | a stable sort by descending key, used for Cambridge's example ranking |
| `TranslationState` | `desktop_app/controllers/translation_state.py`: translation memory and request tracker |
| `Config` | `desktop_app/config.py`: settings parsing, serialisation and the reset override |
| `Seqs`, `Wrappers`, `Models` | sequence helpers, `Option`, and the shared `Example` record |

The network is a parameter of every adapter. A fetcher maps a URL to `None` when the request raised `FetchError`. Otherwise it maps the URL to a body that is either the decoded payload (JSON values or HTML parser callbacks) or `Malformed`, which stands for a parser that raised. Adapters return `Traced(result, requested)`, so statements such as "empty text requests nothing" can be written down.

## Model

| member | source | states |
|---|---|---|
| Text.Split | translator/text.py:7 | `str.split()` with no argument: every piece is a non-empty run of non-whitespace characters |
| Text.SplitRuns | translator/text.py:7 | the pieces of `str.split()`, glued together, are exactly the input's non-whitespace characters in order, and there is one piece per run of non-whitespace; with every piece a token, they are the maximal runs |
| Text.SplitJoin | translator/text.py:7 | splitting a space-joined list of tokens gives back exactly those tokens |
| Text.NormalizeIdempotent | translator/text.py:10-11 | normalising twice equals normalising once, and normalising keeps the whitespace-split tokens of the input |
| Text.NormalizedShape | translator/text.py:11 | the result never starts or ends with a space, never holds two spaces in a row, and holds no whitespace other than `' '` |
| Text.NormalizeEmptyIff | translator/text.py:11 | the result is empty exactly when the input is all whitespace |
| Text.NormalizeTextIsNormalizeWhitespace | translator/text.py:6-11 | `normalize_text` and `normalize_whitespace` are the same function |
| Text.NormalizeSplitOnSpace | translator/text.py:11 | splitting the non-empty result on `' '` gives the whitespace-split tokens of the input, in order |
| Text.StripKeepsTokens | translator/text.py:11 | `str.strip()` keeps the whitespace-split tokens, so stripping before normalising changes nothing |
| Text.StripEmptyIff | translator/text.py:11 | a stripped string is empty exactly when the input is all whitespace, and otherwise starts and ends with a non-whitespace character |
| Text.Lower | translator/text.py:15 | `str.lower()` maps character by character and keeps the length |
| Text.SlugTextShape | translator/text.py:15-16 | before percent-encoding, the slug holds no whitespace, is as long as the normalised text, and is empty exactly for all-whitespace input |
| Text.SlugEmptyIff | translator/text.py:14-17 | the Cambridge slug is empty exactly for all-whitespace input and never contains a space |
| Url.Utf8 | translator/text.py:17 | `quote` percent-encodes the UTF-8 form of the text: one byte exactly for ASCII, at most four per character |
| Url.PercentByte | translator/text.py:17 | a byte is written as `%` and two upper-case hex digits that read back as that byte |
| Url.QuoteIsUrlText | translator/text.py:17 | `quote` output holds only unreserved characters, `%` and `/`, and never a space |
| Url.QuotePlusIsUrlText | translate_logic/providers/tatoeba.py:37 | `quote_plus` output holds only unreserved characters, `%` and `+`, and never a space |
| Url.QuoteRoundTrip | translator/text.py:17 | percent-decoding `quote(s)` gives back the UTF-8 bytes of `s` |
| Url.QuotePlusRoundTrip | translate_logic/providers/tatoeba.py:37 | percent-decoding `quote_plus(s)`, with `+` read as a space, gives back the UTF-8 bytes of `s` |
| Url.QuoteKeepsSafeText | translator/text.py:17 | text made only of unreserved characters and `/` passes through `quote` unchanged |
| Query.QuerySplitsBack | translate_logic/providers/tatoeba.py:47 | a query string joined with `&` from parameters that contain no `&` splits back into exactly those parameters |
| Query.EncodedLacksAmpersand | translate_logic/providers/tatoeba.py:37 | an encoded value never contains `&`, so it cannot break a query string apart |
| Fetch.FetchErrorMessage | translator/providers/cambridge.py:61-73 | the error text recorded for a failed request names the URL after a fixed prefix |
| Fetch.Guarded | translate_logic/providers/tatoeba.py:50-62 | empty text requests nothing and gives the empty result; otherwise exactly the one URL is requested; a failed request or a body the parser rejects gives the empty result; any other body is parsed |
| Wrappers.OrElse | translate_logic/providers/cambridge.py:99 | Python's `a or b` on optional strings: `a` when it is a non-empty string, `b` otherwise |
| Json.Get | translate_logic/providers/tatoeba.py:70 | `dict.get(name)` finds a value exactly when the object has that string key |
| Json.CoerceDict | translate_logic/providers/tatoeba.py:124-127 | a value comes back as a dict exactly when it is an object, and the strict variant also rejects objects with a non-string key |
| Json.CoerceDictDecoded | translator/providers/tatoeba.py:120-128 | on any value `json.loads` can produce, the strict key check and the plain check agree |
| Json.AsList | translate_logic/providers/tatoeba.py:118-121 | a value comes back as a list exactly when it is an array |
| Json.CoerceDictList | translate_logic/providers/tatoeba.py:107-115 | a non-list gives no dicts, and a list gives at most as many dicts as it has items |
| Json.CoerceDictListAccepted | translate_logic/providers/tatoeba.py:107-115 | for a list, the dicts are exactly those of the items `_coerce_dict` accepts, in list order |
| Json.DictItems | translate_logic/providers/tatoeba.py:110-115 | at most one dict per item, and every dict kept is the dict of one of the items |
| Json.DictItemsAccepted | translate_logic/providers/tatoeba.py:110-115 | the dicts kept are exactly those of the accepted items, in order: every object passing the key check is kept, and everything else is skipped |
| Json.DictItemsAllObjects | translate_logic/providers/tatoeba.py:110-115 | a list made only of objects loses none of them |
| Json.DictItemsDecoded | translator/providers/tatoeba.py:109-128 | on decoded values the strict and the plain list coercion agree |
| Json.GetStripped | translate_logic/providers/tatoeba.py:130-134 | `_get_str`: a value is kept exactly when it is a string that is not all whitespace, and then it is stripped and non-empty |
| Json.GetNormalized | translate_logic/providers/google.py:145-149 | the Google `_get_str`: a value is kept exactly when it is a non-blank string, and then its whitespace is normalised |
| Json.GetBool | translate_logic/providers/tatoeba.py:137-140 | `_get_bool` yields a value exactly when the value is a boolean |
| Translation.Clean | translator/translation.py:39-51 | never longer than the input; every kept string is non-empty and normalised; no two kept strings are equal after casefolding |
| Translation.CleanFolds | translator/translation.py:46-50 | the casefold classes kept are exactly the classes of the input's non-empty normalised items |
| Translation.CleanIsFirstOfClass | translator/translation.py:42-50 | the result is the normalised first item of each casefold class, in input order |
| Translation.CleanCoverage | translator/translation.py:42-50 | every kept string is some input item normalised, and every non-blank input item is represented by a kept string of its casefold class |
| Translation.CleanRepresents | translator/translation.py:42-50 | on already normalised input, every kept string is an input item and every input item has its class represented |
| Translation.CleanOfClean | translator/translation.py:39-51 | a list that is already clean passes through unchanged |
| Translation.CleanIdempotent | translator/translation.py:39-51 | cleaning twice equals cleaning once |
| Translation.CleanExtends | translator/translation.py:66-67 | cleaning a longer list keeps the cleaned shorter list as its prefix |
| Translation.MergeKeepsPrimaryFirst | translator/translation.py:66-67 | the primary list's cleaned items come first in the merge, which is never longer than both lists together |
| Translation.IsMetaCharacterisation | translator/translation.py:93-105 | a candidate is meta exactly when it has more than 8 words, more than 80 characters once whitespace is collapsed, or a marker in its casefolded form; whitespace layout does not matter |
| Translation.Partition | translator/translation.py:54-63 | the cleaned list split into non-meta and meta items, each part in order, together as many as the cleaned items |
| Translation.EffectiveLimit | translator/translation.py:71 | `limit or 3`: an absent or zero limit becomes 3, any other limit is kept |
| Translation.Limit | translator/translation.py:70-72 | a prefix of the list, as long as Python's slice `[:limit or 3]` makes it, a negative limit counting from the end |
| Translation.Combine | translator/translation.py:75-82 | nothing exactly when the limited cleaned list is empty; for a non-negative limit, exactly when nothing survives cleaning |
| Translation.CombineSplitsBack | translator/translation.py:75-82 | the joined string splits on `"; "` back into the limited cleaned list when no item holds `;` |
| Translation.SelectPrimary | translator/translation.py:85-90 | the first non-meta cleaned candidate, else the first meta one, and nothing exactly when nothing survives cleaning |
| Cache.Find | translator/cache.py:39 | `OrderedDict.get`: nothing exactly when the key is absent, otherwise the entry stored under it |
| Cache.Remove | translator/cache.py:61-62 | `del`: exactly that key disappears from the key set |
| Cache.RemoveIsFilter | translator/cache.py:43 | `del` keeps every other item, in its order: the result is the items filtered by "key is not `k`" |
| Cache.RemoveFind | translator/cache.py:43 | deleting one key leaves every other key's entry as it was |
| Cache.MoveToEnd | translator/cache.py:45 | `move_to_end`: the key becomes the most recently used, and the same keys keep the same entries |
| Cache.MoveToEndOrder | translator/cache.py:45 | `move_to_end` keeps the other items in their relative order and puts the key's item last |
| Cache.Get | translator/cache.py:37-46 | a value is returned exactly when the key is present and not expired, and it is the stored value; a hit moves the key to the most recently used end; an expired key is deleted; an absent key leaves the cache unchanged; no other key's entry changes |
| Cache.GetOrder | translator/cache.py:37-46 | the LRU order after `get`: the other keys keep their relative order, and the key goes to the most recently used end on a fresh hit and is dropped otherwise |
| Cache.Purge | translator/cache.py:57-62 | every entry left is fresh, and no key is added |
| Cache.PurgeIsFilter | translator/cache.py:57-62 | exactly the expired entries are removed: the result is the fresh items, in their order |
| Cache.PurgeFind | translator/cache.py:57-62 | after purging, a key keeps its entry exactly when that entry expires after `now` |
| Cache.Assign | translator/cache.py:52 | `items[key] = entry` stores the entry under the key, added when new |
| Cache.Replace | translator/cache.py:50-53 | assigning an existing key replaces its value and its expiry and leaves the rest as it was |
| Cache.AssignMoveToEnd | translator/cache.py:52-53 | assigning and then moving to the end puts the new entry last, after the other entries in their old order |
| Cache.Evict | translator/cache.py:54-55 | evicting pops from the least recently used end until the size bound holds; a negative bound makes `popitem` raise on the empty dict |
| Cache.Set | translator/cache.py:48-62 | a negative bound raises; otherwise the cache holds at most `max_entries` entries, none expired except possibly the new one, the new entry is last when the bound is at least 1, surviving entries are unchanged, and the entries kept are the most recently used ones |
| Cache.SetThenGet | translator/cache.py:37-62 | a value just stored is read back at any time before its expiry |
| Cache.SetThenGetAfterTtl | translator/cache.py:42-50 | once the time-to-live has passed, reading the key misses and deletes it |
| Cache.GetHitIdempotent | translator/cache.py:45 | reading the same key twice at the same time changes nothing after the first read |
| Html.Classes | translator/html_parser.py:16-18 | every class is a non-empty run of non-whitespace characters |
| Html.ClassesOfWords | translator/html_parser.py:16-18 | the classes are exactly the whitespace-separated words of the `class` attribute |
| Html.TextContentSnoc | translator/html_parser.py:20-27 | adding a segment appends its text to the node's text: text content is the segments' texts in order, child nodes recursively |
| Html.MatchesUnfold | translator/html_parser.py:64-72 | the pre-order matches of a subtree are the root when it matches, then the matches of each child's subtree in order |
| Html.FindAll | translator/html_parser.py:64-72 | the explicit-stack walk returns exactly the pre-order matches of the subtree, root included |
| Html.FindFirst | translator/html_parser.py:75-84 | the walk returns nothing exactly when there is no match, and otherwise the first pre-order match |
| Html.MatchesIsFilter | translator/html_parser.py:64-72 | the matches are the subtree's nodes in document order, filtered by the predicate |
| Html.MatchesSound | translator/html_parser.py:64-72 | every match satisfies the predicate, every node that satisfies it is a match, and a matching root comes first |
| Html.FirstMatchIsFirst | translator/html_parser.py:75-84 | the first match is the first node of the subtree, in document order, that satisfies the predicate |
| Html.HasAncestorWithClass | translator/html_parser.py:87-93 | true exactly when some strict ancestor, not the node itself, has the class |
| HtmlBuilder.AttrDict | translator/html_parser.py:37 | a name is kept exactly when some attribute with a non-empty name and a value has it, and the last such attribute gives its value |
| HtmlBuilder.CloseTop | translator/html_parser.py:43-45 | closing pops exactly one open element, which becomes the last segment of its parent; the parent keeps its tag and attributes, and the elements below it are unchanged |
| HtmlBuilder.Step | translator/html_parser.py:36-55 | no callback changes the document root's tag or attributes |
| HtmlBuilder.ParseEvents | translator/html_parser.py:58-61 | the tree's root is always the attribute-less `document` node |
| HtmlBuilder.EndTagNamesIrrelevant | translator/html_parser.py:43-45 | the tree does not depend on the names in end tags |
| HtmlBuilder.EndTagAtRootIgnored | translator/html_parser.py:44 | an end tag with only the root open does nothing |
| HtmlBuilder.FeedText | translator/html_parser.py:53-55 | every data callback's text ends up in the tree, in order |
| HtmlBuilder.ParseText | translator/html_parser.py:53-55 | the document's text content is all the data in order: no data is dropped or reordered, and empty data adds nothing |
| HtmlBuilder.StepNodes | translator/html_parser.py:36-51 | a start tag or a self-closing tag adds exactly one node and any other callback adds none |
| HtmlBuilder.ParseNodes | translator/html_parser.py:36-51 | the tree has exactly one node per start or self-closing tag, plus the document root |
| Google.DtFields | translate_logic/providers/google.py:39 | one `dt=` parameter per entry of the fixed list, in list order |
| Google.UrlFields | translate_logic/providers/google.py:12-44 | the URL is the endpoint and a 17-parameter query: `client`, `dj`, `ie`, `sl`, `tl`, the eleven `dt` values in their fixed order, and `q` holding `quote_plus` of the text last; the query splits back into those parameters when the languages hold no `&` |
| Google.FieldsSplitBack | translate_logic/providers/google.py:40-43 | a query built from parameters without `&` splits back into exactly those parameters |
| Google.SentenceOf | translate_logic/providers/google.py:80-86 | a sentence item contributes one string exactly when it is an object whose `trans` is a non-blank string |
| Google.TermOf | translate_logic/providers/google.py:102-105 | a term contributes one string exactly when it is a non-blank string |
| Google.TermsOf | translate_logic/providers/google.py:95-101 | a dictionary item that is not an object contributes nothing |
| Google.FirstWord | translate_logic/providers/google.py:125-129 | the first key, in the given order, whose value is a non-blank string gives the word; nothing exactly when no key does |
| Google.AltWordOf | translate_logic/providers/google.py:121-129 | an alternative object gives at most one string: the first non-blank of `word_postproc`, `word`, `text` |
| Google.AltWordsOf | translate_logic/providers/google.py:114-120 | an alternatives item that is not an object contributes nothing |
| Google.ParseResponse | translate_logic/providers/google.py:64-72 | a top-level value that is not an object gives nothing; the result is clean, and begins with the cleaned dictionary terms |
| Google.ParseCovers | translate_logic/providers/google.py:64-72 | the result is the normalised first candidate of every casefold class, taken over the dictionary terms, then the alternatives, then the sentences, in that order; so every returned string is a gathered candidate and every candidate's class is represented |
| Google.CandidatesNormalized | translate_logic/providers/google.py:145-149 | every gathered candidate is non-empty and whitespace-normalised |
| Google.MalformedItemsSkipped | translate_logic/providers/google.py:76-106 | an item that is not an object is skipped: the items around it contribute as if it were absent |
| Google.Translate | translate_logic/providers/google.py:47-61 | empty text requests nothing and gives nothing; otherwise exactly the one URL is requested; a parsed body gives exactly its parse, and a failed fetch or malformed body gives nothing; a non-empty result comes from an object the fetch returned |
| LegacyGoogle.ParseResponse | translator/providers/google.py:68-75 | a non-object gives nothing; the result is clean and begins with the cleaned dictionary terms |
| LegacyGoogle.ParseOrder | translator/providers/google.py:68-75 | the result is the normalised first string of every casefold class, taken over the dictionary terms and then the sentences, in that order |
| LegacyGoogle.AgreesWithoutAlternatives | translator/providers/google.py:73-75 | the older parse is the newer one without alternatives: they agree when there are none, and both begin with the cleaned dictionary terms |
| LegacyGoogle.Translate | translator/providers/google.py:50-65 | empty text requests nothing and gives nothing; otherwise exactly the one URL is requested; a parsed body gives exactly its parse, and a failed fetch or malformed body gives nothing; a non-empty result comes from an object the fetch returned |
| Tatoeba.UrlFields | translate_logic/providers/tatoeba.py:13-47 | the query splits back into seven parameters in the fixed order, `q` second holding `quote_plus` of the normalised text and `limit=5` last |
| Tatoeba.ParamsSplitBack | translate_logic/providers/tatoeba.py:38-47 | whatever the encoded text, the joined parameters split back into themselves |
| Tatoeba.RussianOf | translate_logic/providers/tatoeba.py:89-95 | a translation counts exactly when its text is non-blank, its language is `rus`, and `is_direct` is not the boolean false; it then gives its stripped text |
| Tatoeba.Pair | translate_logic/providers/tatoeba.py:96-99 | one example per accepted translation, all with the item's sentence, in order |
| Tatoeba.ItemExamples | translate_logic/providers/tatoeba.py:78-87 | an item that is not a dict, not in `eng`, or without non-blank text gives no examples |
| Tatoeba.ItemExamplesWellFormed | translate_logic/providers/tatoeba.py:96-99 | every example has a non-empty normalised sentence and a non-empty normalised translation |
| Tatoeba.AcceptedTranslationYields | translate_logic/providers/tatoeba.py:88-99 | every accepted translation of an accepted item yields its example |
| Tatoeba.ParseWith | translate_logic/providers/tatoeba.py:65-104 | a non-object root or a `data` that is not a list gives nothing; the examples have no repeated (en, ru) pair and are well formed |
| Tatoeba.FirstSeenOrder | translate_logic/providers/tatoeba.py:69-103 | for any payload object whose `data` is a list, the examples are exactly the candidates, deduplicated, and more items only extend the list: first-seen order |
| Tatoeba.Translate | translate_logic/providers/tatoeba.py:50-62 | empty text requests nothing and gives nothing; otherwise exactly the one URL is requested; the result has no repeats, is well formed, and is exactly the parse of a parsed body; a failed fetch or malformed body gives nothing |
| LegacyTatoeba.Parse | translator/providers/tatoeba.py:69-106 | a non-object root gives nothing; the examples have no repeated pair and are well formed |
| LegacyTatoeba.NonStringKeysRejected | translator/providers/tatoeba.py:120-128 | an item with a non-string key is rejected whole |
| LegacyTatoeba.AgreesOnDecoded | translator/providers/tatoeba.py:69-106 | on any value `json.loads` can produce, the older parse equals the newer one |
| LegacyTatoeba.Translate | translator/providers/tatoeba.py:52-66 | empty text requests nothing and gives nothing; otherwise exactly the one URL is requested; the result has no repeats, is well formed, and is exactly the parse of a parsed body; a failed fetch or malformed body gives nothing |
| DictionaryApi.UrlEncodesText | translate_logic/providers/dictionary_api.py:12-22 | the URL is the entries endpoint followed by URL-safe text that percent-decodes back to the word's UTF-8 bytes |
| DictionaryApi.DefinitionText | translate_logic/providers/dictionary_api.py:56-60 | a definition contributes a sentence exactly when its `example` is a non-blank string, and the sentence is that string stripped and normalised |
| DictionaryApi.Unpaired | translate_logic/providers/dictionary_api.py:61 | every example has the sentence and no translation |
| DictionaryApi.PhoneticText | translate_logic/providers/dictionary_api.py:69-72 | a phonetic contributes a candidate exactly when its `text` is a non-blank string |
| DictionaryApi.PhoneticCandidates | translate_logic/providers/dictionary_api.py:68-72 | there are no candidates exactly when no phonetic has non-blank text |
| DictionaryApi.SelectFrom | translate_logic/providers/dictionary_api.py:73-78 | nothing exactly when there are no candidates; otherwise the first candidate holding `əʊ` or `ɒ` when one does, else the first candidate |
| DictionaryApi.SelectPhonetics | translate_logic/providers/dictionary_api.py:67-78 | nothing exactly when no phonetic has non-blank text, otherwise the selection over the candidates in order |
| DictionaryApi.ParseWith | translate_logic/providers/dictionary_api.py:42-64 | a root that is not a list gives no pronunciation and no examples; for a list, the pronunciation is the one selected from the phonetics of all entries in order; examples are distinct and untranslated |
| DictionaryApi.ExamplesCharacterised | translate_logic/providers/dictionary_api.py:50-62 | every example is non-empty and normalised, untranslated, distinct by sentence, and a sentence appears exactly when some definition, in entry, meaning, definition order, yields it; the examples are those sentences with repeats removed, first occurrence kept |
| DictionaryApi.ExamplesInOrder | translate_logic/providers/dictionary_api.py:50-62 | first-seen order: of two examples, the earlier one's sentence occurs among the definitions' examples before any occurrence of the later one's |
| DictionaryApi.FirstSeenOrder | translate_logic/providers/dictionary_api.py:50-62 | examples keep first-seen order: later entries only add to the end |
| DictionaryApi.EntryPhoneticsAppend | translate_logic/providers/dictionary_api.py:50-51 | phonetics are gathered across all entries, in entry order |
| DictionaryApi.Translate | translate_logic/providers/dictionary_api.py:25-39 | empty text requests nothing and gives nothing; otherwise exactly the one URL is requested; a parsed body gives exactly its parse, and a failed fetch or malformed body gives the empty result; a non-empty result comes from a list the fetch returned |
| LegacyDictionaryApi.Parse | translator/providers/dictionary_api.py:46-68 | a root that is not a list gives nothing; for a list, the pronunciation is the one selected from the phonetics of all string-keyed entries in order; examples are distinct and untranslated |
| LegacyDictionaryApi.AgreesOnDecoded | translator/providers/dictionary_api.py:85-104 | on any value `json.loads` can produce, the stricter key check changes nothing: the older parse equals the newer one |
| LegacyDictionaryApi.NonStringKeyedEntriesIgnored | translator/providers/dictionary_api.py:96-104 | entries whose keys are not all strings are dropped, so a list of only such entries gives nothing |
| LegacyDictionaryApi.Translate | translator/providers/dictionary_api.py:27-43 | empty text requests nothing and gives nothing; otherwise exactly the one URL is requested; a parsed body gives exactly its parse, and a failed fetch or malformed body gives the empty result; a non-empty result comes from a list the fetch returned |
| TranslationState.CanReuse | desktop_app/controllers/translation_state.py:21-23 | nothing is reused while loading or without a stored result |
| TranslationState.ReuseAfterUpdate | desktop_app/controllers/translation_state.py:17-27 | after storing a text and a result, reuse is allowed exactly when nothing is loading, the result succeeded and the asked text is the stored text stripped |
| TranslationState.NoReuseAfterReset | desktop_app/controllers/translation_state.py:13-27 | after a reset nothing is reused |
| TranslationState.ReusedTextIsStripped | desktop_app/controllers/translation_state.py:27 | only a text without surrounding whitespace can match |
| TranslationState.NextId | desktop_app/controllers/translation_state.py:35-38 | the new id is exactly the current id plus one, it becomes the current id, and nothing of it has been presented |
| TranslationState.RunCounts | desktop_app/controllers/translation_state.py:35-47 | over any sequence of calls, the id grows by exactly one per new request and the presented id is never stale |
| TranslationState.ActiveUntilNext | desktop_app/controllers/translation_state.py:35-41 | a request stays active exactly until another request is issued |
| TranslationState.PresentedUntilNext | desktop_app/controllers/translation_state.py:37-47 | once presented, a result is not presented again in a visible window until the next request |
| TranslationState.PresentOnce | desktop_app/controllers/translation_state.py:43-47 | right after presenting nothing is presented again in a visible window; a new request or a hidden window always asks for presenting |
| Config.GetDict | desktop_app/config.py:168-171 | a value comes back as a dict exactly when it is an object |
| Config.GetStr | desktop_app/config.py:174-177 | the value when it is a string, else the default |
| Config.ParseReadsPaths | desktop_app/config.py:108-139 | every setting is the string at its path in the document, or its default when the path is missing or ends elsewhere than at a string; a document that is not an object gives the defaults |
| Config.FieldsRead | desktop_app/config.py:113-130 | the field mapping is read under `anki` → `fields`, so when `anki` is not an object every field name is empty |
| Config.ToJson | desktop_app/config.py:148-165 | what is written is a JSON document with string keys only |
| Config.RoundTrip | desktop_app/config.py:108-165 | parsing what is written gives back the settings |
| Config.ApplyEnvOverrides | desktop_app/config.py:142-145 | the defaults exactly when `TRANSLATOR_RESET`, stripped, is `"1"`, otherwise the settings unchanged |
| Config.LoadSaved | desktop_app/config.py:68-77 | a saved file loads back to the saved settings unless a reset is requested; a missing or unreadable file loads the defaults |
| Cambridge.FirstText | translate_logic/providers/cambridge.py:285-293 | the first span whose normalised text is non-empty gives the text; nothing is returned exactly when every candidate's text is empty |
| Cambridge.IpaFrom | translate_logic/providers/cambridge.py:226-233 | the predicates are tried in order; the first that finds a node with non-empty text wins, and nothing is returned exactly when none does |
| Cambridge.ExtractIpaUk | translate_logic/providers/cambridge.py:207-233 | a UK pronunciation span with text wins; otherwise the first of the four predicates, in order, whose first node has text gives it; nothing is returned exactly when none of them finds text |
| Cambridge.NormalizeLang | translate_logic/providers/cambridge.py:372-376 | None for a missing or all-whitespace value, otherwise the stripped, lower-cased, non-empty value |
| Cambridge.AcceptedTexts | translate_logic/providers/cambridge.py:244-258 | a text is collected exactly when some span outside an example with an accepted language carries it |
| Cambridge.ExtractTranslations | translate_logic/providers/cambridge.py:236-259 | no duplicates; a string is returned exactly when some `trans` span with no `examp`/`dexamp` ancestor, whose language is absent or starts with the wanted one, has it as its normalised text; every string is non-empty and normalised |
| Seqs.DedupOrder | translate_logic/providers/cambridge.py:257-258 | the append-if-unseen loop keeps first-seen order: of two kept items, the earlier one occurs in the input before any occurrence of the later one |
| Cambridge.ExtractTranslationsOrder | translate_logic/providers/cambridge.py:236-259 | document order: of two returned strings, the earlier one comes from an accepted span that precedes every accepted span carrying the later one |
| Cambridge.FirstTranslation | translate_logic/providers/cambridge.py:236-259 | the first returned string is the text of the first accepted span |
| Cambridge.NoLangFilter | translate_logic/providers/cambridge.py:250-255 | without a wanted language every non-empty translation span outside an example is kept, whatever its `lang` |
| Cambridge.ExtractEntryTranslations | translate_logic/providers/cambridge.py:306-319 | every string is non-empty and normalised; an entry with no definition blocks is read like a whole page |
| Cambridge.BuildExampleEnglish | translate_logic/providers/cambridge.py:296-303 | the `eg` sentence when it has text, else the `lu` lead-in |
| Cambridge.ExampleOf | translate_logic/providers/cambridge.py:269-276 | an example is built exactly when the sentence, the lead-in or the block's own text is non-empty; its translation is the first `trans` text |
| Cambridge.ExamplesOf | translate_logic/providers/cambridge.py:338-346 | at most one example per block, every example with a non-empty normalised sentence |
| Cambridge.LengthScore | translate_logic/providers/cambridge.py:360-366 | the length bonus is 2 exactly for 20 to 120 characters, negative exactly below 10 or above 160, and within -2..2 |
| Cambridge.ScoreWith | translate_logic/providers/cambridge.py:356-369 | the score lies in -3..6; a non-empty translation gives at least 1, none gives at most 2 |
| Cambridge.ScoreAsWritten | translate_logic/providers/cambridge.py:356-369 | the score with the ellipsis literal exactly as the source spells it, within -3..6 |
| Cambridge.Score | translate_logic/providers/cambridge.py:356-369 | the score with the intended Unicode ellipsis, within -3..6; the model ranks with this one |
| Cambridge.TranslationBonus | translate_logic/providers/cambridge.py:358-359 | a non-empty translation adds exactly 4 to the score; an empty one counts as none |
| Cambridge.UnicodeEllipsisMissed | translate_logic/providers/cambridge.py:367 | with the literal as written, a sentence ending in `…` escapes the ellipsis penalty that the corrected score applies |
| Cambridge.RankExamples | translate_logic/providers/cambridge.py:350-353 | the result is a permutation of the input in descending score, and a list without repeats stays without repeats |
| Cambridge.RankStable | translate_logic/providers/cambridge.py:350-353 | examples with equal score keep their original relative order (the index tie-break) |
| Cambridge.ExtractExamples | translate_logic/providers/cambridge.py:262-282 | no duplicates; exactly the examples built from the page's `examp` blocks; every example well formed; ranked by score |
| Cambridge.ExtractExamplesStable | translate_logic/providers/cambridge.py:262-282 | among examples of equal score, the page's ranked examples keep the first-seen order of the deduplicated example list |
| Cambridge.EntryExampBlocks | translate_logic/providers/cambridge.py:323-337 | the example blocks inside definition blocks, or all of the entry's example blocks when there are none there |
| Cambridge.ExtractEntryExamples | translate_logic/providers/cambridge.py:322-347 | a ranked permutation of the examples built from the entry's example blocks, repeats kept |
| Cambridge.ExtractEntryExamplesStable | translate_logic/providers/cambridge.py:322-353 | among examples of equal score, an entry's ranked examples keep the document order of its example blocks |
| Cambridge.EntriesIpa | translate_logic/providers/cambridge.py:140-142 | the pronunciation of the first entry that has one, all earlier entries having none; nothing is returned exactly when no entry has one |
| Cambridge.ParsePage | translate_logic/providers/cambridge.py:130-160 | translations are cleaned; examples have no repeated (en, ru) pair and are well formed; in the entry path the pronunciation is the first entry's that has one, the translations are all entries' translations in order, cleaned, and the examples are the entries' examples in first-seen order; without entries the whole page is read directly |
| Cambridge.BuildQueries | translate_logic/providers/cambridge.py:191-200 | no query exactly for all-whitespace text; the first query is `quote_plus` of the normalised text; at most two distinct queries, the second being the slug, and there is a second exactly when the slug is non-empty and differs from the first; no query holds `&` |
| Cambridge.SearchUrlFields | translate_logic/providers/cambridge.py:203-204 | a search URL is the search endpoint followed by a query string that splits back into its `datasetsearch` and `q` parameters |
| Cambridge.UrlFields | translate_logic/providers/cambridge.py:52-58 | both URLs carry the query in `q` with their own dataset, and the two URLs differ |
| Cambridge.PageOf | translate_logic/providers/cambridge.py:83-94 | a failed fetch reads as the empty page; a body is parsed, with the Russian language filter on the Russian page |
| Cambridge.MergePages | translate_logic/providers/cambridge.py:98-107 | found exactly when either page has translations; Russian translations and examples win over English ones; a non-empty English IPA wins, and otherwise the Russian IPA is taken; examples are the chosen list re-ranked |
| Cambridge.MergePagesStable | translate_logic/providers/cambridge.py:100 | among examples of equal score, the merged examples keep the order of the chosen page's list |
| Cambridge.QueryOutcome | translate_logic/providers/cambridge.py:73-96 | a query whose two fetches both fail is skipped, and a kept outcome satisfies the result invariant |
| Cambridge.QuerySkipped | translate_logic/providers/cambridge.py:79-96 | a query is skipped exactly when both fetches fail or one of the pages does not parse |
| Cambridge.QueryMerges | translate_logic/providers/cambridge.py:79-107 | a query that is not skipped yields the merge of its English page, read without a language filter, and its English-Russian page, keeping Russian translations |
| Cambridge.Outcomes | translate_logic/providers/cambridge.py:72-96 | one outcome per query, in query order |
| Cambridge.Tried | translate_logic/providers/cambridge.py:108-109 | queries are tried until the first found result, and no further |
| Cambridge.Search | translate_logic/providers/cambridge.py:71-120 | the loop's result always satisfies the result invariant |
| Cambridge.SearchPicks | translate_logic/providers/cambridge.py:71-120 | the loop returns exactly the reference choice: first found, else first fallback, else the empty result |
| Cambridge.SearchRequests | translate_logic/providers/cambridge.py:72-77 | the loop requests both pages of every query it tries and nothing else |
| Cambridge.PickFinds | translate_logic/providers/cambridge.py:108-109 | the answer is found exactly when some query finds translations, and it is then the first such query's result |
| Cambridge.PickFallback | translate_logic/providers/cambridge.py:110-114 | when nothing is found, the answer is the first outcome with a pronunciation or examples |
| Cambridge.Translate | translate_logic/providers/cambridge.py:61-120 | blank text requests nothing and finds nothing; otherwise the result is the reference choice over the query outcomes, found exactly when some query finds translations, and the first such one |
| LegacyCambridge.BuildUrls | translator/providers/cambridge.py:17-55 | both URLs are their dictionary prefix followed by the same Cambridge slug of the text |
| LegacyCambridge.UrlsOfBlankText | translator/providers/cambridge.py:50-55 | blank text yields the bare prefixes (it is not guarded against), and the slug part never holds a space |
| LegacyCambridge.ExtractIpaUk | translator/providers/cambridge.py:161-172 | only `pron dpron` spans under a `uk` ancestor count; the first with non-empty normalised text gives it, all earlier ones being empty, and nothing is returned exactly when all are empty |
| LegacyCambridge.Absolute | translator/providers/cambridge.py:185-187 | an `http://` or `https://` source is kept as is, any other gets the site prefix, so the result is always absolute |
| LegacyCambridge.ExtractAudioUk | translator/providers/cambridge.py:175-188 | the first UK `audio/mpeg` source with a non-blank `src` gives the absolute URL; nothing is returned exactly when every such `src` is blank |
| LegacyCambridge.ExtractTranslations | translator/providers/cambridge.py:191-205 | no duplicates; a string is returned exactly when some `trans` span outside an example has it as its non-empty normalised text; no language filter |
| LegacyCambridge.TranslationsInOrder | translator/providers/cambridge.py:191-205 | document order: the earlier of two translations comes from a kept span before every kept span carrying the later one, and the first translation is the text of the first kept span |
| LegacyCambridge.ExampleOf | translator/providers/cambridge.py:214-221 | an example is built exactly when the `eg` sentence or the block's text is non-empty (no lead-in); its translation is the first `trans` text |
| LegacyCambridge.ExtractExamples | translator/providers/cambridge.py:208-222 | at most one example per `examp` block, all well formed, in document order and neither deduplicated nor ranked |
| LegacyCambridge.ParsePage | translator/providers/cambridge.py:127-142 | the page has a `di-body` or an entry exactly when some node of the tree is one; the pronunciation, audio, translations and examples are those read off the whole page by the extractors |
| LegacyCambridge.Decide | translator/providers/cambridge.py:90-124 | found exactly when the Russian page has a `di-body`, an entry and a translation; then the first Russian translation is given, a non-empty English pronunciation and audio win over the Russian ones, Russian examples win over English ones, and the errors are exactly the "missing" notes of the absent fields, each once, in the order IPA, audio, examples; otherwise every field is empty and no error is added |
| LegacyCambridge.MissingNotes | translator/providers/cambridge.py:110-115 | the notes for missing fields are exactly the missing ones, each once, in the order IPA, audio, examples |
| LegacyCambridge.Translate | translator/providers/cambridge.py:58-124 | a failed English fetch stops before the Russian one and records its message; a failed Russian fetch records its message; a rejected body records the parse failure; a found result is the decision over the two parsed pages |

## Left out

- The stdlib HTML tokenizer and `json.loads` are not modelled. Their output (parser callbacks, a decoded JSON value) is the input of the model, and "the parser raised" is the `Malformed` body.
- Entity decoding (`convert_charrefs`) belongs to the tokenizer. Callback texts are taken as already decoded.
- Strings are sequences of Unicode scalar values. `lower()` and `casefold()` are modelled per character on ASCII, Latin-1 and Cyrillic capitals, including `Ё`; other Unicode case mappings, including multi-character folds, are left out.
- JSON numbers are never read by the adapters. They are an integer placeholder, and floating point is not modelled.
- The cache's float `time.monotonic()` clock is an integer `now` parameter. `ttl` is an integer.
- Networking, `asyncio.gather` and the aiohttp client (`translator/http.py`) are left out. The two Cambridge fetches of a query are modelled as two independent inputs.
- The cache-through fetch wrapper in `translator/http.py` is left out because it is glue around the cache.
- Logging calls are left out: they change no result.
- Fetch.FetchErrorMessage: the text of a `FetchError` is assumed to be the HTTP helper's "Failed to fetch" message followed by the URL; other messages are not modelled.
- `config_path`, the filesystem side of `load_config` / `save_config`, and `json.dumps` are left out. A settings file is modelled as missing, unreadable, or a decoded value. `TRANSLATOR_RESET` is a parameter.
- The GTK UI, D-Bus service, process lock, translation service and executor, `translator/engine.py` and `translator/cli.py` are left out. The engine and CLI are stale against the record types they use, so no orchestration can be read from them.
- The `TranslationState` holder dataclass only groups the memory and the tracker, so it is not modelled separately.
- `TranslationResult` is reduced to its status, the only field `can_reuse` reads. The status is `Success` or another status code.
- `QueryLimit.MAX_CHARS` is declared but never used, so queries are not truncated, and the model does not truncate them.
- An end tag pops the top open element whatever its name (`HtmlBuilder.EndTagNamesIrrelevant`); no matching against open elements is modelled.
- Cambridge.Search: its own contract states only the result invariant. What the loop returns and requests is stated by `Cambridge.SearchPicks` and `Cambridge.SearchRequests`.
- Cambridge.ExtractEntryTranslations: states normalisation and the no-definition-block case. The per-block order is given by its definition, not its contract.
- LegacyCambridge.ExtractExamples: states size and well-formedness. Document order is by definition; `LegacyCambridge.ExamplesInOrder` states that blocks contribute in order.
- Google.TermsOf, Google.AltWordsOf: state only that non-object items contribute nothing. The per-term contributions are stated by `Google.TermOf` and `Google.AltWordOf`.
- Cambridge.RankExamples: ranks with the corrected `Cambridge.Score`, not the as-written `Cambridge.ScoreAsWritten` (see "## Findings"). So `Cambridge.ExtractExamples`, `Cambridge.ExtractEntryExamples`, `Cambridge.ParsePage`, `Cambridge.MergePages` and `Cambridge.Translate` order examples containing `…` as intended, not as the code at translate_logic/providers/cambridge.py:367 does. A sentence containing `…` scores one lower here than in the source (`Cambridge.UnicodeEllipsisMissed`), so it can rank behind an example the source puts after it.
- The newer adapters import their helpers from `translate_logic` (`text`, `translation`, `html_parser`, `models`, `http`). Those modules are not part of this model, so they are assumed to behave like the `translator/` modules the model follows.
- LegacyCambridge.Translate: assumes a working fetcher. As written, translator/providers/cambridge.py:13 imports `Fetcher` from `translator.http`, which defines only `AsyncFetcher`, so the older Cambridge adapter cannot be imported at all. The model describes what its body would do.
- Cache.Get, Cache.Set: require that the ordered map has no repeated key, which Python's `OrderedDict` guarantees by construction.

## Findings

| source | as written | input that shows it | evidently intended | confidence | as-written member | corrected member |
|---|---|---|---|---|---|---|
| translate_logic/providers/cambridge.py:367 | the ellipsis test looks for the three characters U+00E2 U+20AC U+00A6, the UTF-8 bytes of `…` misread as Windows-1252 | the example `Example("Wait…", None)` scores -1, missing the -1 ellipsis penalty, because the real character U+2026 never matches | the penalty applies to the Unicode ellipsis U+2026, so the score is -2 | high (not executed) | Cambridge.UnicodeEllipsisMissed | Cambridge.Score |

=== FILE: cache.dfy ===
/**
 * The in-memory LRU + TTL cache of fetched pages (translator/cache.py).
 *
 * The `OrderedDict` is a sequence of items ordered from least to most
 * recently used; keys are distinct. The monotonic clock is a parameter
 * `now` of every operation, in whole seconds.
 */
module Cache {
  import opened Wrappers
  import Seqs

  /** `CacheLimit.MAX_ENTRIES` and `CacheLimit.TTL_SECONDS`. */
  const MaxEntries: int := 512
  const TtlSeconds: int := 3600

  /** `_CacheEntry`. */
  datatype Entry = Entry(value: string, expiresAt: int)

  datatype Item = Item(key: string, entry: Entry)

  /** `LruTtlCache`: the two settings and the ordered items. */
  datatype LruTtlCache = LruTtlCache(maxEntries: int, ttl: int, items: seq<Item>)

  /** A cache built with the default settings. */
  const Default: LruTtlCache := LruTtlCache(MaxEntries, TtlSeconds, [])

  function KeySet(items: seq<Item>): set<string>
  {
    set i | 0 <= i < |items| :: items[i].key
  }

  lemma KeySetAppend(a: seq<Item>, b: seq<Item>)
    ensures KeySet(a + b) == KeySet(a) + KeySet(b)
  {
    var ab := a + b;
    forall x | x in KeySet(ab) ensures x in KeySet(a) + KeySet(b) {
      var i :| 0 <= i < |ab| && ab[i].key == x;
      if i < |a| { assert ab[i] == a[i]; } else { assert ab[i] == b[i - |a|]; }
    }
    forall x | x in KeySet(a) ensures x in KeySet(ab) {
      var i :| 0 <= i < |a| && a[i].key == x;
      assert ab[i] == a[i];
    }
    forall x | x in KeySet(b) ensures x in KeySet(ab) {
      var i :| 0 <= i < |b| && b[i].key == x;
      assert ab[i + |a|] == b[i];
    }
  }

  lemma KeySetSingle(it: Item)
    ensures KeySet([it]) == {it.key}
  {
    assert [it][0].key == it.key;
    assert it.key in KeySet([it]);
  }

  /** Dictionary keys are unique. */
  predicate Distinct(items: seq<Item>)
  {
    forall i, j :: 0 <= i < j < |items| ==> items[i].key != items[j].key
  }

  /** `self._items.get(key)`. */
  function Find(items: seq<Item>, k: string): (r: Option<Entry>)
    ensures r.None? <==> k !in KeySet(items)
    ensures r.Some? ==> exists i :: 0 <= i < |items| && items[i] == Item(k, r.value)
  {
    if items == [] then None
    else if items[0].key == k then Some(items[0].entry)
    else
      var r := Find(items[1..], k);
      assert KeySet(items) == {items[0].key} + KeySet(items[1..]) by {
        assert forall i :: 1 <= i < |items| ==> items[i] == items[1..][i - 1];
      }
      assert r.Some? ==> exists i :: 0 <= i < |items| && items[i] == Item(k, r.value) by {
        if r.Some? {
          var i :| 0 <= i < |items[1..]| && items[1..][i] == Item(k, r.value);
          assert items[i + 1] == Item(k, r.value);
        }
      }
      r
  }

  /** With unique keys, the entry found for a key is the one stored under it. */
  lemma FindAt(items: seq<Item>, i: nat)
    requires Distinct(items) && i < |items|
    ensures Find(items, items[i].key) == Some(items[i].entry)
  {
    var r := Find(items, items[i].key);
    assert items[i].key in KeySet(items);
    var j :| 0 <= j < |items| && items[j] == Item(items[i].key, r.value);
  }

  /** `del self._items[key]`: the items without `k`, order kept. */
  function Remove(items: seq<Item>, k: string): (r: seq<Item>)
    ensures |r| <= |items|
    ensures KeySet(r) == KeySet(items) - {k}
  {
    if items == [] then []
    else
      var rest := Remove(items[1..], k);
      KeySetAppend([items[0]], items[1..]);
      KeySetSingle(items[0]);
      assert items == [items[0]] + items[1..];
      if items[0].key == k then rest
      else
        KeySetAppend([items[0]], rest);
        [items[0]] + rest
  }

  /** Deleting one key leaves every other key's entry as it was. */
  lemma {:induction false} RemoveFind(items: seq<Item>, k: string, k': string)
    requires k' != k
    ensures Find(Remove(items, k), k') == Find(items, k')
  {
    if items != [] {
      RemoveFind(items[1..], k, k');
    }
  }

  lemma {:induction false} RemoveDistinct(items: seq<Item>, k: string)
    requires Distinct(items)
    ensures Distinct(Remove(items, k))
    ensures k in KeySet(items) ==> |Remove(items, k)| == |items| - 1
    ensures k !in KeySet(items) ==> Remove(items, k) == items
  {
    if items != [] {
      var rest := Remove(items[1..], k);
      assert Distinct(items[1..]);
      RemoveDistinct(items[1..], k);
      KeySetAppend([items[0]], items[1..]);
      KeySetSingle(items[0]);
      assert items == [items[0]] + items[1..];
      assert items[0].key !in KeySet(items[1..]);
      if items[0].key != k {
        var r := [items[0]] + rest;
        forall i, j | 0 <= i < j < |r| ensures r[i].key != r[j].key {
          assert r[j] == rest[j - 1];
          if i == 0 {
            assert r[j].key in KeySet(rest);
          } else {
            assert r[i] == rest[i - 1];
          }
        }
      }
    }
  }

  /** `self._items.move_to_end(key)` for a key that is present. */
  function MoveToEnd(items: seq<Item>, k: string): (r: seq<Item>)
    requires k in KeySet(items)
    ensures Distinct(items) ==> Distinct(r)
    ensures |r| > 0 && r[|r| - 1].key == k
    ensures Distinct(items) ==> |r| == |items|
    ensures KeySet(r) == KeySet(items)
    ensures forall k' :: Find(r, k') == Find(items, k')
  {
    var e := Find(items, k).value;
    var rest := Remove(items, k);
    var r := rest + [Item(k, e)];
    assert Distinct(items) ==> Distinct(rest) && |rest| == |items| - 1 by {
      if Distinct(items) { RemoveDistinct(items, k); }
    }
    KeySetAppend(rest, [Item(k, e)]);
    KeySetSingle(Item(k, e));
    assert Distinct(items) ==> Distinct(r) by {
      if Distinct(items) {
        forall i, j | 0 <= i < j < |r| ensures r[i].key != r[j].key {
          assert r[i] == rest[i];
          if j < |rest| { assert r[j] == rest[j]; } else { assert r[i].key in KeySet(rest); }
        }
      }
    }
    forall k' ensures Find(r, k') == Find(items, k') {
      FindAppend(rest, Item(k, e), k');
      if k' != k { RemoveFind(items, k, k'); }
    }
    r
  }

  lemma {:induction false} FindAppend(items: seq<Item>, it: Item, k: string)
    ensures Find(items + [it], k) == if k in KeySet(items) then Find(items, k)
                                     else if it.key == k then Some(it.entry) else None
  {
    if items != [] {
      assert (items + [it])[1..] == items[1..] + [it];
      FindAppend(items[1..], it, k);
      assert KeySet(items) == {items[0].key} + KeySet(items[1..]) by {
        assert forall i :: 1 <= i < |items| ==> items[i] == items[1..][i - 1];
      }
    }
  }

  /** The entry is still fresh at `now`. */
  predicate Alive(it: Item, now: int)
  {
    it.entry.expiresAt > now
  }

  /**
   * `cache.get(key)` (translator/cache.py:37-46): a miss leaves the cache as
   * it was, an expired hit deletes the key and misses, a fresh hit moves the
   * key to the most-recently-used end.
   */
  function Get(c: LruTtlCache, key: string, now: int): (r: (LruTtlCache, Option<string>))
    requires Distinct(c.items)
    ensures r.1.Some? <==> exists i :: 0 <= i < |c.items| && c.items[i].key == key && Alive(c.items[i], now)
    ensures r.1.Some? ==>
              forall i :: 0 <= i < |c.items| && c.items[i].key == key ==> r.1.value == c.items[i].entry.value
    ensures r.0.maxEntries == c.maxEntries && r.0.ttl == c.ttl
    ensures key !in KeySet(c.items) ==> r.0 == c
    ensures Find(r.0.items, key) == if r.1.Some? then Find(c.items, key) else None
    ensures forall k :: k != key ==> Find(r.0.items, k) == Find(c.items, k)
    ensures r.1.Some? ==> r.0.items[|r.0.items| - 1].key == key
    ensures Distinct(r.0.items)
    ensures |r.0.items| <= |c.items|
  {
    assert forall i :: 0 <= i < |c.items| && c.items[i].key == key ==> Find(c.items, key) == Some(c.items[i].entry) by {
      forall i | 0 <= i < |c.items| && c.items[i].key == key
        ensures Find(c.items, key) == Some(c.items[i].entry)
      {
        FindAt(c.items, i);
      }
    }
    RemoveDistinct(c.items, key);
    forall k | k != key ensures Find(Remove(c.items, key), k) == Find(c.items, k) {
      RemoveFind(c.items, key, k);
    }
    match Find(c.items, key)
    case None => (c, None)
    case Some(e) =>
      if e.expiresAt <= now then
        (c.(items := Remove(c.items, key)), None)
      else
        (c.(items := MoveToEnd(c.items, key)), Some(e.value))
  }

  /** `_purge_expired(now)`: drop every entry whose expiry is not after `now`, order kept. */
  function Purge(items: seq<Item>, now: int): (r: seq<Item>)
    ensures |r| <= |items|
    ensures forall i :: 0 <= i < |r| ==> Alive(r[i], now)
    ensures KeySet(r) <= KeySet(items)
  {
    if items == [] then []
    else
      var rest := Purge(items[1..], now);
      KeySetAppend([items[0]], items[1..]);
      KeySetSingle(items[0]);
      assert items == [items[0]] + items[1..];
      if Alive(items[0], now) then
        KeySetAppend([items[0]], rest);
        [items[0]] + rest
      else rest
  }

  /** Purging keeps exactly the fresh entries: a key survives with its entry iff that entry is fresh. */
  lemma {:induction false} PurgeFind(items: seq<Item>, now: int, k: string)
    requires Distinct(items)
    ensures Distinct(Purge(items, now))
    ensures Find(Purge(items, now), k) ==
              if Find(items, k).Some? && Find(items, k).value.expiresAt > now then Find(items, k) else None
  {
    if items != [] {
      var rest := Purge(items[1..], now);
      assert Distinct(items[1..]);
      PurgeFind(items[1..], now, k);
      KeySetAppend([items[0]], items[1..]);
      KeySetSingle(items[0]);
      assert items == [items[0]] + items[1..];
      assert items[0].key !in KeySet(items[1..]);
      if Alive(items[0], now) {
        var r := [items[0]] + rest;
        forall i, j | 0 <= i < j < |r| ensures r[i].key != r[j].key {
          assert r[j] == rest[j - 1];
          if i == 0 {
            assert r[j].key in KeySet(rest);
          } else {
            assert r[i] == rest[i - 1];
          }
        }
      } else if items[0].key == k {
        assert k !in KeySet(rest);
      }
    }
  }

  // ---------------------------------------------------------------- order

  /** The guard keeping every item whose key is not `k`. */
  function NotKey(k: string): Item -> bool
  {
    (it: Item) => it.key != k
  }

  /** The guard keeping every item still fresh at `now`. */
  function AliveAt(now: int): Item -> bool
  {
    (it: Item) => Alive(it, now)
  }

  /** `del` removes exactly the items under `k`; the others stay, in their order. */
  lemma {:induction false} RemoveIsFilter(items: seq<Item>, k: string)
    ensures Remove(items, k) == Seqs.Filter(items, NotKey(k))
  {
    if items != [] {
      RemoveIsFilter(items[1..], k);
    }
  }

  /** Purging removes exactly the expired items; every fresh one stays, in its order. */
  lemma {:induction false} PurgeIsFilter(items: seq<Item>, now: int)
    ensures Purge(items, now) == Seqs.Filter(items, AliveAt(now))
  {
    if items != [] {
      PurgeIsFilter(items[1..], now);
    }
  }

  /** `move_to_end` keeps the other items in their order and puts `k`'s item last. */
  lemma MoveToEndOrder(items: seq<Item>, k: string)
    requires k in KeySet(items)
    ensures MoveToEnd(items, k) == Seqs.Filter(items, NotKey(k)) + [Item(k, Find(items, k).value)]
  {
    RemoveIsFilter(items, k);
  }

  /** A key that is absent is filtered from nothing. */
  lemma FilterAbsent(items: seq<Item>, k: string)
    requires k !in KeySet(items)
    ensures Seqs.Filter(items, NotKey(k)) == items
  {
    forall i | 0 <= i < |items| ensures NotKey(k)(items[i]) {
      assert items[i].key in KeySet(items);
    }
    Seqs.FilterAll(items, NotKey(k));
  }

  /**
   * The order effect of `get`: the other keys keep their relative order,
   * and the key is moved to the most-recently-used end on a fresh hit,
   * dropped otherwise.
   */
  lemma GetOrder(c: LruTtlCache, key: string, now: int)
    requires Distinct(c.items)
    ensures var (c', v) := Get(c, key, now);
            c'.items == Seqs.Filter(c.items, NotKey(key))
                        + (if v.Some? then [Item(key, Find(c.items, key).value)] else [])
  {
    match Find(c.items, key)
    case None =>
      FilterAbsent(c.items, key);
    case Some(e) =>
      if e.expiresAt <= now {
        RemoveIsFilter(c.items, key);
      } else {
        MoveToEndOrder(c.items, key);
      }
  }

  /** `self._items[key] = entry`: an existing key keeps its position, a new key goes last. */
  function Assign(items: seq<Item>, k: string, e: Entry): (r: seq<Item>)
    ensures KeySet(r) == KeySet(items) + {k}
    ensures Find(r, k) == Some(e)
  {
    if k in KeySet(items) then Replace(items, k, e)
    else
      KeySetAppend(items, [Item(k, e)]);
      KeySetSingle(Item(k, e));
      FindAppend(items, Item(k, e), k);
      items + [Item(k, e)]
  }

  /** Overwrite the entry stored under `k`, in place. */
  function Replace(items: seq<Item>, k: string, e: Entry): (r: seq<Item>)
    ensures KeySet(r) == KeySet(items)
    ensures k in KeySet(items) ==> Find(r, k) == Some(e)
    ensures Remove(r, k) == Remove(items, k)
  {
    if items == [] then []
    else
      var head := if items[0].key == k then Item(k, e) else items[0];
      var rest := Replace(items[1..], k, e);
      KeySetAppend([items[0]], items[1..]);
      KeySetSingle(items[0]);
      KeySetAppend([head], rest);
      KeySetSingle(head);
      assert items == [items[0]] + items[1..];
      var r := [head] + rest;
      assert r[1..] == rest;
      r
  }

  /**
   * `self._items[key] = entry` followed by `self._items.move_to_end(key)`:
   * the new entry ends up last, every other item keeps its place.
   */
  function Store(items: seq<Item>, k: string, e: Entry): (r: seq<Item>)
    ensures r == Remove(items, k) + [Item(k, e)]
  {
    AssignMoveToEnd(items, k, e);
    MoveToEnd(Assign(items, k, e), k)
  }

  /** Assigning then moving to the end puts the new entry last and keeps the others' order. */
  lemma AssignMoveToEnd(items: seq<Item>, k: string, e: Entry)
    ensures MoveToEnd(Assign(items, k, e), k) == Remove(items, k) + [Item(k, e)]
  {
    if k !in KeySet(items) {
      RemoveAppend(items, Item(k, e));
    }
  }

  lemma {:induction false} RemoveAppend(items: seq<Item>, it: Item)
    ensures Remove(items + [it], it.key) == Remove(items, it.key)
  {
    if items == [] {
      assert [it][1..] == [];
    } else {
      assert (items + [it])[1..] == items[1..] + [it];
      RemoveAppend(items[1..], it);
    }
  }

  /** `items` is what is left of `kept` once the least recently used items beyond `maxEntries` are gone. */
  predicate LruSuffix(items: seq<Item>, kept: seq<Item>, maxEntries: int)
  {
    && |items| == (if |kept| <= maxEntries then |kept| else maxEntries)
    && items == kept[|kept| - |items|..]
  }

  /**
   * `while len(self._items) > self.max_entries: self._items.popitem(last=False)`:
   * drop least recently used items until the limit holds. With a negative
   * limit the dictionary runs empty and `popitem` raises `KeyError` (None).
   */
  function Evict(items: seq<Item>, maxEntries: int): (r: Option<seq<Item>>)
    ensures r.None? <==> maxEntries < 0
    ensures r.Some? ==> LruSuffix(r.value, items, maxEntries)
  {
    if |items| <= maxEntries then Some(items)
    else if items == [] then None
    else
      var r := Evict(items[1..], maxEntries);
      assert r.Some? ==> items[1..][|items[1..]| - |r.value|..] == items[|items| - |r.value|..];
      r
  }

  lemma SuffixDistinct(items: seq<Item>, n: nat)
    requires Distinct(items) && n <= |items|
    ensures Distinct(items[n..])
    ensures KeySet(items[n..]) <= KeySet(items)
  {
    assert forall i :: 0 <= i < |items| - n ==> items[n..][i] == items[n + i];
  }

  /** Every item other than `key` is still fresh at `now`. */
  predicate FreshExcept(items: seq<Item>, key: string, now: int)
  {
    forall i :: 0 <= i < |items| ==> items[i].key == key || Alive(items[i], now)
  }

  /** Every key other than `key` maps to the entry it had in `orig`, and that entry is fresh. */
  predicate AgreesWith(items: seq<Item>, orig: seq<Item>, key: string, now: int)
  {
    forall k :: k != key && k in KeySet(items) ==>
      Find(items, k) == Find(orig, k) && Find(orig, k).value.expiresAt > now
  }

  /** `key` is the most recently used item and holds `e`. */
  predicate HoldsLast(items: seq<Item>, key: string, e: Entry)
  {
    |items| > 0 && items[|items| - 1].key == key && Find(items, key) == Some(e)
  }

  /**
   * `cache.set(key, value)` (translator/cache.py:48-62): purge expired
   * entries, store the value with expiry `now + ttl` as most recently used,
   * then evict from the least recently used end down to `max_entries`.
   * None stands for the `KeyError` of a negative `max_entries`.
   */
  function Set(c: LruTtlCache, key: string, value: string, now: int): (r: Option<LruTtlCache>)
    requires Distinct(c.items)
    ensures r.None? <==> c.maxEntries < 0
    ensures r.Some? ==> r.value.maxEntries == c.maxEntries && r.value.ttl == c.ttl
    ensures r.Some? ==> Distinct(r.value.items) && |r.value.items| <= c.maxEntries
    ensures r.Some? ==> FreshExcept(r.value.items, key, now)
    ensures r.Some? && c.maxEntries >= 1 ==> HoldsLast(r.value.items, key, Entry(value, now + c.ttl))
    ensures r.Some? ==> AgreesWith(r.value.items, c.items, key, now)
    ensures r.Some? ==>
              LruSuffix(r.value.items, Remove(Purge(c.items, now), key) + [Item(key, Entry(value, now + c.ttl))], c.maxEntries)
  {
    var e := Entry(value, now + c.ttl);
    var purged := Purge(c.items, now);
    var kept := Store(purged, key, e);
    KeptFacts(c.items, now, key, e);
    match Evict(kept, c.maxEntries)
    case None => None
    case Some(items) =>
      var n := |kept| - |items|;
      assert items == kept[n..];
      SuffixFacts(c.items, now, key, e, kept, n);
      assert c.maxEntries >= 1 ==> n < |kept|;
      Some(c.(items := items))
  }

  /** What eviction keeps, a suffix of the items, still has the properties of the whole. */
  lemma SuffixFacts(orig: seq<Item>, now: int, key: string, e: Entry, kept: seq<Item>, n: nat)
    requires Distinct(kept) && n <= |kept| && |kept| > 0 && kept[|kept| - 1] == Item(key, e)
    requires FreshExcept(kept, key, now) && AgreesWith(kept, orig, key, now)
    ensures Distinct(kept[n..])
    ensures FreshExcept(kept[n..], key, now) && AgreesWith(kept[n..], orig, key, now)
    ensures n < |kept| ==> HoldsLast(kept[n..], key, e)
  {
    SuffixDistinct(kept, n);
    SuffixFresh(kept, n, key, now);
    SuffixAgrees(orig, now, key, kept, n);
    if n < |kept| {
      SuffixHoldsLast(kept, n, key, e);
    }
  }

  lemma SuffixFresh(kept: seq<Item>, n: nat, key: string, now: int)
    requires n <= |kept| && FreshExcept(kept, key, now)
    ensures FreshExcept(kept[n..], key, now)
  {
    assert forall i :: 0 <= i < |kept| - n ==> kept[n..][i] == kept[n + i];
  }

  lemma SuffixAgrees(orig: seq<Item>, now: int, key: string, kept: seq<Item>, n: nat)
    requires Distinct(kept) && n <= |kept| && AgreesWith(kept, orig, key, now)
    ensures AgreesWith(kept[n..], orig, key, now)
  {
    SuffixDistinct(kept, n);
    forall k | k != key && k in KeySet(kept[n..])
      ensures Find(kept[n..], k) == Find(orig, k) && Find(orig, k).value.expiresAt > now
    {
      SuffixFind(kept, n, k);
    }
  }

  lemma SuffixHoldsLast(kept: seq<Item>, n: nat, key: string, e: Entry)
    requires Distinct(kept) && n < |kept| && kept[|kept| - 1] == Item(key, e)
    ensures HoldsLast(kept[n..], key, e)
  {
    var items := kept[n..];
    SuffixDistinct(kept, n);
    assert items[|items| - 1] == Item(key, e);
    FindAt(items, |items| - 1);
  }

  /** The items `set` keeps before eviction: unique keys, fresh, and unchanged except for `key`. */
  lemma KeptFacts(items: seq<Item>, now: int, key: string, e: Entry)
    requires Distinct(items)
    ensures var kept := Remove(Purge(items, now), key) + [Item(key, e)];
            Distinct(kept) && FreshExcept(kept, key, now) && AgreesWith(kept, items, key, now)
  {
    var purged := Purge(items, now);
    PurgeFind(items, now, key);
    var rest := Remove(purged, key);
    RemoveDistinct(purged, key);
    var kept := rest + [Item(key, e)];
    KeySetAppend(rest, [Item(key, e)]);
    KeySetSingle(Item(key, e));
    forall i, j | 0 <= i < j < |kept| ensures kept[i].key != kept[j].key {
      assert kept[i] == rest[i];
      if j < |rest| { assert kept[j] == rest[j]; } else { assert kept[i].key in KeySet(rest); }
    }
    forall i | 0 <= i < |kept| && kept[i].key != key ensures Alive(kept[i], now) {
      assert kept[i] == rest[i];
      RemoveKeeps(purged, key, i);
    }
    forall k | k != key && k in KeySet(kept)
      ensures Find(kept, k) == Find(items, k) && Find(items, k).value.expiresAt > now
    {
      FindAppend(rest, Item(key, e), k);
      RemoveFind(purged, key, k);
      PurgeFind(items, now, k);
    }
  }

  /** Every item left after deleting a key was an item before. */
  lemma {:induction false} RemoveKeeps(items: seq<Item>, k: string, i: nat)
    requires i < |Remove(items, k)|
    ensures exists j :: 0 <= j < |items| && items[j] == Remove(items, k)[i]
  {
    if items != [] {
      if items[0].key == k {
        RemoveKeeps(items[1..], k, i);
        var j :| 0 <= j < |items[1..]| && items[1..][j] == Remove(items[1..], k)[i];
        assert items[j + 1] == items[1..][j];
      } else if i > 0 {
        RemoveKeeps(items[1..], k, i - 1);
        var j :| 0 <= j < |items[1..]| && items[1..][j] == Remove(items[1..], k)[i - 1];
        assert items[j + 1] == items[1..][j];
      }
    }
  }

  /** With unique keys, a suffix finds what the whole list finds, for the keys it holds. */
  lemma SuffixFind(items: seq<Item>, n: nat, k: string)
    requires Distinct(items) && n <= |items| && k in KeySet(items[n..])
    ensures Find(items[n..], k) == Find(items, k)
  {
    SuffixDistinct(items, n);
    var i :| 0 <= i < |items[n..]| && items[n..][i].key == k;
    assert items[n..][i] == items[n + i];
    FindAt(items[n..], i);
    FindAt(items, n + i);
  }

  /**
   * A value just stored is served back by `get` until its time-to-live has
   * passed, as long as the cache holds at least one entry.
   */
  lemma SetThenGet(c: LruTtlCache, key: string, value: string, now: int, t: int)
    requires Distinct(c.items) && c.maxEntries >= 1
    requires now <= t < now + c.ttl
    ensures Set(c, key, value, now).Some?
    ensures Get(Set(c, key, value, now).value, key, t).1 == Some(value)
  {
    var c' := Set(c, key, value, now).value;
    assert HoldsLast(c'.items, key, Entry(value, now + c.ttl));
    var i := |c'.items| - 1;
    assert c'.items[i] == Item(key, Entry(value, now + c.ttl)) by {
      FindAt(c'.items, i);
    }
  }

  /** Once the time-to-live has passed, `get` misses and drops the stored key. */
  lemma SetThenGetAfterTtl(c: LruTtlCache, key: string, value: string, now: int, t: int)
    requires Distinct(c.items) && c.maxEntries >= 0
    requires t >= now + c.ttl
    ensures Set(c, key, value, now).Some?
    ensures var g := Get(Set(c, key, value, now).value, key, t);
            g.1 == None && key !in KeySet(g.0.items)
  {
    var c' := Set(c, key, value, now).value;
    var e := Entry(value, now + c.ttl);
    if c.maxEntries >= 1 {
      assert HoldsLast(c'.items, key, e);
      assert Get(c', key, t) == (c'.(items := Remove(c'.items, key)), None);
    } else {
      assert c'.items == [];
      assert key !in KeySet(c'.items);
    }
  }

  lemma ExpiredEverywhere(items: seq<Item>, key: string, e: Entry, t: int)
    requires Distinct(items) && Find(items, key) == Some(e) && e.expiresAt <= t
    ensures forall i :: 0 <= i < |items| && items[i].key == key ==> !Alive(items[i], t)
  {
    forall i | 0 <= i < |items| && items[i].key == key ensures !Alive(items[i], t) {
      FindAt(items, i);
    }
  }

  lemma MoveLastStays(items: seq<Item>, k: string)
    requires Distinct(items) && |items| > 0 && items[|items| - 1].key == k
    ensures MoveToEnd(items, k) == items
  {
    var p := items[..|items| - 1];
    var last := items[|items| - 1];
    assert items == p + [last];
    assert k !in KeySet(p);
    assert Distinct(p);
    RemoveDistinct(p, k);
    RemoveAppend(p, last);
    FindAt(items, |items| - 1);
  }

  /** A second `get` of a key that just hit changes nothing and returns the same value. */
  lemma GetHitIdempotent(c: LruTtlCache, key: string, now: int)
    requires Distinct(c.items)
    requires Get(c, key, now).1.Some?
    ensures Get(Get(c, key, now).0, key, now) == Get(c, key, now)
  {
    var g := Get(c, key, now);
    MoveLastStays(g.0.items, key);
    FindAt(g.0.items, |g.0.items| - 1);
  }
}

=== FILE: cambridge.dfy ===
/**
 * The newer Cambridge Dictionary adapter (translate_logic/providers/cambridge.py).
 *
 * A word is looked up with one or two search queries; each query fetches an
 * English and an English-Russian page. A page is read from its HTML tree:
 * the UK pronunciation, the Russian translations and the usage examples,
 * taken per entry block when the page has any and from the whole page
 * otherwise. The two pages of a query are merged with Russian data first,
 * and the first query that yields translations wins.
 */
module Cambridge {
  import opened Wrappers
  import opened Text
  import Url
  import Query
  import Seqs
  import Ranking
  import Translation
  import opened Html
  import HtmlBuilder
  import opened Models
  import opened Fetch

  const BaseUrl: string := "https://dictionary.cambridge.org"
  const SearchUrl: string := BaseUrl + "/search/direct/"
  /** The language prefix Russian-page translations are filtered by. */
  const RussianLang: string := "ru"
  /** `CambridgeDataset` values. */
  const EnglishDataset: string := "english"
  const EnglishRussianDataset: string := "english-russian"

  datatype Urls = Urls(english: string, englishRussian: string)

  /** `CambridgePageData`: what one page yields. */
  datatype PageData = PageData(ipaUk: Option<string>, translations: seq<string>, examples: seq<Example>)

  /** `CambridgeResult`: the merged answer for a word. */
  datatype Result = Result(found: bool, translations: seq<string>, ipaUk: Option<string>, examples: seq<Example>)

  /** `_empty_page_data()`. */
  const EmptyPage: PageData := PageData(None, [], [])

  /** The all-empty, not-found result. */
  const NotFound: Result := Result(false, [], None, [])

  // ---------------------------------------------------------------- node predicates

  /** The whitespace-normalised text of a node. */
  function TextOf(l: Loc): string
  {
    NormalizeWhitespace(TextContent(l.node))
  }

  predicate HasText(l: Loc)
  {
    TextOf(l) != ""
  }

  /** `_is_entry_block`: an entry body, phrasal-verb block, or a dictionary or idiom block marked `pr`. */
  predicate IsEntryBlock(l: Loc)
  {
    var cs := Classes(l.node);
    cs != {}
    && ("entry-body__el" in cs || "pv-block" in cs
        || ("pr" in cs && "dictionary" in cs) || ("pr" in cs && "idiom-block" in cs))
  }

  predicate IsDefBlock(l: Loc)
  {
    l.node.tag == "div" && "def-block" in Classes(l.node)
  }

  predicate IsDefBody(l: Loc)
  {
    l.node.tag == "div" && "def-body" in Classes(l.node)
  }

  /** An example block: a `div` of class `examp`. */
  predicate IsExampBlock(l: Loc)
  {
    l.node.tag == "div" && "examp" in Classes(l.node)
  }

  /** The predicate `target.tag == "span" and class_name in target.classes()`. */
  function SpanWith(c: string): NodePredicate
  {
    (l: Loc) => l.node.tag == "span" && c in Classes(l.node)
  }

  predicate IsPron(l: Loc)
  {
    l.node.tag == "span" && "pron" in Classes(l.node) && "dpron" in Classes(l.node)
  }

  predicate IsIpa(l: Loc)
  {
    l.node.tag == "span" && "ipa" in Classes(l.node) && "dipa" in Classes(l.node)
  }

  predicate IsUkPron(l: Loc)
  {
    IsPron(l) && HasAncestorWithClass(l, "uk")
  }

  predicate IsUkIpa(l: Loc)
  {
    IsIpa(l) && HasAncestorWithClass(l, "uk")
  }

  /** The pronunciation predicates of `_extract_ipa_uk`, most specific first. */
  const IpaPredicates: seq<NodePredicate> := [IsUkPron, IsPron, IsUkIpa, IsIpa]

  // ---------------------------------------------------------------- text lookups

  /** The first non-empty normalised text among `ls`. */
  function FirstText(ls: seq<Loc>): (r: Option<string>)
    ensures r.None? <==> forall i :: 0 <= i < |ls| ==> TextOf(ls[i]) == ""
    ensures r.Some? ==> r.value != "" && NormalizeWhitespace(r.value) == r.value
    ensures r.Some? ==> exists i :: 0 <= i < |ls| && TextOf(ls[i]) == r.value
                                    && forall j :: 0 <= j < i ==> TextOf(ls[j]) == ""
  {
    match Seqs.FindFirst(ls, HasText)
    case None => None
    case Some(l) =>
      NormalizeIdempotent(TextContent(l.node));
      Some(TextOf(l))
  }

  /** `_extract_example_text`: the first `span` of class `c` under `l` with non-blank text. */
  function ExampleText(l: Loc, c: string): (r: Option<string>)
    ensures r.Some? ==> r.value != "" && NormalizeWhitespace(r.value) == r.value
  {
    FirstText(Matches(l, SpanWith(c)))
  }

  /** The text of the first node satisfying `p`, when that text is not blank. */
  function FirstNodeText(root: Loc, p: NodePredicate): (r: Option<string>)
    ensures r.Some? ==> r.value != "" && NormalizeWhitespace(r.value) == r.value
  {
    match FirstMatch(root, p)
    case None => None
    case Some(n) =>
      NormalizeIdempotent(TextContent(n.node));
      if TextOf(n) != "" then Some(TextOf(n)) else None
  }

  /** The first of `ps` whose first matching node has text. */
  function IpaFrom(root: Loc, ps: seq<NodePredicate>): (r: Option<string>)
    ensures r.None? <==> forall i :: 0 <= i < |ps| ==> FirstNodeText(root, ps[i]).None?
    ensures r.Some? ==> exists i :: 0 <= i < |ps| && r == FirstNodeText(root, ps[i])
                                    && forall j :: 0 <= j < i ==> FirstNodeText(root, ps[j]).None?
  {
    if ps == [] then None
    else
      assert forall i :: 0 < i < |ps| ==> ps[i] == ps[1..][i - 1];
      var t := FirstNodeText(root, ps[0]);
      if t.Some? then t
      else
        var r := IpaFrom(root, ps[1..]);
        if r.Some? then
          assert exists i :: 0 <= i < |ps| && r == FirstNodeText(root, ps[i])
                             && forall j :: 0 <= j < i ==> FirstNodeText(root, ps[j]).None? by {
            var k :| 0 <= k < |ps[1..]| && r == FirstNodeText(root, ps[1..][k])
                     && forall j :: 0 <= j < k ==> FirstNodeText(root, ps[1..][j]).None?;
            assert ps[k + 1] == ps[1..][k];
            forall j | 0 <= j < k + 1 ensures FirstNodeText(root, ps[j]).None? {
              if j > 0 { assert ps[j] == ps[1..][j - 1]; }
            }
          }
          r
        else r
  }

  /**
   * `_extract_ipa_uk`: the UK-scoped `pron` span, else any `pron` span, else
   * the UK-scoped `ipa` span, else any `ipa` span. Each kind looks at its
   * first node only; a blank first node passes on to the next kind.
   */
  function ExtractIpaUk(root: Loc): (r: Option<string>)
    ensures r.Some? ==> r.value != "" && NormalizeWhitespace(r.value) == r.value
    ensures FirstNodeText(root, IsUkPron).Some? ==> r == FirstNodeText(root, IsUkPron)
    ensures r.None? <==> && FirstNodeText(root, IsUkPron).None? && FirstNodeText(root, IsPron).None?
                         && FirstNodeText(root, IsUkIpa).None? && FirstNodeText(root, IsIpa).None?
    ensures r.Some? ==> exists i :: 0 <= i < 4 && r == FirstNodeText(root, IpaPredicates[i])
                                    && forall j :: 0 <= j < i ==> FirstNodeText(root, IpaPredicates[j]).None?
  {
    var r := IpaFrom(root, IpaPredicates);
    assert IpaPredicates[0] == IsUkPron && IpaPredicates[1] == IsPron;
    assert IpaPredicates[2] == IsUkIpa && IpaPredicates[3] == IsIpa;
    r
  }

  // ---------------------------------------------------------------- translations

  /** `_normalize_lang`: a stripped, lower-cased language tag, or None when there is none. */
  function NormalizeLang(value: Option<string>): (r: Option<string>)
    ensures r.None? <==> value.None? || AllSpace(value.value)
    ensures r.Some? ==> r.value == Lower(Strip(value.value)) && r.value != ""
  {
    if value.None? then None
    else
      StripEmptyIff(value.value);
      var n := Lower(Strip(value.value));
      if n == "" then None else Some(n)
  }

  /** `node.attrs.get("lang")`. */
  function LangAttr(n: Node): Option<string>
  {
    if "lang" in n.attrs then Some(n.attrs["lang"]) else None
  }

  /** The span sits inside an example, whose translations belong to the example. */
  predicate InExample(l: Loc)
  {
    HasAncestorWithClass(l, "examp") || HasAncestorWithClass(l, "dexamp")
  }

  /**
   * The language filter: a wanted prefix applies only when it is non-empty
   * and the span names a language; a span without one is always accepted.
   */
  predicate LangAccepted(l: Loc, lang: Option<string>)
  {
    var own := NormalizeLang(LangAttr(l.node));
    !(Truthy(lang) && own.Some? && !StartsWith(own.value, lang.value))
  }

  /** A `trans` span whose text `_extract_translations` keeps. */
  predicate Accepted(l: Loc, lang: Option<string>)
  {
    !InExample(l) && LangAccepted(l, lang) && TextOf(l) != ""
  }

  /** The texts of the accepted spans, in document order, repeats included. */
  function AcceptedTexts(ls: seq<Loc>, lang: Option<string>): (r: seq<string>)
    ensures forall t :: t in r <==> exists i :: 0 <= i < |ls| && Accepted(ls[i], lang) && TextOf(ls[i]) == t
  {
    if ls == [] then []
    else
      var rest := AcceptedTexts(ls[1..], lang);
      assert forall i :: 0 < i < |ls| ==> ls[i] == ls[1..][i - 1];
      (if Accepted(ls[0], lang) then [TextOf(ls[0])] else []) + rest
  }

  /** The `trans` spans of a subtree. */
  function TransSpans(root: Loc): seq<Loc>
  {
    Matches(root, SpanWith("trans"))
  }

  /**
   * `_extract_translations`: the texts of the `trans` spans outside
   * examples whose language fits `lang`, each once, in document order.
   */
  function ExtractTranslations(root: Loc, lang: Option<string>): (r: seq<string>)
    ensures Seqs.Distinct(r)
    ensures forall t :: t in r <==> exists i :: 0 <= i < |TransSpans(root)| && Accepted(TransSpans(root)[i], lang)
                                                && TextOf(TransSpans(root)[i]) == t
    ensures forall i :: 0 <= i < |r| ==> r[i] != "" && NormalizeWhitespace(r[i]) == r[i]
  {
    var spans := TransSpans(root);
    var texts := AcceptedTexts(spans, lang);
    var r := Seqs.Dedup(texts);
    Seqs.DedupMembers(texts);
    forall i | 0 <= i < |r| ensures r[i] != "" && NormalizeWhitespace(r[i]) == r[i] {
      assert r[i] in texts;
      var k :| 0 <= k < |spans| && Accepted(spans[k], lang) && TextOf(spans[k]) == r[i];
      NormalizeIdempotent(TextContent(spans[k].node));
    }
    r
  }

  /** Without a wanted language every span outside examples counts: the older adapter's behaviour. */
  lemma NoLangFilter(root: Loc, l: Loc)
    requires l in TransSpans(root) && !InExample(l) && TextOf(l) != ""
    ensures TextOf(l) in ExtractTranslations(root, None)
  {
    var spans := TransSpans(root);
    var i :| 0 <= i < |spans| && spans[i] == l;
    assert Accepted(spans[i], None);
  }

  /**
   * Span `a` is a source of `texts[k]`: it is accepted, carries that text,
   * and every accepted span before it carries a text met before position `k`.
   */
  predicate SourceAt(ls: seq<Loc>, lang: Option<string>, texts: seq<string>, k: int, a: int)
  {
    && 0 <= k < |texts| && 0 <= a < |ls| && Accepted(ls[a], lang) && TextOf(ls[a]) == texts[k]
    && forall b :: 0 <= b < a && Accepted(ls[b], lang) ==> TextOf(ls[b]) in texts[..k]
  }

  /** A source in the tail is a source in the whole list, one span and possibly one text further on. */
  lemma SourceShift(ls: seq<Loc>, lang: Option<string>, k: int, a: int)
    requires ls != [] && SourceAt(ls[1..], lang, AcceptedTexts(ls[1..], lang), k, a)
    ensures var shift := if Accepted(ls[0], lang) then 1 else 0;
            SourceAt(ls, lang, AcceptedTexts(ls, lang), k + shift, a + 1)
  {
    var texts := AcceptedTexts(ls, lang);
    var rest := AcceptedTexts(ls[1..], lang);
    var head := if Accepted(ls[0], lang) then [TextOf(ls[0])] else [];
    assert texts == head + rest;
    var k' := k + |head|;
    assert ls[a + 1] == ls[1..][a] && texts[k'] == rest[k];
    assert texts[..k'] == head + rest[..k];
    forall b | 0 <= b < a + 1 && Accepted(ls[b], lang) ensures TextOf(ls[b]) in texts[..k'] {
      if b > 0 {
        assert ls[b] == ls[1..][b - 1];
      }
    }
  }

  /** Each text of `AcceptedTexts` has a source span. */
  lemma {:induction false} AcceptedTextsSource(ls: seq<Loc>, lang: Option<string>, k: int)
    requires 0 <= k < |AcceptedTexts(ls, lang)|
    ensures exists a :: SourceAt(ls, lang, AcceptedTexts(ls, lang), k, a)
  {
    var texts := AcceptedTexts(ls, lang);
    assert ls != [];
    var rest := AcceptedTexts(ls[1..], lang);
    var head := if Accepted(ls[0], lang) then [TextOf(ls[0])] else [];
    assert texts == head + rest;
    if head != [] && k == 0 {
      assert SourceAt(ls, lang, texts, 0, 0);
    } else {
      AcceptedTextsSource(ls[1..], lang, k - |head|);
      var a :| SourceAt(ls[1..], lang, rest, k - |head|, a);
      SourceShift(ls, lang, k - |head|, a);
      assert SourceAt(ls, lang, texts, k, a + 1);
    }
  }

  /** A text met in the accepted texts before any occurrence of another comes from a span before all of the other's. */
  lemma PrecedingSpan(spans: seq<Loc>, lang: Option<string>, x: string, y: string)
    requires Seqs.Precedes(AcceptedTexts(spans, lang), x, y)
    ensures exists a :: 0 <= a < |spans| && Accepted(spans[a], lang) && TextOf(spans[a]) == x
                        && forall b :: 0 <= b < a && Accepted(spans[b], lang) ==> TextOf(spans[b]) != y
  {
    var texts := AcceptedTexts(spans, lang);
    var k :| 0 <= k < |texts| && texts[k] == x && forall b :: 0 <= b <= k ==> texts[b] != y;
    AcceptedTextsSource(spans, lang, k);
    var a :| SourceAt(spans, lang, texts, k, a);
    forall b | 0 <= b < a && Accepted(spans[b], lang) ensures TextOf(spans[b]) != y {
      var c :| 0 <= c < k && texts[..k][c] == TextOf(spans[b]);
      assert texts[c] == texts[..k][c];
    }
  }

  /**
   * `_extract_translations` keeps document order: of two translations, the
   * earlier one is carried by an accepted span that comes before every
   * accepted span carrying the later one.
   */
  lemma ExtractTranslationsOrder(root: Loc, lang: Option<string>)
    ensures var r, spans := ExtractTranslations(root, lang), TransSpans(root);
            forall i, j :: 0 <= i < j < |r| ==>
              exists a :: 0 <= a < |spans| && Accepted(spans[a], lang) && TextOf(spans[a]) == r[i]
                          && forall b :: 0 <= b < a && Accepted(spans[b], lang) ==> TextOf(spans[b]) != r[j]
  {
    var spans := TransSpans(root);
    var texts := AcceptedTexts(spans, lang);
    var r := ExtractTranslations(root, lang);
    assert r == Seqs.Dedup(texts);
    Seqs.DedupOrder(texts);
    forall i, j | 0 <= i < j < |r|
      ensures exists a :: 0 <= a < |spans| && Accepted(spans[a], lang) && TextOf(spans[a]) == r[i]
                          && forall b :: 0 <= b < a && Accepted(spans[b], lang) ==> TextOf(spans[b]) != r[j]
    {
      PrecedingSpan(spans, lang, r[i], r[j]);
    }
  }

  /** The first translation is the text of the first accepted span. */
  lemma FirstTranslation(root: Loc, lang: Option<string>)
    ensures var r, spans := ExtractTranslations(root, lang), TransSpans(root);
            r != [] ==> exists a :: 0 <= a < |spans| && Accepted(spans[a], lang) && TextOf(spans[a]) == r[0]
                                    && forall b :: 0 <= b < a ==> !Accepted(spans[b], lang)
  {
    var spans := TransSpans(root);
    var texts := AcceptedTexts(spans, lang);
    var r := ExtractTranslations(root, lang);
    assert r == Seqs.Dedup(texts);
    if r != [] {
      Seqs.DedupHead(texts);
      AcceptedTextsSource(spans, lang, 0);
      var a :| SourceAt(spans, lang, texts, 0, a);
      assert texts[..0] == [];
    }
  }

  /** The translations of one entry block (`_extract_entry_translations`). */
  function DefBodies(block: Loc): (r: seq<Loc>)
    ensures r != []
  {
    var bodies := Matches(block, IsDefBody);
    if bodies == [] then [block] else bodies
  }

  function BodiesTranslations(bodies: seq<Loc>, lang: Option<string>): (r: seq<string>)
    ensures forall i :: 0 <= i < |r| ==> r[i] != "" && NormalizeWhitespace(r[i]) == r[i]
  {
    if bodies == [] then []
    else ExtractTranslations(bodies[0], lang) + BodiesTranslations(bodies[1..], lang)
  }

  function BlocksTranslations(blocks: seq<Loc>, lang: Option<string>): (r: seq<string>)
    ensures forall i :: 0 <= i < |r| ==> r[i] != "" && NormalizeWhitespace(r[i]) == r[i]
  {
    if blocks == [] then []
    else BodiesTranslations(DefBodies(blocks[0]), lang) + BlocksTranslations(blocks[1..], lang)
  }

  /**
   * `_extract_entry_translations`: per definition block, per definition body
   * (the block itself when it has none); the whole entry when it has no
   * definition blocks.
   */
  function ExtractEntryTranslations(entry: Loc, lang: Option<string>): (r: seq<string>)
    ensures forall i :: 0 <= i < |r| ==> r[i] != "" && NormalizeWhitespace(r[i]) == r[i]
    ensures Matches(entry, IsDefBlock) == [] ==> r == ExtractTranslations(entry, lang)
  {
    var blocks := Matches(entry, IsDefBlock);
    if blocks == [] then ExtractTranslations(entry, lang) else BlocksTranslations(blocks, lang)
  }

  // ---------------------------------------------------------------- examples

  /** An example as the page yields it: non-blank normalised English, and a non-blank normalised translation if any. */
  predicate WellFormed(e: Example)
  {
    && e.en != "" && NormalizeWhitespace(e.en) == e.en
    && (e.ru.Some? ==> e.ru.value != "" && NormalizeWhitespace(e.ru.value) == e.ru.value)
  }

  /** `_build_example_english`: the `eg` sentence, else the `lu` lead-in. */
  function BuildExampleEnglish(l: Loc): (r: Option<string>)
    ensures r.Some? ==> r.value != "" && NormalizeWhitespace(r.value) == r.value
    ensures ExampleText(l, "eg").Some? ==> r == ExampleText(l, "eg")
    ensures ExampleText(l, "eg").None? ==> r == ExampleText(l, "lu")
  {
    OrElse(ExampleText(l, "eg"), ExampleText(l, "lu"))
  }

  /** The example one block yields, if its English side is not blank. */
  function ExampleOf(l: Loc): (r: Option<Example>)
    ensures r.Some? ==> WellFormed(r.value) && r.value.ru == ExampleText(l, "trans")
    ensures BuildExampleEnglish(l).Some? ==> r.Some? && r.value.en == BuildExampleEnglish(l).value
    ensures r.None? <==> BuildExampleEnglish(l).None? && TextOf(l) == ""
  {
    var en := match BuildExampleEnglish(l) case Some(s) => s case None => TextOf(l);
    NormalizeIdempotent(TextContent(l.node));
    if en == "" then None else Some(Example(en, ExampleText(l, "trans")))
  }

  function ExampleSeq(l: Loc): (r: seq<Example>)
    ensures |r| <= 1
  {
    Seqs.OptionToSeq(ExampleOf(l))
  }

  /** The examples of a list of example blocks, in order, blank blocks skipped. */
  function ExamplesOf(ls: seq<Loc>): (r: seq<Example>)
    ensures |r| <= |ls|
    ensures forall i :: 0 <= i < |r| ==> WellFormed(r[i])
  {
    forall i, j | 0 <= i < |ls| && 0 <= j < |ExampleSeq(ls[i])| ensures WellFormed(ExampleSeq(ls[i])[j]) {
    }
    Seqs.FlatMapAll(ls, ExampleSeq, WellFormed);
    Seqs.FlatMap(ls, ExampleSeq)
  }

  // ---------------------------------------------------------------- ranking

  const Ellipsis: string := "..."
  /** The single-character ellipsis U+2026. */
  const UnicodeEllipsis: string := "\U{2026}"
  /** U+2026 encoded as UTF-8 and decoded as Windows-1252: the literal the source compares against. */
  const MisdecodedEllipsis: string := "\U{00E2}\U{20AC}\U{00A6}"

  /** The length part of `_example_score`: favour 20 to 120 characters, penalise very short and very long. */
  function LengthScore(n: nat): (s: int)
    ensures -2 <= s <= 2
    ensures s == 2 <==> 20 <= n <= 120
    ensures s < 0 <==> n < 10 || n > 160
  {
    if 20 <= n <= 120 then 2
    else if n < 10 then -1
    else if n > 160 then -2
    else 0
  }

  /** `_example_score`, with the second ellipsis literal as a parameter. */
  function ScoreWith(e: Example, ellipsis: string): (s: int)
    ensures -3 <= s <= 6
    ensures Truthy(e.ru) ==> s >= 1
    ensures !Truthy(e.ru) ==> s <= 2
  {
    (if Truthy(e.ru) then 4 else 0)
    + LengthScore(|e.en|)
    + (if Contains(e.en, Ellipsis) || Contains(e.en, ellipsis) then -1 else 0)
  }

  /** `_example_score` as written, comparing against the misdecoded literal. */
  function ScoreAsWritten(e: Example): (s: int)
    ensures -3 <= s <= 6
  {
    ScoreWith(e, MisdecodedEllipsis)
  }

  /** `_example_score` as intended: either ellipsis costs a point. The ranking uses this one. */
  function Score(e: Example): (s: int)
    ensures -3 <= s <= 6
  {
    ScoreWith(e, UnicodeEllipsis)
  }

  /** A translation is worth exactly four points, whatever the English side. */
  lemma TranslationBonus(en: string, ru: string)
    requires ru != ""
    ensures Score(Example(en, Some(ru))) == Score(Example(en, None)) + 4
    ensures Score(Example(en, Some(ru))) == Score(Example(en, Some("")))  + 4
  {
  }

  /**
   * An English sentence ending in U+2026 is not penalised as written: the
   * source's literal is the misdecoded form of the character, which a
   * correctly decoded page never contains.
   */
  lemma UnicodeEllipsisMissed()
    ensures ScoreAsWritten(Example("Wait\U{2026}", None)) == -1
    ensures Score(Example("Wait\U{2026}", None)) == -2
  {
    var en := "Wait\U{2026}";
    assert OccursAt(en, UnicodeEllipsis, 4);
    assert !Contains(en, Ellipsis) by {
      forall i | 0 <= i <= |en| - |Ellipsis| ensures !OccursAt(en, Ellipsis, i) {
        assert en[i] != '.';
      }
    }
    assert !Contains(en, MisdecodedEllipsis) by {
      forall i | 0 <= i <= |en| - |MisdecodedEllipsis| ensures !OccursAt(en, MisdecodedEllipsis, i) {
        assert en[i] != '\U{00E2}';
      }
    }
  }

  /** Scores never increase along the list. */
  predicate Ranked(xs: seq<Example>)
  {
    Ranking.Descending(xs, Score)
  }

  /**
   * `_rank_examples`: sort by descending score, ties in input order (the
   * index is the second sort key).
   */
  function RankExamples(xs: seq<Example>): (r: seq<Example>)
    ensures multiset(r) == multiset(xs)
    ensures |r| == |xs|
    ensures forall i, j :: 0 <= i < j < |r| ==> Score(r[i]) >= Score(r[j])
    ensures Seqs.Distinct(xs) ==> Seqs.Distinct(r)
  {
    var r := Ranking.SortDescending(xs, Score);
    if Seqs.Distinct(xs) then
      Ranking.PermutationDistinct(xs, r);
      r
    else r
  }

  /** Examples of equal score keep their input order: the ranking is stable. */
  lemma RankStable(xs: seq<Example>, s: int)
    ensures Ranking.WithKey(RankExamples(xs), Score, s) == Ranking.WithKey(xs, Score, s)
  {
    Ranking.SortStable(xs, Score, s);
  }

  // ---------------------------------------------------------------- example extraction

  /** The example blocks of a subtree. */
  function ExampBlocks(root: Loc): seq<Loc>
  {
    Matches(root, IsExampBlock)
  }

  /**
   * `_extract_examples`: the examples of every example block of the page,
   * each `(en, ru)` pair once, ranked.
   */
  function ExtractExamples(root: Loc): (r: seq<Example>)
    ensures Seqs.Distinct(r)
    ensures forall e :: e in r <==> e in ExamplesOf(ExampBlocks(root))
    ensures forall i :: 0 <= i < |r| ==> WellFormed(r[i])
    ensures Ranked(r)
  {
    var found := ExamplesOf(ExampBlocks(root));
    var unique := Seqs.Dedup(found);
    Seqs.DedupMembers(found);
    var r := RankExamples(unique);
    forall e ensures e in r <==> e in found {
      assert e in r <==> e in multiset(unique);
    }
    forall i | 0 <= i < |r| ensures WellFormed(r[i]) {
      assert r[i] in multiset(unique);
    }
    r
  }

  /**
   * The example blocks `_extract_entry_examples` reads: those inside the
   * entry's definition blocks, or the entry's own when that finds none.
   */
  function EntryExampBlocks(entry: Loc): (r: seq<Loc>)
    ensures Forest(Matches(entry, IsDefBlock), IsExampBlock) != [] ==> r == Forest(Matches(entry, IsDefBlock), IsExampBlock)
    ensures Forest(Matches(entry, IsDefBlock), IsExampBlock) == [] ==> r == ExampBlocks(entry)
  {
    var nodes := Forest(Matches(entry, IsDefBlock), IsExampBlock);
    if nodes == [] then ExampBlocks(entry) else nodes
  }

  /** `_extract_entry_examples`: the entry's examples ranked, repeats kept. */
  function ExtractEntryExamples(entry: Loc): (r: seq<Example>)
    ensures multiset(r) == multiset(ExamplesOf(EntryExampBlocks(entry)))
    ensures forall i :: 0 <= i < |r| ==> WellFormed(r[i])
    ensures Ranked(r)
  {
    var found := ExamplesOf(EntryExampBlocks(entry));
    var r := RankExamples(found);
    assert forall i :: 0 <= i < |r| ==> r[i] in multiset(found);
    r
  }

  /** Ranking the page's examples keeps first-seen order among examples of equal score. */
  lemma ExtractExamplesStable(root: Loc, s: int)
    ensures Ranking.WithKey(ExtractExamples(root), Score, s)
            == Ranking.WithKey(Seqs.Dedup(ExamplesOf(ExampBlocks(root))), Score, s)
  {
    RankStable(Seqs.Dedup(ExamplesOf(ExampBlocks(root))), s);
  }

  /** Ranking an entry's examples keeps document order among examples of equal score. */
  lemma ExtractEntryExamplesStable(entry: Loc, s: int)
    ensures Ranking.WithKey(ExtractEntryExamples(entry), Score, s)
            == Ranking.WithKey(ExamplesOf(EntryExampBlocks(entry)), Score, s)
  {
    RankStable(ExamplesOf(EntryExampBlocks(entry)), s);
  }

  // ---------------------------------------------------------------- page

  /** The first pronunciation among the entries, in document order. */
  function EntriesIpa(entries: seq<Loc>): (r: Option<string>)
    ensures r.Some? ==> r.value != "" && NormalizeWhitespace(r.value) == r.value
    ensures r.None? <==> forall i :: 0 <= i < |entries| ==> ExtractIpaUk(entries[i]).None?
    ensures r.Some? ==> exists i :: IpaFirstAt(entries, r, i)
  {
    if entries == [] then None
    else
      assert forall i :: 0 < i < |entries| ==> entries[i] == entries[1..][i - 1];
      var first := ExtractIpaUk(entries[0]);
      if first.Some? then
        assert IpaFirstAt(entries, first, 0);
        first
      else
        var r := EntriesIpa(entries[1..]);
        if r.Some? then
          var k :| IpaFirstAt(entries[1..], r, k);
          IpaFirstShift(entries, r, k);
          r
        else r
  }

  /** Entry `i` gives the pronunciation `r`, and no entry before it has one. */
  predicate IpaFirstAt(entries: seq<Loc>, r: Option<string>, i: int)
  {
    0 <= i < |entries| && r == ExtractIpaUk(entries[i]) && forall j :: 0 <= j < i ==> ExtractIpaUk(entries[j]).None?
  }

  lemma IpaFirstShift(entries: seq<Loc>, r: Option<string>, k: int)
    requires entries != [] && ExtractIpaUk(entries[0]).None? && IpaFirstAt(entries[1..], r, k)
    ensures IpaFirstAt(entries, r, k + 1)
  {
    assert entries[k + 1] == entries[1..][k];
    forall j | 0 <= j < k + 1 ensures ExtractIpaUk(entries[j]).None? {
      if j > 0 { assert entries[j] == entries[1..][j - 1]; }
    }
  }

  function EntriesTranslations(entries: seq<Loc>, lang: Option<string>): seq<string>
  {
    if entries == [] then [] else ExtractEntryTranslations(entries[0], lang) + EntriesTranslations(entries[1..], lang)
  }

  function EntriesExamples(entries: seq<Loc>): (r: seq<Example>)
    ensures forall i :: 0 <= i < |r| ==> WellFormed(r[i])
  {
    if entries == [] then [] else ExtractEntryExamples(entries[0]) + EntriesExamples(entries[1..])
  }

  /** The entry blocks of a document. */
  function Entries(doc: Node): seq<Loc>
  {
    Matches(Loc(doc, []), IsEntryBlock)
  }

  /**
   * `parse_cambridge_page` after `parse_html`: per entry block the first
   * pronunciation, all translations and the examples (each `(en, ru)` pair
   * once); without entry blocks, the same read off the whole page. The
   * translations are cleaned either way.
   */
  function ParsePage(doc: Node, lang: Option<string>): (r: PageData)
    ensures Translation.IsClean(r.translations)
    ensures Seqs.Distinct(r.examples)
    ensures forall i :: 0 <= i < |r.examples| ==> WellFormed(r.examples[i])
    ensures r.ipaUk.Some? ==> r.ipaUk.value != ""
    ensures Entries(doc) != [] ==> r.examples == Seqs.Dedup(EntriesExamples(Entries(doc)))
    ensures Entries(doc) != [] ==> r.ipaUk == EntriesIpa(Entries(doc))
    ensures Entries(doc) != [] ==> r.translations == Translation.Clean(EntriesTranslations(Entries(doc), lang))
    ensures Entries(doc) == [] ==> r == PageData(ExtractIpaUk(Loc(doc, [])),
                                                 Translation.Clean(ExtractTranslations(Loc(doc, []), lang)),
                                                 ExtractExamples(Loc(doc, [])))
  {
    var root := Loc(doc, []);
    var entries := Entries(doc);
    if entries == [] then
      PageData(ExtractIpaUk(root), Translation.Clean(ExtractTranslations(root, lang)), ExtractExamples(root))
    else
      var examples := EntriesExamples(entries);
      Seqs.DedupMembers(examples);
      PageData(EntriesIpa(entries), Translation.Clean(EntriesTranslations(entries, lang)), Seqs.Dedup(examples))
  }

  // ---------------------------------------------------------------- queries and URLs

  /**
   * `_build_cambridge_queries`: nothing for blank input; otherwise the
   * form-encoded normalised text, then the Cambridge slug when it is
   * non-empty and different.
   */
  function BuildQueries(value: string): (r: seq<string>)
    ensures r == [] <==> AllSpace(value)
    ensures r != [] ==> r[0] == Url.QuotePlus(NormalizeText(value))
    ensures |r| <= 2 && Seqs.Distinct(r)
    ensures |r| == 2 ==> r[1] == ToCambridgeSlug(value)
    ensures r != [] ==> (|r| == 2 <==> ToCambridgeSlug(value) != "" && ToCambridgeSlug(value) != r[0])
    ensures forall i :: 0 <= i < |r| ==> Lacks(r[i], '&')
  {
    var normalized := NormalizeText(value);
    NormalizeTextIsNormalizeWhitespace(value);
    NormalizeEmptyIff(value);
    Query.EncodedLacksAmpersand(normalized);
    Query.EncodedLacksAmpersand(SlugText(value));
    if normalized == "" then []
    else
      var primary := Url.QuotePlus(normalized);
      var slug := ToCambridgeSlug(value);
      if slug != "" && slug != primary then [primary, slug] else [primary]
  }

  /** `_build_cambridge_search_url`. */
  function SearchUrlFor(dataset: string, query: string): string
  {
    SearchUrl + "?datasetsearch=" + dataset + "&q=" + query
  }

  /** `build_cambridge_urls`: the English and the English-Russian search for one query. */
  function BuildUrls(query: string): Urls
  {
    Urls(SearchUrlFor(EnglishDataset, query), SearchUrlFor(EnglishRussianDataset, query))
  }

  /** A search URL is the search endpoint with a two-field query, dataset first, that splits back into its fields. */
  lemma SearchUrlFields(dataset: string, query: string)
    requires Lacks(dataset, '&') && Lacks(query, '&')
    ensures var fields := [Query.Field("datasetsearch", dataset), Query.Field("q", query)];
            SearchUrlFor(dataset, query) == SearchUrl + "?" + Query.Query(fields)
            && SplitOn(Query.Query(fields), "&") == fields
  {
    var q := Query.Field("q", query);
    var d := Query.Field("datasetsearch", dataset);
    assert Lacks(q, '&') && Lacks(d, '&');
    assert [d, q][1..] == [q];
    assert JoinWith("&", [q]) == q;
    assert JoinWith("&", [d, q]) == d + "&" + JoinWith("&", [q]);
    assert "?datasetsearch=" == "?" + "datasetsearch" + "=";
    assert "&q=" == "&" + "q" + "=";
    Query.QuerySplitsBack([d, q]);
  }

  /**
   * Both URLs of a query carry the query unchanged as their last field and
   * differ only in the dataset.
   */
  lemma UrlFields(query: string)
    requires Lacks(query, '&')
    ensures var fields := [Query.Field("datasetsearch", EnglishDataset), Query.Field("q", query)];
            BuildUrls(query).english == SearchUrl + "?" + Query.Query(fields)
            && SplitOn(Query.Query(fields), "&") == fields
    ensures var fields := [Query.Field("datasetsearch", EnglishRussianDataset), Query.Field("q", query)];
            BuildUrls(query).englishRussian == SearchUrl + "?" + Query.Query(fields)
            && SplitOn(Query.Query(fields), "&") == fields
    ensures BuildUrls(query).english != BuildUrls(query).englishRussian
  {
    assert Lacks(EnglishDataset, '&') && Lacks(EnglishRussianDataset, '&');
    SearchUrlFields(EnglishDataset, query);
    SearchUrlFields(EnglishRussianDataset, query);
    assert |BuildUrls(query).english| != |BuildUrls(query).englishRussian|;
  }

  // ---------------------------------------------------------------- lookup

  /**
   * A page fetcher: None when the request raised `FetchError`, `Malformed`
   * when parsing the page raised, otherwise the parser's callbacks.
   */
  type Fetcher = string -> Option<Payload<seq<HtmlBuilder.Event>>>

  /** A fetched page that parses, or `_empty_page_data()` for one that could not be fetched. */
  function PageOf(body: Option<Payload<seq<HtmlBuilder.Event>>>, lang: Option<string>): (r: PageData)
    requires body.None? || body.value.Parsed?
    ensures body.None? ==> r == EmptyPage
    ensures body.Some? ==> r == ParsePage(HtmlBuilder.ParseEvents(body.value.value), lang)
  {
    if body.None? then EmptyPage else ParsePage(HtmlBuilder.ParseEvents(body.value.value), lang)
  }

  /** A page's translations are clean and its examples distinct and well formed. */
  predicate PageInvariant(p: PageData)
  {
    && Translation.IsClean(p.translations)
    && Seqs.Distinct(p.examples)
    && (forall i :: 0 <= i < |p.examples| ==> WellFormed(p.examples[i]))
  }

  /** A result's translations are clean, it is found exactly when it has some, and its examples are ranked. */
  predicate ResultInvariant(r: Result)
  {
    && Translation.IsClean(r.translations)
    && (r.found <==> r.translations != [])
    && Seqs.Distinct(r.examples)
    && (forall i :: 0 <= i < |r.examples| ==> WellFormed(r.examples[i]))
    && Ranked(r.examples)
  }

  /**
   * The merge of one query's pages: Russian translations and examples win
   * over English ones, the English pronunciation over the Russian one.
   */
  function MergePages(english: PageData, russian: PageData): (r: Result)
    requires PageInvariant(english) && PageInvariant(russian)
    ensures ResultInvariant(r)
    ensures r.found <==> english.translations != [] || russian.translations != []
    ensures russian.translations != [] ==> r.translations == russian.translations
    ensures russian.translations == [] ==> r.translations == english.translations
    ensures Truthy(english.ipaUk) ==> r.ipaUk == english.ipaUk
    ensures !Truthy(english.ipaUk) ==> r.ipaUk == russian.ipaUk
    ensures multiset(r.examples) == multiset(if russian.examples != [] then russian.examples else english.examples)
  {
    var translations := if russian.translations != [] then russian.translations else english.translations;
    var examples := if russian.examples != [] then russian.examples else english.examples;
    var ranked := RankExamples(examples);
    assert forall i :: 0 <= i < |ranked| ==> ranked[i] in multiset(examples);
    Result(translations != [], translations, OrElse(english.ipaUk, russian.ipaUk), ranked)
  }

  /** The merged examples keep the chosen page's order among examples of equal score. */
  lemma MergePagesStable(english: PageData, russian: PageData, s: int)
    requires PageInvariant(english) && PageInvariant(russian)
    ensures var chosen := if russian.examples != [] then russian.examples else english.examples;
            Ranking.WithKey(MergePages(english, russian).examples, Score, s) == Ranking.WithKey(chosen, Score, s)
  {
    RankStable(if russian.examples != [] then russian.examples else english.examples, s);
  }

  /**
   * What one query contributes: None when it is skipped (both fetches
   * failed, or a fetched page did not parse), otherwise the merged pages.
   */
  function QueryOutcome(query: string, fetch: Fetcher): (r: Option<Result>)
    ensures r.Some? ==> ResultInvariant(r.value)
    ensures fetch(BuildUrls(query).english).None? && fetch(BuildUrls(query).englishRussian).None? ==> r.None?
  {
    var urls := BuildUrls(query);
    var english := fetch(urls.english);
    var russian := fetch(urls.englishRussian);
    if english.None? && russian.None? then None
    else if (english.Some? && english.value.Malformed?) || (russian.Some? && russian.value.Malformed?) then None
    else Some(MergePages(PageOf(english, None), PageOf(russian, Some(RussianLang))))
  }

  /** A query is skipped exactly when both fetches fail or one of the pages does not parse. */
  lemma QuerySkipped(query: string, fetch: Fetcher)
    ensures var e, ru := fetch(BuildUrls(query).english), fetch(BuildUrls(query).englishRussian);
            QueryOutcome(query, fetch).None?
            <==> (e.None? && ru.None?) || (e.Some? && e.value.Malformed?) || (ru.Some? && ru.value.Malformed?)
  {
  }

  /**
   * A query that is not skipped yields the merge of its two parsed pages:
   * the English page read without a language filter, the English-Russian
   * one keeping Russian translations.
   */
  lemma QueryMerges(query: string, fetch: Fetcher)
    ensures var e, ru := fetch(BuildUrls(query).english), fetch(BuildUrls(query).englishRussian);
            !((e.None? && ru.None?) || (e.Some? && e.value.Malformed?) || (ru.Some? && ru.value.Malformed?)) ==>
              QueryOutcome(query, fetch) == Some(MergePages(PageOf(e, None), PageOf(ru, Some(RussianLang))))
  {
  }

  /** The outcome of every query, in order. */
  function Outcomes(queries: seq<string>, fetch: Fetcher): (r: seq<Option<Result>>)
    ensures |r| == |queries|
    ensures forall i :: 0 <= i < |r| ==> r[i] == QueryOutcome(queries[i], fetch)
  {
    if queries == [] then []
    else
      var rest := Outcomes(queries[1..], fetch);
      var r := [QueryOutcome(queries[0], fetch)] + rest;
      assert forall i :: 0 < i < |r| ==> r[i] == rest[i - 1] && queries[i] == queries[1..][i - 1];
      r
  }

  predicate IsFound(o: Option<Result>)
  {
    o.Some? && o.value.found
  }

  /** A result worth keeping in case nothing is found: it has a pronunciation or examples. */
  predicate IsFallback(o: Option<Result>)
  {
    o.Some? && (Truthy(o.value.ipaUk) || o.value.examples != [])
  }

  /**
   * Reference selection: the first found outcome; otherwise the fallback
   * already chosen, or the first outcome worth falling back to; otherwise
   * the empty result.
   */
  function Pick(outcomes: seq<Option<Result>>, fallback: Option<Result>): Result
  {
    match Seqs.FindFirst(outcomes, IsFound)
    case Some(o) => o.value
    case None =>
      if fallback.Some? then fallback.value
      else match Seqs.FindFirst(outcomes, IsFallback)
        case Some(o) => o.value
        case None => NotFound
  }

  /** How many queries the loop tries: up to and including the first found one. */
  function Tried(outcomes: seq<Option<Result>>): (n: nat)
    ensures n <= |outcomes|
    ensures forall i :: 0 <= i < n - 1 ==> !IsFound(outcomes[i])
    ensures n < |outcomes| ==> n > 0 && IsFound(outcomes[n - 1])
  {
    if outcomes == [] then 0
    else if IsFound(outcomes[0]) then 1
    else
      assert forall i :: 0 < i < |outcomes| ==> outcomes[i] == outcomes[1..][i - 1];
      1 + Tried(outcomes[1..])
  }

  /** The URLs the queries request, two per query, English first. */
  function Requests(queries: seq<string>): (r: seq<string>)
    ensures |r| == 2 * |queries|
  {
    if queries == [] then []
    else [BuildUrls(queries[0]).english, BuildUrls(queries[0]).englishRussian] + Requests(queries[1..])
  }

  /** The loop of `translate_cambridge` from the given query on, with the fallback chosen so far. */
  function Search(queries: seq<string>, fetch: Fetcher, fallback: Option<Result>): (r: Traced<Result>)
    requires fallback.Some? ==> ResultInvariant(fallback.value)
    ensures ResultInvariant(r.result)
  {
    if queries == [] then
      Traced(if fallback.Some? then fallback.value else NotFound, [])
    else
      var urls := BuildUrls(queries[0]);
      var requested := [urls.english, urls.englishRussian];
      var o := QueryOutcome(queries[0], fetch);
      if o.Some? && o.value.found then Traced(o.value, requested)
      else
        var next := if fallback.None? && o.Some? && (Truthy(o.value.ipaUk) || o.value.examples != []) then o else fallback;
        var rest := Search(queries[1..], fetch, next);
        Traced(rest.result, requested + rest.requested)
  }

  /** The loop picks what the reference selection picks. */
  lemma {:induction false} SearchPicks(queries: seq<string>, fetch: Fetcher, fallback: Option<Result>)
    requires fallback.Some? ==> ResultInvariant(fallback.value)
    ensures Search(queries, fetch, fallback).result == Pick(Outcomes(queries, fetch), fallback)
  {
    if queries != [] {
      var outcomes := Outcomes(queries, fetch);
      var o := outcomes[0];
      var tail := Outcomes(queries[1..], fetch);
      assert outcomes == [o] + tail;
      assert outcomes[1..] == tail;
      if IsFound(o) {
        assert Seqs.FindFirst(outcomes, IsFound) == Some(o);
      } else {
        var next := if fallback.None? && IsFallback(o) then o else fallback;
        SearchPicks(queries[1..], fetch, next);
        assert Seqs.FindFirst(outcomes, IsFound) == Seqs.FindFirst(tail, IsFound);
        assert Seqs.FindFirst(outcomes, IsFallback) == if IsFallback(o) then Some(o) else Seqs.FindFirst(tail, IsFallback);
        assert Pick(outcomes, fallback) == Pick(tail, next);
      }
    }
  }

  /** One step of the loop: the query's two pages are requested, then the rest unless it was found. */
  lemma SearchStep(queries: seq<string>, fetch: Fetcher, fallback: Option<Result>)
    requires queries != [] && (fallback.Some? ==> ResultInvariant(fallback.value))
    ensures var urls, o := BuildUrls(queries[0]), QueryOutcome(queries[0], fetch);
            IsFound(o) ==> Search(queries, fetch, fallback).requested == [urls.english, urls.englishRussian]
    ensures var urls, o := BuildUrls(queries[0]), QueryOutcome(queries[0], fetch);
            var next := if fallback.None? && IsFallback(o) then o else fallback;
            !IsFound(o) ==> Search(queries, fetch, fallback).requested
                            == [urls.english, urls.englishRussian] + Search(queries[1..], fetch, next).requested
  {
  }

  /** The outcomes of a non-empty query list are the first query's followed by the rest's. */
  lemma OutcomesCons(queries: seq<string>, fetch: Fetcher)
    requires queries != []
    ensures Outcomes(queries, fetch) == [QueryOutcome(queries[0], fetch)] + Outcomes(queries[1..], fetch)
  {
  }

  /** The requests of the first `n + 1` queries are the first query's two pages followed by the next `n` queries' requests. */
  lemma RequestsCons(queries: seq<string>, n: nat)
    requires n < |queries|
    ensures Requests(queries[..n + 1])
            == [BuildUrls(queries[0]).english, BuildUrls(queries[0]).englishRussian] + Requests(queries[1..][..n])
  {
    var pre := queries[..n + 1];
    assert pre[0] == queries[0] && pre[1..] == queries[1..][..n];
  }

  /** The loop requests the two pages of every query it tries, and no others. */
  lemma {:induction false} SearchRequests(queries: seq<string>, fetch: Fetcher, fallback: Option<Result>)
    requires fallback.Some? ==> ResultInvariant(fallback.value)
    ensures Search(queries, fetch, fallback).requested == Requests(queries[..Tried(Outcomes(queries, fetch))])
  {
    if queries == [] {
      assert Outcomes(queries, fetch) == [];
    } else {
      var o := QueryOutcome(queries[0], fetch);
      var tail := Outcomes(queries[1..], fetch);
      OutcomesCons(queries, fetch);
      assert Outcomes(queries, fetch)[0] == o && Outcomes(queries, fetch)[1..] == tail;
      SearchStep(queries, fetch, fallback);
      if IsFound(o) {
        assert Tried(Outcomes(queries, fetch)) == 1;
        RequestsCons(queries, 0);
      } else {
        var next := if fallback.None? && IsFallback(o) then o else fallback;
        SearchRequests(queries[1..], fetch, next);
        assert Tried(Outcomes(queries, fetch)) == 1 + Tried(tail);
        RequestsCons(queries, Tried(tail));
      }
    }
  }

  /** The reference selection finds something exactly when some outcome is found, and then the first one. */
  lemma PickFinds(outcomes: seq<Option<Result>>)
    ensures Pick(outcomes, None).found <==> exists i :: 0 <= i < |outcomes| && IsFound(outcomes[i])
    ensures Pick(outcomes, None).found ==>
              exists i :: 0 <= i < |outcomes| && IsFound(outcomes[i]) && Pick(outcomes, None) == outcomes[i].value
                          && forall j :: 0 <= j < i ==> !IsFound(outcomes[j])
  {
    match Seqs.FindFirst(outcomes, IsFound)
    case Some(o) =>
    case None =>
      match Seqs.FindFirst(outcomes, IsFallback)
      case Some(o) =>
        var k :| 0 <= k < |outcomes| && outcomes[k] == o && IsFallback(outcomes[k]);
        assert !IsFound(outcomes[k]);
      case None =>
  }

  /**
   * When no query finds translations, the answer is the first outcome that
   * has a pronunciation or examples, and the empty result when none has.
   */
  lemma PickFallback(outcomes: seq<Option<Result>>, i: int)
    requires forall k :: 0 <= k < |outcomes| ==> !IsFound(outcomes[k])
    requires 0 <= i < |outcomes| && IsFallback(outcomes[i])
    requires forall j :: 0 <= j < i ==> !IsFallback(outcomes[j])
    ensures Pick(outcomes, None) == outcomes[i].value
  {
    var k :| 0 <= k < |outcomes| && Seqs.FindFirst(outcomes, IsFallback) == Some(outcomes[k]) && IsFallback(outcomes[k])
             && forall j :: 0 <= j < k ==> !IsFallback(outcomes[j]);
    assert k == i;
  }

  lemma PickNothing(outcomes: seq<Option<Result>>)
    requires forall k :: 0 <= k < |outcomes| ==> !IsFound(outcomes[k]) && !IsFallback(outcomes[k])
    ensures Pick(outcomes, None) == NotFound
  {
  }

  /**
   * `translate_cambridge`: blank text makes no request and finds nothing;
   * otherwise the queries are tried in order until one finds translations.
   */
  function Translate(text: string, fetch: Fetcher): (r: Traced<Result>)
    ensures AllSpace(text) ==> r == Traced(NotFound, [])
    ensures r.result == Pick(Outcomes(BuildQueries(text), fetch), None)
    ensures r.requested == Requests(BuildQueries(text)[..Tried(Outcomes(BuildQueries(text), fetch))])
    ensures ResultInvariant(r.result)
    ensures var os := Outcomes(BuildQueries(text), fetch);
            r.result.found <==> exists i :: 0 <= i < |os| && IsFound(os[i])
    ensures var os := Outcomes(BuildQueries(text), fetch);
            r.result.found ==> exists i :: 0 <= i < |os| && IsFound(os[i]) && r.result == os[i].value
                                           && forall j :: 0 <= j < i ==> !IsFound(os[j])
  {
    var queries := BuildQueries(text);
    PickFinds(Outcomes(queries, fetch));
    SearchPicks(queries, fetch, None);
    SearchRequests(queries, fetch, None);
    var r := Search(queries, fetch, None);
    var os := Outcomes(queries, fetch);
    assert r.result.found ==> exists i :: 0 <= i < |os| && IsFound(os[i]) && r.result == os[i].value
                                          && forall j :: 0 <= j < i ==> !IsFound(os[j]) by {
      if r.result.found {
        var i :| 0 <= i < |os| && IsFound(os[i]) && Pick(os, None) == os[i].value
                 && forall j :: 0 <= j < i ==> !IsFound(os[j]);
        assert r.result == os[i].value;
      }
    }
    if queries == [] then
      assert r == Traced(NotFound, []);
      r
    else r
  }
}

=== FILE: config.dfy ===
/**
 * The desktop application's settings (desktop_app/config.py): languages and
 * the Anki deck, model and field names, read from a JSON document with a
 * default for every missing or mistyped value, and written back as one.
 */
module Config {
  import opened Wrappers
  import opened Json
  import Text

  const DefaultSourceLang: string := "en"
  const DefaultTargetLang: string := "ru"

  datatype LanguageConfig = LanguageConfig(source: string, target: string)

  datatype AnkiFieldMap = AnkiFieldMap(word: string, ipa: string, translation: string, exampleEn: string, exampleRu: string)

  datatype AnkiConfig = AnkiConfig(deck: string, model: string, fields: AnkiFieldMap)

  datatype AppConfig = AppConfig(languages: LanguageConfig, anki: AnkiConfig)

  /** `_default_config`: English to Russian, no Anki target. */
  const Default: AppConfig :=
    AppConfig(LanguageConfig(DefaultSourceLang, DefaultTargetLang),
              AnkiConfig("", "", AnkiFieldMap("", "", "", "", "")))

  /** `_get_dict`: the value when it is an object. */
  function GetDict(v: Option<Json>): (r: Option<map<Key, Json>>)
    ensures r.Some? <==> v.Some? && v.value.Obj?
    ensures r.Some? ==> r.value == v.value.fields
  {
    CoerceDict(v, AnyKeys)
  }

  /** `_get_str`: the value when it is a string, otherwise the default. */
  function GetStr(v: Option<Json>, default: string): (r: string)
    ensures v.Some? && v.value.Str? ==> r == v.value.s
    ensures !(v.Some? && v.value.Str?) ==> r == default
  {
    if v.Some? && v.value.Str? then v.value.s else default
  }

  /** Python truthiness of an optional dict. */
  predicate NonEmpty(d: Option<map<Key, Json>>)
  {
    d.Some? && d.value != map[]
  }

  /** `_get_str(d.get(name), default) if d else default`. */
  function FieldOf(d: Option<map<Key, Json>>, name: string, default: string): string
  {
    if NonEmpty(d) then GetStr(Get(d.value, name), default) else default
  }

  /** `_parse_config` on a decoded document. */
  function ParseConfig(payload: Json): AppConfig
  {
    match GetDict(Some(payload))
    case None => Default
    case Some(root) =>
      var languageData := GetDict(Get(root, "languages"));
      var ankiData := GetDict(Get(root, "anki"));
      var fieldsData := if NonEmpty(ankiData) then GetDict(Get(ankiData.value, "fields")) else None;
      AppConfig(
        LanguageConfig(FieldOf(languageData, "source", DefaultSourceLang), FieldOf(languageData, "target", DefaultTargetLang)),
        AnkiConfig(FieldOf(ankiData, "deck", ""), FieldOf(ankiData, "model", ""),
                   AnkiFieldMap(FieldOf(fieldsData, "word", ""), FieldOf(fieldsData, "ipa", ""),
                                FieldOf(fieldsData, "translation", ""), FieldOf(fieldsData, "example_en", ""),
                                FieldOf(fieldsData, "example_ru", ""))))
  }

  // ---------------------------------------------------------------- reference reading

  /** The value under `name` when `o` is an object that has it. */
  function Child(o: Option<Json>, name: string): Option<Json>
  {
    if o.Some? && o.value.Obj? then Get(o.value.fields, name) else None
  }

  /** The value found by following object keys along `path`, if every step finds an object with that key. */
  function At(j: Json, path: seq<string>): Option<Json>
    decreases |path|
  {
    if path == [] then Some(j)
    else
      var next := Child(Some(j), path[0]);
      if next.None? then None else At(next.value, path[1..])
  }

  /** The string at `path`, or `default` when the path is missing or ends elsewhere than at a string. */
  function StringAt(j: Json, path: seq<string>, default: string): string
  {
    var v := At(j, path);
    if v.Some? && v.value.Str? then v.value.s else default
  }

  /** Following one more key is looking it up in what the shorter path found. */
  lemma {:induction false} AtSnoc(j: Json, path: seq<string>, name: string)
    ensures At(j, path + [name]) == Child(At(j, path), name)
    decreases |path|
  {
    if path == [] {
      assert [name][1..] == [];
    } else {
      assert (path + [name])[1..] == path[1..] + [name];
      var next := Child(Some(j), path[0]);
      if next.Some? {
        AtSnoc(next.value, path[1..], name);
      }
    }
  }

  /** Reading a field of a dict obtained with `_get_dict` is reading one key further along the path. */
  lemma FieldAtPath(j: Json, path: seq<string>, name: string, default: string)
    ensures FieldOf(GetDict(At(j, path)), name, default) == StringAt(j, path + [name], default)
  {
    AtSnoc(j, path, name);
  }

  lemma LanguagesRead(payload: Json)
    ensures ParseConfig(payload).languages
            == LanguageConfig(StringAt(payload, ["languages", "source"], DefaultSourceLang),
                              StringAt(payload, ["languages", "target"], DefaultTargetLang))
  {
    assert ["languages"] == [] + ["languages"];
    AtSnoc(payload, [], "languages");
    FieldAtPath(payload, ["languages"], "source", DefaultSourceLang);
    FieldAtPath(payload, ["languages"], "target", DefaultTargetLang);
  }

  lemma AnkiRead(payload: Json)
    ensures ParseConfig(payload).anki.deck == StringAt(payload, ["anki", "deck"], "")
    ensures ParseConfig(payload).anki.model == StringAt(payload, ["anki", "model"], "")
  {
    assert ["anki"] == [] + ["anki"];
    AtSnoc(payload, [], "anki");
    FieldAtPath(payload, ["anki"], "deck", "");
    FieldAtPath(payload, ["anki"], "model", "");
  }

  /** The `fields` object is read only under a non-empty `anki` object, which is where its path leads anyway. */
  lemma FieldsRead(payload: Json)
    ensures ParseConfig(payload).anki.fields
            == AnkiFieldMap(StringAt(payload, ["anki", "fields", "word"], ""),
                            StringAt(payload, ["anki", "fields", "ipa"], ""),
                            StringAt(payload, ["anki", "fields", "translation"], ""),
                            StringAt(payload, ["anki", "fields", "example_en"], ""),
                            StringAt(payload, ["anki", "fields", "example_ru"], ""))
  {
    var f := ["anki", "fields"];
    assert ["anki"] == [] + ["anki"] && f == ["anki"] + ["fields"];
    AtSnoc(payload, [], "anki");
    AtSnoc(payload, ["anki"], "fields");
    FieldAtPath(payload, f, "word", "");
    FieldAtPath(payload, f, "ipa", "");
    FieldAtPath(payload, f, "translation", "");
    FieldAtPath(payload, f, "example_en", "");
    FieldAtPath(payload, f, "example_ru", "");
  }

  /**
   * Every setting is the string found at its path in the document, or its
   * default when the path is missing or leads elsewhere than a string; a
   * document that is not an object gives the defaults.
   */
  lemma ParseReadsPaths(payload: Json)
    ensures var c := ParseConfig(payload);
            && c.languages.source == StringAt(payload, ["languages", "source"], DefaultSourceLang)
            && c.languages.target == StringAt(payload, ["languages", "target"], DefaultTargetLang)
            && c.anki.deck == StringAt(payload, ["anki", "deck"], "")
            && c.anki.model == StringAt(payload, ["anki", "model"], "")
            && c.anki.fields.word == StringAt(payload, ["anki", "fields", "word"], "")
            && c.anki.fields.ipa == StringAt(payload, ["anki", "fields", "ipa"], "")
            && c.anki.fields.translation == StringAt(payload, ["anki", "fields", "translation"], "")
            && c.anki.fields.exampleEn == StringAt(payload, ["anki", "fields", "example_en"], "")
            && c.anki.fields.exampleRu == StringAt(payload, ["anki", "fields", "example_ru"], "")
    ensures !payload.Obj? ==> ParseConfig(payload) == Default
  {
    LanguagesRead(payload);
    AnkiRead(payload);
    FieldsRead(payload);
  }

  // ---------------------------------------------------------------- writing

  /** A string-valued object: every key a string, every value a string. */
  predicate StringObject(j: Json)
  {
    j.Obj? && StringKeys(j.fields) && forall k | k in j.fields :: j.fields[k].Str?
  }

  lemma StringObjectDecoded(j: Json)
    requires StringObject(j)
    ensures Decoded(j)
  {
  }

  function LanguagesJson(l: LanguageConfig): (r: Json)
    ensures StringObject(r)
  {
    Obj(map[StrKey("source") := Str(l.source), StrKey("target") := Str(l.target)])
  }

  function FieldsJson(f: AnkiFieldMap): (r: Json)
    ensures StringObject(r)
  {
    Obj(map[
      StrKey("word") := Str(f.word),
      StrKey("ipa") := Str(f.ipa),
      StrKey("translation") := Str(f.translation),
      StrKey("example_en") := Str(f.exampleEn),
      StrKey("example_ru") := Str(f.exampleRu)])
  }

  function AnkiJson(a: AnkiConfig): (r: Json)
    ensures Decoded(r)
  {
    StringObjectDecoded(FieldsJson(a.fields));
    Obj(map[StrKey("deck") := Str(a.deck), StrKey("model") := Str(a.model), StrKey("fields") := FieldsJson(a.fields)])
  }

  /** `_config_to_dict`: the nested object the settings file holds. */
  function ToJson(c: AppConfig): (r: Json)
    ensures Decoded(r)
  {
    StringObjectDecoded(LanguagesJson(c.languages));
    Obj(map[StrKey("languages") := LanguagesJson(c.languages), StrKey("anki") := AnkiJson(c.anki)])
  }

  /** What is written is a JSON document from which every setting reads back unchanged. */
  lemma RoundTrip(c: AppConfig)
    ensures ParseConfig(ToJson(c)) == c
  {
    var root := ToJson(c).fields;
    var anki := AnkiJson(c.anki).fields;
    assert root[StrKey("anki")].fields == anki;
    assert anki != map[] by { assert StrKey("deck") in anki; }
    var langs := LanguagesJson(c.languages).fields;
    assert langs != map[] by { assert StrKey("source") in langs; }
    var fields := FieldsJson(c.anki.fields).fields;
    assert fields != map[] by { assert StrKey("word") in fields; }
  }

  // ---------------------------------------------------------------- loading

  /**
   * `_apply_env_overrides`: the defaults when `TRANSLATOR_RESET`, stripped,
   * is "1"; otherwise the settings as read. `reset` is the variable's value,
   * None when it is unset.
   */
  function ApplyEnvOverrides(c: AppConfig, reset: Option<string>): (r: AppConfig)
    ensures r == Default <== reset.Some? && Text.Strip(reset.value) == "1"
    ensures r == c <== !(reset.Some? && Text.Strip(reset.value) == "1")
  {
    if Text.Strip(reset.GetOr("")) != "1" then c else Default
  }

  /** The settings file as `load_config` finds it: absent, unreadable or not JSON, or decoded. */
  datatype ConfigFile = Missing | Unreadable | Contents(payload: Json)

  /** `load_config`: the parsed file, or the defaults when there is nothing to parse; then the override. */
  function LoadConfig(file: ConfigFile, reset: Option<string>): AppConfig
  {
    match file
    case Missing => ApplyEnvOverrides(Default, reset)
    case Unreadable => ApplyEnvOverrides(Default, reset)
    case Contents(payload) => ApplyEnvOverrides(ParseConfig(payload), reset)
  }

  /**
   * Saving and loading again gives back the saved settings unless a reset is
   * requested; with a reset, or without a usable file, the defaults.
   */
  lemma LoadSaved(c: AppConfig, reset: Option<string>)
    ensures LoadConfig(Contents(ToJson(c)), reset)
            == (if reset.Some? && Text.Strip(reset.value) == "1" then Default else c)
    ensures LoadConfig(Missing, reset) == Default && LoadConfig(Unreadable, reset) == Default
  {
    RoundTrip(c);
  }
}

=== FILE: dictionary_api.dfy ===
/**
 * The newer Free Dictionary API adapter
 * (translate_logic/providers/dictionary_api.py): the entry URL, the example
 * and phonetics extraction over the decoded JSON answer, the choice of a
 * British transcription, and the guard around the single request.
 *
 * The older adapter (translator/providers/dictionary_api.py) differs only in
 * its `_coerce_dict`, so the walk takes the key check as a parameter;
 * `LegacyDictionaryApi` instantiates it.
 */
module DictionaryApi {
  import opened Wrappers
  import Text
  import Url
  import opened Json
  import Seqs
  import opened Models
  import opened Fetch

  const BaseUrl: string := "https://api.dictionaryapi.dev/api/v2/entries/en/"

  /** What the adapter returns: a UK transcription, if one was found, and source-only examples. */
  datatype DictionaryResult = DictionaryResult(ipaUk: Option<string>, examples: seq<Example>)

  const NoResult: DictionaryResult := DictionaryResult(None, [])

  // ---------------------------------------------------------------- url

  /** `build_dictionary_api_url`: the base followed by the percent-encoded text. */
  function BuildUrl(text: string): string
  {
    BaseUrl + Url.Quote(text)
  }

  /**
   * The text sits, encoded, after the base: the encoding holds no space and
   * decodes back to the text's UTF-8 bytes.
   */
  lemma UrlEncodesText(text: string)
    ensures BuildUrl(text)[..|BaseUrl|] == BaseUrl
    ensures Url.IsUrlText(BuildUrl(text)[|BaseUrl|..])
    ensures Url.PercentDecode(BuildUrl(text)[|BaseUrl|..], false) == Url.Utf8Encode(text)
  {
    assert BuildUrl(text)[|BaseUrl|..] == Url.Quote(text);
    Url.QuoteIsUrlText(text);
    Url.QuoteRoundTrip(text);
  }

  // ---------------------------------------------------------------- examples

  /** The example text a definition contributes: its stripped `example`, normalised, when non-empty. */
  function DefinitionText(def: map<Key, Json>): (r: seq<string>)
    ensures |r| <= 1
    ensures r != [] <==> GetStripped(Get(def, "example")).Some?
    ensures r != [] ==> r[0] == Text.NormalizeWhitespace(GetStripped(Get(def, "example")).value)
    ensures r != [] ==> Normal(r[0])
  {
    match GetStripped(Get(def, "example"))
    case None => []
    case Some(example) =>
      var normalized := Text.NormalizeWhitespace(example);
      NonBlankNormalizes(Get(def, "example").value.s);
      Text.NormalizeIdempotent(example);
      if normalized != "" then [normalized] else []
  }

  lemma NonBlankNormalizes(s: string)
    requires Text.Strip(s) != ""
    ensures Text.NormalizeWhitespace(Text.Strip(s)) != ""
  {
    Text.StripEmptyIff(s);
    Text.StripKeepsTokens(s);
    Text.NormalizeEmptyIff(s);
  }

  /** The example texts of one meaning's definitions, in order. */
  function MeaningTexts(meanings: seq<map<Key, Json>>, check: KeyCheck): seq<string>
  {
    if meanings == [] then []
    else Seqs.FlatMap(CoerceDictList(Get(meanings[0], "definitions"), check), DefinitionText)
         + MeaningTexts(meanings[1..], check)
  }

  /** The example texts of all entries, in entry, meaning, definition order. */
  function EntryTexts(entries: seq<map<Key, Json>>, check: KeyCheck): seq<string>
  {
    if entries == [] then []
    else MeaningTexts(CoerceDictList(Get(entries[0], "meanings"), check), check) + EntryTexts(entries[1..], check)
  }

  /** The phonetics objects of all entries, in order. */
  function EntryPhonetics(entries: seq<map<Key, Json>>, check: KeyCheck): seq<map<Key, Json>>
  {
    if entries == [] then []
    else CoerceDictList(Get(entries[0], "phonetics"), check) + EntryPhonetics(entries[1..], check)
  }

  /** Source-only examples for the given texts. */
  function Unpaired(texts: seq<string>): (r: seq<Example>)
    ensures |r| == |texts|
    ensures forall i :: 0 <= i < |texts| ==> r[i] == Example(texts[i], None)
  {
    if texts == [] then [] else [Example(texts[0], None)] + Unpaired(texts[1..])
  }

  // ---------------------------------------------------------------- phonetics

  /** A transcription with a British vowel: `əʊ` or `ɒ`. */
  predicate HasBritishVowel(t: string)
  {
    Text.Contains(t, "\U{0259}\U{028A}") || Text.Contains(t, "\U{0252}")
  }

  function PhoneticText(p: map<Key, Json>): (r: seq<string>)
    ensures |r| <= 1
    ensures r == [] <==> GetStripped(Get(p, "text")).None?
  {
    Seqs.OptionToSeq(GetStripped(Get(p, "text")))
  }

  /** The stripped, non-blank `text` of each phonetics object, in order. */
  function PhoneticCandidates(phonetics: seq<map<Key, Json>>): (cs: seq<string>)
    ensures cs == [] <==> forall i :: 0 <= i < |phonetics| ==> GetStripped(Get(phonetics[i], "text")).None?
  {
    Seqs.FlatMapEmpty(phonetics, PhoneticText);
    Seqs.FlatMap(phonetics, PhoneticText)
  }

  /** The choice among candidates: the first with a British vowel, or failing that the first. */
  function SelectFrom(cs: seq<string>): (r: Option<string>)
    ensures r.None? <==> cs == []
    ensures r.Some? ==> r.value in cs
    ensures (exists i :: 0 <= i < |cs| && HasBritishVowel(cs[i])) ==>
              r.Some? && HasBritishVowel(r.value)
              && exists i :: 0 <= i < |cs| && cs[i] == r.value && forall j :: 0 <= j < i ==> !HasBritishVowel(cs[j])
    ensures (forall i :: 0 <= i < |cs| ==> !HasBritishVowel(cs[i])) && cs != [] ==> r == Some(cs[0])
  {
    if cs == [] then None
    else
      match Seqs.FindFirst(cs, HasBritishVowel)
      case Some(t) => Some(t)
      case None => Some(cs[0])
  }

  /**
   * `_select_phonetics`: None when no phonetics object has a non-blank
   * text; otherwise the first candidate with a British vowel, or failing
   * that the first candidate.
   */
  function SelectPhonetics(phonetics: seq<map<Key, Json>>): (r: Option<string>)
    ensures r.None? <==> forall i :: 0 <= i < |phonetics| ==> GetStripped(Get(phonetics[i], "text")).None?
    ensures r == SelectFrom(PhoneticCandidates(phonetics))
  {
    SelectFrom(PhoneticCandidates(phonetics))
  }

  // ---------------------------------------------------------------- parse

  /** `_parse_dictionary_api_payload` after `json.loads`, with the key check as a parameter. */
  function ParseWith(j: Json, check: KeyCheck): (r: DictionaryResult)
    ensures !j.Arr? ==> r == NoResult
    ensures j.Arr? ==> r.ipaUk == SelectPhonetics(EntryPhonetics(CoerceDictList(Some(j), check), check))
    ensures Seqs.Distinct(r.examples)
    ensures forall k :: 0 <= k < |r.examples| ==> r.examples[k].ru.None?
  {
    var entries := CoerceDictList(Some(j), check);
    var texts := Seqs.Dedup(EntryTexts(entries, check));
    DistinctUnpaired(texts);
    DictionaryResult(SelectPhonetics(EntryPhonetics(entries, check)), Unpaired(texts))
  }

  lemma DistinctUnpaired(texts: seq<string>)
    requires Seqs.Distinct(texts)
    ensures Seqs.Distinct(Unpaired(texts))
  {
  }

  /** The newer adapter's parse: every dict is accepted, whatever its keys. */
  function Parse(j: Json): (r: DictionaryResult)
    ensures !j.Arr? ==> r == NoResult
    ensures j.Arr? ==> r.ipaUk == SelectPhonetics(EntryPhonetics(CoerceDictList(Some(j), AnyKeys), AnyKeys))
    ensures Seqs.Distinct(r.examples)
  {
    ParseWith(j, AnyKeys)
  }

  lemma DefinitionTextsNormalized(defs: seq<map<Key, Json>>)
    ensures forall k :: 0 <= k < |Seqs.FlatMap(defs, DefinitionText)| ==> Normal(Seqs.FlatMap(defs, DefinitionText)[k])
  {
    Seqs.FlatMapAll(defs, DefinitionText, Normal);
  }

  lemma {:induction false} MeaningTextsNormalized(meanings: seq<map<Key, Json>>, check: KeyCheck)
    ensures forall k :: 0 <= k < |MeaningTexts(meanings, check)| ==> Normal(MeaningTexts(meanings, check)[k])
  {
    if meanings != [] {
      DefinitionTextsNormalized(CoerceDictList(Get(meanings[0], "definitions"), check));
      MeaningTextsNormalized(meanings[1..], check);
    }
  }

  /** A non-empty, whitespace-normalised text. */
  predicate Normal(t: string)
  {
    t != "" && Text.NormalizeWhitespace(t) == t
  }

  lemma {:induction false} EntryTextsNormalized(entries: seq<map<Key, Json>>, check: KeyCheck)
    ensures forall k :: 0 <= k < |EntryTexts(entries, check)| ==> Normal(EntryTexts(entries, check)[k])
  {
    if entries != [] {
      MeaningTextsNormalized(CoerceDictList(Get(entries[0], "meanings"), check), check);
      EntryTextsNormalized(entries[1..], check);
    }
  }

  /**
   * Every example is normalised, non-empty and source-only, no two share
   * their English text, and an English text is kept iff some definition
   * supplies it.
   */
  lemma ExamplesCharacterised(j: Json, check: KeyCheck)
    ensures var r := ParseWith(j, check);
            var texts := EntryTexts(CoerceDictList(Some(j), check), check);
            && (forall k :: 0 <= k < |r.examples| ==> Normal(r.examples[k].en) && r.examples[k].ru.None?)
            && (forall k, l :: 0 <= k < l < |r.examples| ==> r.examples[k].en != r.examples[l].en)
            && (forall t :: t in texts <==> Example(t, None) in r.examples)
            && r.examples == Unpaired(Seqs.Dedup(texts))
  {
    var texts := EntryTexts(CoerceDictList(Some(j), check), check);
    assert ParseWith(j, check).examples == Unpaired(Seqs.Dedup(texts));
    EntryTextsNormalized(CoerceDictList(Some(j), check), check);
    UnpairedNormal(texts);
    UnpairedDistinct(Seqs.Dedup(texts));
    UnpairedMembers(Seqs.Dedup(texts));
    Seqs.DedupMembers(texts);
  }

  lemma UnpairedNormal(texts: seq<string>)
    requires forall k :: 0 <= k < |texts| ==> Normal(texts[k])
    ensures var r := Unpaired(Seqs.Dedup(texts));
            forall k :: 0 <= k < |r| ==> Normal(r[k].en) && r[k].ru.None?
  {
    var kept := Seqs.Dedup(texts);
    forall k | 0 <= k < |kept| ensures Normal(kept[k]) {
      var i :| 0 <= i < |texts| && texts[i] == kept[k];
    }
  }

  lemma UnpairedDistinct(kept: seq<string>)
    requires Seqs.Distinct(kept)
    ensures var r := Unpaired(kept);
            forall k, l :: 0 <= k < l < |r| ==> r[k].en != r[l].en
  {
  }

  lemma UnpairedMembers(kept: seq<string>)
    ensures forall t :: t in kept <==> Example(t, None) in Unpaired(kept)
  {
    forall t ensures t in kept <==> Example(t, None) in Unpaired(kept) {
      if t in kept {
        var k :| 0 <= k < |kept| && kept[k] == t;
        assert Unpaired(kept)[k] == Example(t, None);
      }
      if Example(t, None) in Unpaired(kept) {
        var k :| 0 <= k < |kept| && Unpaired(kept)[k] == Example(t, None);
        assert kept[k] == t;
      }
    }
  }

  lemma {:induction false} EntryTextsAppend(xs: seq<map<Key, Json>>, ys: seq<map<Key, Json>>, check: KeyCheck)
    ensures EntryTexts(xs + ys, check) == EntryTexts(xs, check) + EntryTexts(ys, check)
  {
    if xs == [] {
      assert xs + ys == ys;
    } else {
      var head := MeaningTexts(CoerceDictList(Get(xs[0], "meanings"), check), check);
      calc {
        EntryTexts(xs + ys, check);
        { assert (xs + ys)[0] == xs[0]; assert (xs + ys)[1..] == xs[1..] + ys; }
        head + EntryTexts(xs[1..] + ys, check);
        { EntryTextsAppend(xs[1..], ys, check); }
        head + (EntryTexts(xs[1..], check) + EntryTexts(ys, check));
      }
    }
  }

  /** Phonetics are gathered across entries in entry order. */
  lemma {:induction false} EntryPhoneticsAppend(xs: seq<map<Key, Json>>, ys: seq<map<Key, Json>>, check: KeyCheck)
    ensures EntryPhonetics(xs + ys, check) == EntryPhonetics(xs, check) + EntryPhonetics(ys, check)
  {
    if xs == [] {
      assert xs + ys == ys;
    } else {
      var head := CoerceDictList(Get(xs[0], "phonetics"), check);
      calc {
        EntryPhonetics(xs + ys, check);
        { assert (xs + ys)[0] == xs[0]; assert (xs + ys)[1..] == xs[1..] + ys; }
        head + EntryPhonetics(xs[1..] + ys, check);
        { EntryPhoneticsAppend(xs[1..], ys, check); }
        head + (EntryPhonetics(xs[1..], check) + EntryPhonetics(ys, check));
      }
    }
  }

  /** Later entries never displace or reorder the examples of earlier ones. */
  lemma FirstSeenOrder(xs: seq<map<Key, Json>>, ys: seq<map<Key, Json>>, check: KeyCheck)
    ensures Seqs.Dedup(EntryTexts(xs, check)) <= Seqs.Dedup(EntryTexts(xs + ys, check))
  {
    EntryTextsAppend(xs, ys, check);
    Seqs.DedupPrefix(EntryTexts(xs, check), EntryTexts(ys, check));
  }

  /**
   * The examples are in first-seen order: of two examples, the earlier
   * one's text occurs among the definitions' texts before any occurrence
   * of the later one's.
   */
  lemma ExamplesInOrder(j: Json, check: KeyCheck)
    ensures var r := ParseWith(j, check);
            var texts := EntryTexts(CoerceDictList(Some(j), check), check);
            forall k, l :: 0 <= k < l < |r.examples| ==> Seqs.Precedes(texts, r.examples[k].en, r.examples[l].en)
  {
    var texts := EntryTexts(CoerceDictList(Some(j), check), check);
    var kept := Seqs.Dedup(texts);
    assert ParseWith(j, check).examples == Unpaired(kept);
    Seqs.DedupOrder(texts);
    forall k, l | 0 <= k < l < |kept| ensures Seqs.Precedes(texts, Unpaired(kept)[k].en, Unpaired(kept)[l].en) {
      assert Unpaired(kept)[k].en == kept[k] && Unpaired(kept)[l].en == kept[l];
    }
  }

  // ---------------------------------------------------------------- translate

  /** `translate_dictionary_api`: empty text makes no request; every failure gives `(None, [])`. */
  function Translate(text: string, fetch: string -> Option<Payload<Json>>): (r: Traced<DictionaryResult>)
    ensures text == "" ==> r.requested == [] && r.result == NoResult
    ensures text != "" ==> r.requested == [BuildUrl(text)]
    ensures Seqs.Distinct(r.result.examples)
    ensures r.result != NoResult ==> exists j: Json :: fetch(BuildUrl(text)) == Some(Parsed(j)) && j.Arr? && r.result == Parse(j)
    ensures text != "" && fetch(BuildUrl(text)).Some? && fetch(BuildUrl(text)).value.Parsed? ==>
              r.result == Parse(fetch(BuildUrl(text)).value.value)
    ensures !(fetch(BuildUrl(text)).Some? && fetch(BuildUrl(text)).value.Parsed?) ==> r.result == NoResult
  {
    var r := Guarded(text, BuildUrl(text), fetch, Parse, NoResult);
    if r.result != NoResult then
      var j := fetch(BuildUrl(text)).value.value;
      assert j.Arr?;
      r
    else r
  }
}

=== FILE: fetch.dfy ===
/**
 * The guard every single-request adapter wraps around its fetch: empty text
 * makes no request, a failed request or an unparsable body gives the empty
 * result, anything else is parsed.
 *
 * The network is a parameter: a fetcher maps a URL to None (the request
 * raised `FetchError`) or to a body, which is either the decoded payload or
 * `Malformed` (`json.loads`, or a later step of the parse, raised).
 */
module Fetch {

  import opened Wrappers

  /** A response body: decoded, or one the parser rejected. */
  datatype Payload<T> = Parsed(value: T) | Malformed

  /** A result together with the URLs requested to produce it, in request order. */
  datatype Traced<R> = Traced(result: R, requested: seq<string>)

  /** The message of the `FetchError` the HTTP helper raises (translator/http.py:41-42). */
  function FetchErrorMessage(url: string): (m: string)
    ensures |m| == |"Failed to fetch "| + |url|
    ensures m[|"Failed to fetch "|..] == url
  {
    "Failed to fetch " + url
  }

  /**
   * `if not text: return empty; try: payload = await fetcher(url) except
   * FetchError: return empty; try: parsed = parse(payload) except Exception:
   * return empty`.
   */
  function Guarded<T, R>(text: string, url: string, fetch: string -> Option<Payload<T>>,
                         parse: T -> R, empty: R): (r: Traced<R>)
    ensures text == "" ==> r == Traced(empty, [])
    ensures text != "" ==> r.requested == [url]
    ensures text != "" && fetch(url).Some? && fetch(url).value.Parsed? ==> r.result == parse(fetch(url).value.value)
    ensures !(fetch(url).Some? && fetch(url).value.Parsed?) ==> r.result == empty
  {
    if text == "" then Traced(empty, [])
    else
      match fetch(url)
      case None => Traced(empty, [url])
      case Some(Malformed) => Traced(empty, [url])
      case Some(Parsed(v)) => Traced(parse(v), [url])
  }
}

=== FILE: google.dfy ===
/**
 * The newer Google Translate adapter (translate_logic/providers/google.py):
 * the request URL, the three candidate extractors over the decoded JSON
 * answer, and the guard around the single request.
 */
module Google {
  import opened Wrappers
  import Text
  import Url
  import Query
  import opened Json
  import Translation
  import Seqs
  import opened Fetch

  const BaseUrl: string := "https://translate.googleapis.com/translate_a/single"

  /** The `dt` parameters, in the order they are sent. */
  const DtParams: seq<string> := ["bd", "ex", "ld", "md", "rw", "rm", "ss", "t", "at", "gt", "qca"]

  // ---------------------------------------------------------------- url

  function DtFields(ps: seq<string>): (r: seq<string>)
    ensures |r| == |ps|
    ensures forall i :: 0 <= i < |ps| ==> r[i] == Query.Field("dt", ps[i])
  {
    if ps == [] then [] else [Query.Field("dt", ps[0])] + DtFields(ps[1..])
  }

  /** `build_google_url`: the base, `?`, and the parameters. */
  function BuildUrl(text: string, sl: string, tl: string): string
  {
    BaseUrl + "?" + Params(sl, tl, Url.QuotePlus(text))
  }

  /** The `params` string, concatenated piece by piece as the source formats it. */
  function Params(sl: string, tl: string, encoded: string): string
  {
    "client=gtx&dj=1&ie=UTF-8&sl=" + sl + "&tl=" + tl
      + "&" + Text.JoinWith("&", DtFields(DtParams)) + "&q=" + encoded
  }

  /** The fixed leading fields and the language pair. */
  function HeadFields(sl: string, tl: string): seq<string>
  {
    ["client=gtx", "dj=1", "ie=UTF-8", Query.Field("sl", sl), Query.Field("tl", tl)]
  }

  /** The query's fields in the order they are meant to be sent. */
  function QueryFields(text: string, sl: string, tl: string): seq<string>
  {
    HeadFields(sl, tl) + DtFields(DtParams) + [Query.Field("q", Url.QuotePlus(text))]
  }

  /**
   * The URL is the base, `?`, and a query made of `client`, `dj`, `ie`,
   * `sl`, `tl`, the eleven `dt` fields in their fixed order, and the encoded
   * text last; when the language codes hold no `&`, splitting the query on
   * `&` gives those fields back.
   */
  lemma UrlFields(text: string, sl: string, tl: string)
    ensures BuildUrl(text, sl, tl) == BaseUrl + "?" + Query.Query(QueryFields(text, sl, tl))
    ensures |QueryFields(text, sl, tl)| == 17
    ensures QueryFields(text, sl, tl)[16] == Query.Field("q", Url.QuotePlus(text))
    ensures forall i :: 0 <= i < 11 ==> QueryFields(text, sl, tl)[5 + i] == Query.Field("dt", DtParams[i])
    ensures Text.Lacks(sl, '&') && Text.Lacks(tl, '&') ==>
              Text.SplitOn(Query.Query(QueryFields(text, sl, tl)), "&") == QueryFields(text, sl, tl)
  {
    var encoded := Url.QuotePlus(text);
    ParamsIsQuery(sl, tl, encoded);
    assert QueryFields(text, sl, tl) == Fields(sl, tl, encoded);
    if Text.Lacks(sl, '&') && Text.Lacks(tl, '&') {
      Query.EncodedLacksAmpersand(text);
      FieldsSplitBack(sl, tl, encoded);
    }
  }

  function Fields(sl: string, tl: string, encoded: string): seq<string>
  {
    HeadFields(sl, tl) + DtFields(DtParams) + [Query.Field("q", encoded)]
  }

  lemma JoinCons(t: string, ts: seq<string>)
    requires |ts| > 0
    ensures Text.JoinWith("&", [t] + ts) == t + "&" + Text.JoinWith("&", ts)
  {
    assert ([t] + ts)[1..] == ts;
  }

  lemma HeadJoin(sl: string, tl: string)
    ensures Query.Query(HeadFields(sl, tl)) == "client=gtx&dj=1&ie=UTF-8&sl=" + sl + "&tl=" + tl
  {
    var fs := HeadFields(sl, tl);
    var d, e := Query.Field("sl", sl), Query.Field("tl", tl);
    assert fs == ["client=gtx", "dj=1", "ie=UTF-8", d, e];
    assert fs[3..] == [d, e] && [d, e][1..] == [e];
    assert fs[2..][1..] == fs[3..];
    assert fs[1..][1..] == fs[2..];
    var tail := Text.JoinWith("&", fs[3..]);
    assert tail == d + "&" + Text.JoinWith("&", [e]);
    calc {
      Text.JoinWith("&", fs);
      "client=gtx" + "&" + Text.JoinWith("&", fs[1..]);
      "client=gtx" + "&" + ("dj=1" + "&" + Text.JoinWith("&", fs[2..]));
      "client=gtx" + "&" + ("dj=1" + "&" + ("ie=UTF-8" + "&" + tail));
    }
    LiteralHead(sl, tl);
  }

  lemma LiteralHead(sl: string, tl: string)
    ensures "client=gtx" + "&" + ("dj=1" + "&" + ("ie=UTF-8" + "&" + (Query.Field("sl", sl) + "&" + Query.Field("tl", tl))))
            == "client=gtx&dj=1&ie=UTF-8&sl=" + sl + "&tl=" + tl
  {
    assert Query.Field("sl", sl) == "sl=" + sl;
    assert Query.Field("tl", tl) == "tl=" + tl;
    assert "client=gtx" + "&" + ("dj=1" + "&" + ("ie=UTF-8" + "&" + "sl=")) == "client=gtx&dj=1&ie=UTF-8&sl=";
    assert "&" + "tl=" == "&tl=";
  }

  lemma ParamsIsQuery(sl: string, tl: string, encoded: string)
    ensures Params(sl, tl, encoded) == Query.Query(Fields(sl, tl, encoded))
  {
    var head := HeadFields(sl, tl);
    var dts := DtFields(DtParams);
    var q := [Query.Field("q", encoded)];
    var h := "client=gtx&dj=1&ie=UTF-8&sl=" + sl + "&tl=" + tl;
    assert Text.JoinWith("&", q) == "q=" + encoded;
    calc {
      Query.Query(Fields(sl, tl, encoded));
      Text.JoinWith("&", (head + dts) + q);
      { Text.JoinWithAppend("&", head + dts, q); }
      Text.JoinWith("&", head + dts) + "&" + ("q=" + encoded);
      { Text.JoinWithAppend("&", head, dts); HeadJoin(sl, tl); }
      h + "&" + Text.JoinWith("&", dts) + "&" + ("q=" + encoded);
      { QueryTail(h + "&" + Text.JoinWith("&", dts), encoded); }
      h + "&" + Text.JoinWith("&", dts) + "&q=" + encoded;
    }
  }

  lemma QueryTail(front: string, encoded: string)
    ensures front + "&" + ("q=" + encoded) == front + "&q=" + encoded
  {
    assert "&" + "q=" == "&q=";
  }

  lemma DtFieldsLack()
    ensures forall i :: 0 <= i < |DtFields(DtParams)| ==> Text.Lacks(DtFields(DtParams)[i], '&')
  {
    forall i | 0 <= i < |DtParams| ensures Text.Lacks(DtParams[i], '&') {
    }
    forall i | 0 <= i < |DtParams| ensures Text.Lacks(DtFields(DtParams)[i], '&') {
      Query.FieldLacks("dt", DtParams[i]);
    }
  }

  lemma HeadLacks(sl: string, tl: string)
    requires Text.Lacks(sl, '&') && Text.Lacks(tl, '&')
    ensures forall i :: 0 <= i < |HeadFields(sl, tl)| ==> Text.Lacks(HeadFields(sl, tl)[i], '&')
  {
    Query.FieldLacks("sl", sl);
    Query.FieldLacks("tl", tl);
    assert Text.Lacks("client=gtx", '&');
    assert Text.Lacks("dj=1", '&');
    assert Text.Lacks("ie=UTF-8", '&');
  }

  lemma FieldsSplitBack(sl: string, tl: string, encoded: string)
    requires Text.Lacks(sl, '&') && Text.Lacks(tl, '&') && Text.Lacks(encoded, '&')
    ensures Text.SplitOn(Query.Query(Fields(sl, tl, encoded)), "&") == Fields(sl, tl, encoded)
  {
    var fields := Fields(sl, tl, encoded);
    var head := HeadFields(sl, tl);
    var dts := DtFields(DtParams);
    DtFieldsLack();
    HeadLacks(sl, tl);
    Query.FieldLacks("q", encoded);
    forall i | 0 <= i < |fields| ensures Text.Lacks(fields[i], '&') {
      if i < 5 {
        assert fields[i] == head[i];
      } else if i < 16 {
        assert fields[i] == dts[i - 5];
      }
    }
    Query.QuerySplitsBack(fields);
  }

  // ---------------------------------------------------------------- extractors

  /** The candidate a `sentences` item contributes: its normalised `trans` string, if any. */
  function SentenceOf(item: Json): (r: seq<string>)
    ensures |r| <= 1
    ensures r != [] <==> item.Obj? && GetNormalized(Get(item.fields, "trans")).Some?
  {
    match CoerceDict(Some(item), AnyKeys)
    case None => []
    case Some(d) => Seqs.OptionToSeq(GetNormalized(Get(d, "trans")))
  }

  /** `_extract_sentence_translations`. */
  function Sentences(raw: map<Key, Json>): seq<string>
  {
    match AsList(Get(raw, "sentences"))
    case None => []
    case Some(items) => Seqs.FlatMap(items, SentenceOf)
  }

  /** A `terms` entry as a candidate. */
  function TermOf(term: Json): (r: seq<string>)
    ensures |r| <= 1
    ensures r != [] <==> term.Str? && !Text.AllSpace(term.s)
  {
    Seqs.OptionToSeq(GetNormalized(Some(term)))
  }

  /** The terms a `dict` item contributes; an item that is not an object, or whose `terms` is not a list, gives none. */
  function TermsOf(item: Json): (r: seq<string>)
    ensures !item.Obj? ==> r == []
  {
    match CoerceDict(Some(item), AnyKeys)
    case None => []
    case Some(d) =>
      match AsList(Get(d, "terms"))
      case None => []
      case Some(terms) => Seqs.FlatMap(terms, TermOf)
  }

  /** `_extract_dict_terms`. */
  function DictTerms(raw: map<Key, Json>): seq<string>
  {
    match AsList(Get(raw, "dict"))
    case None => []
    case Some(items) => Seqs.FlatMap(items, TermsOf)
  }

  /** The keys an alternative is read from, in order of preference. */
  const WordKeys: seq<string> := ["word_postproc", "word", "text"]

  /** The first key of `keys` whose value is a non-blank string, normalised. */
  function FirstWord(d: map<Key, Json>, keys: seq<string>): (r: Option<string>)
    ensures r.None? <==> forall i :: 0 <= i < |keys| ==> GetNormalized(Get(d, keys[i])).None?
    ensures r.Some? ==> exists i :: 0 <= i < |keys| && GetNormalized(Get(d, keys[i])) == r
                                    && forall j :: 0 <= j < i ==> GetNormalized(Get(d, keys[j])).None?
  {
    if keys == [] then None
    else
      var w := GetNormalized(Get(d, keys[0]));
      if w.Some? then w
      else
        var r := FirstWord(d, keys[1..]);
        assert forall i :: 0 < i < |keys| ==> keys[i] == keys[1..][i - 1];
        if r.Some? then
          assert exists i :: 0 <= i < |keys| && GetNormalized(Get(d, keys[i])) == r
                             && forall j :: 0 <= j < i ==> GetNormalized(Get(d, keys[j])).None? by {
            var k :| 0 <= k < |keys[1..]| && GetNormalized(Get(d, keys[1..][k])) == r
                     && forall j :: 0 <= j < k ==> GetNormalized(Get(d, keys[1..][j])).None?;
            assert keys[k + 1] == keys[1..][k];
            forall j | 0 <= j < k + 1 ensures GetNormalized(Get(d, keys[j])).None? {
              if j > 0 { assert keys[j] == keys[1..][j - 1]; }
            }
          }
          r
        else r
  }

  /** An alternative object contributes at most one word: the first non-blank of its three keys. */
  function AltWordOf(alt: Json): (r: seq<string>)
    ensures |r| <= 1
    ensures !alt.Obj? ==> r == []
    ensures alt.Obj? ==> r == Seqs.OptionToSeq(FirstWord(alt.fields, WordKeys))
  {
    match CoerceDict(Some(alt), AnyKeys)
    case None => []
    case Some(d) => Seqs.OptionToSeq(FirstWord(d, WordKeys))
  }

  /** The words an `alternative_translations` item contributes. */
  function AltWordsOf(item: Json): (r: seq<string>)
    ensures !item.Obj? ==> r == []
  {
    match CoerceDict(Some(item), AnyKeys)
    case None => []
    case Some(d) =>
      match AsList(Get(d, "alternative_translations"))
      case None => []
      case Some(alts) => Seqs.FlatMap(alts, AltWordOf)
  }

  /** `_extract_alternative_translations`. */
  function Alternatives(raw: map<Key, Json>): seq<string>
  {
    match AsList(Get(raw, "alternative_translations"))
    case None => []
    case Some(items) => Seqs.FlatMap(items, AltWordsOf)
  }

  /** Every extracted candidate is a non-empty, whitespace-normalised string. */
  predicate Candidate(t: string)
  {
    t != "" && Text.NormalizeWhitespace(t) == t
  }

  /** Dict terms, then alternatives, then sentences, before cleaning. */
  function Candidates(raw: map<Key, Json>): seq<string>
  {
    DictTerms(raw) + Alternatives(raw) + Sentences(raw)
  }

  // ---------------------------------------------------------------- parse

  /** `parse_google_response` after `json.loads`: a non-object answer gives nothing. */
  function ParseResponse(j: Json): (r: seq<string>)
    ensures !j.Obj? ==> r == []
    ensures Translation.IsClean(r)
    ensures j.Obj? ==> Translation.Clean(DictTerms(j.fields)) <= r
  {
    match CoerceDict(Some(j), AnyKeys)
    case None => []
    case Some(raw) =>
      Translation.CleanExtends(DictTerms(raw), Alternatives(raw) + Sentences(raw));
      assert Candidates(raw) == DictTerms(raw) + (Alternatives(raw) + Sentences(raw));
      Translation.Clean(Candidates(raw))
  }

  /**
   * The parsed list is the first candidate of every casefold class, taken
   * over the dict terms, then the alternatives, then the sentences, in that
   * order. So each entry is one of the extracted candidates, and each
   * candidate's class is represented.
   */
  lemma ParseCovers(raw: map<Key, Json>)
    ensures ParseResponse(Obj(raw)) == Translation.FirstOfClass(DictTerms(raw) + Alternatives(raw) + Sentences(raw))
    ensures var r := ParseResponse(Obj(raw));
            && (forall k :: 0 <= k < |r| ==> r[k] in Candidates(raw))
            && (forall i :: 0 <= i < |Candidates(raw)| ==>
                  exists k :: 0 <= k < |r| && Text.CaseFold(r[k]) == Text.CaseFold(Candidates(raw)[i]))
  {
    assert ParseResponse(Obj(raw)) == Translation.Clean(Candidates(raw));
    Translation.CleanIsFirstOfClass(Candidates(raw));
    CandidatesNormalized(raw);
    Translation.CleanRepresents(Candidates(raw));
  }

  /** Every extractor yields only non-empty normalised strings. */
  lemma CandidatesNormalized(raw: map<Key, Json>)
    ensures forall i :: 0 <= i < |Candidates(raw)| ==> Candidate(Candidates(raw)[i])
  {
    DictTermsNormalized(raw);
    AlternativesNormalized(raw);
    SentencesNormalized(raw);
    Seqs.AllAppend(DictTerms(raw), Alternatives(raw), Candidate);
    Seqs.AllAppend(DictTerms(raw) + Alternatives(raw), Sentences(raw), Candidate);
  }

  /** A value read through `GetNormalized` is a candidate. */
  lemma NormalizedCandidate(v: Option<Json>)
    ensures GetNormalized(v).Some? ==> Candidate(GetNormalized(v).value)
  {
    if GetNormalized(v).Some? {
      Text.NormalizeIdempotent(v.value.s);
    }
  }

  lemma SentencesNormalized(raw: map<Key, Json>)
    ensures forall k :: 0 <= k < |Sentences(raw)| ==> Candidate(Sentences(raw)[k])
  {
    var items := AsList(Get(raw, "sentences"));
    if items.Some? {
      forall i | 0 <= i < |items.value|
        ensures forall j :: 0 <= j < |SentenceOf(items.value[i])| ==> Candidate(SentenceOf(items.value[i])[j])
      {
        if items.value[i].Obj? {
          NormalizedCandidate(Get(items.value[i].fields, "trans"));
        }
      }
      Seqs.FlatMapAll(items.value, SentenceOf, Candidate);
    }
  }

  lemma DictTermsNormalized(raw: map<Key, Json>)
    ensures forall k :: 0 <= k < |DictTerms(raw)| ==> Candidate(DictTerms(raw)[k])
  {
    var dicts := AsList(Get(raw, "dict"));
    if dicts.Some? {
      forall i | 0 <= i < |dicts.value|
        ensures forall j :: 0 <= j < |TermsOf(dicts.value[i])| ==> Candidate(TermsOf(dicts.value[i])[j])
      {
        TermsNormalized(dicts.value[i]);
      }
      Seqs.FlatMapAll(dicts.value, TermsOf, Candidate);
    }
  }

  lemma TermsNormalized(item: Json)
    ensures forall k :: 0 <= k < |TermsOf(item)| ==> Candidate(TermsOf(item)[k])
  {
    if item.Obj? {
      var terms := AsList(Get(item.fields, "terms"));
      if terms.Some? {
        forall i | 0 <= i < |terms.value|
          ensures forall j :: 0 <= j < |TermOf(terms.value[i])| ==> Candidate(TermOf(terms.value[i])[j])
        {
          NormalizedCandidate(Some(terms.value[i]));
        }
        Seqs.FlatMapAll(terms.value, TermOf, Candidate);
      }
    }
  }

  lemma AlternativesNormalized(raw: map<Key, Json>)
    ensures forall k :: 0 <= k < |Alternatives(raw)| ==> Candidate(Alternatives(raw)[k])
  {
    var items := AsList(Get(raw, "alternative_translations"));
    if items.Some? {
      forall i | 0 <= i < |items.value|
        ensures forall j :: 0 <= j < |AltWordsOf(items.value[i])| ==> Candidate(AltWordsOf(items.value[i])[j])
      {
        AltWordsNormalized(items.value[i]);
      }
      Seqs.FlatMapAll(items.value, AltWordsOf, Candidate);
    }
  }

  lemma AltWordsNormalized(item: Json)
    ensures forall k :: 0 <= k < |AltWordsOf(item)| ==> Candidate(AltWordsOf(item)[k])
  {
    if item.Obj? {
      var alts := AsList(Get(item.fields, "alternative_translations"));
      if alts.Some? {
        forall i | 0 <= i < |alts.value|
          ensures forall j :: 0 <= j < |AltWordOf(alts.value[i])| ==> Candidate(AltWordOf(alts.value[i])[j])
        {
          AltWordNormalized(alts.value[i]);
        }
        Seqs.FlatMapAll(alts.value, AltWordOf, Candidate);
      }
    }
  }

  lemma AltWordNormalized(alt: Json)
    ensures forall j :: 0 <= j < |AltWordOf(alt)| ==> Candidate(AltWordOf(alt)[j])
  {
    if alt.Obj? && FirstWord(alt.fields, WordKeys).Some? {
      var d := alt.fields;
      var k :| 0 <= k < |WordKeys| && GetNormalized(Get(d, WordKeys[k])) == FirstWord(d, WordKeys);
      NormalizedCandidate(Get(d, WordKeys[k]));
    }
  }

  /** A malformed sentence, dict item or alternative is skipped and extraction carries on. */
  lemma MalformedItemsSkipped(before: seq<Json>, bad: Json, after: seq<Json>)
    requires !bad.Obj?
    ensures Seqs.FlatMap(before + [bad] + after, SentenceOf) == Seqs.FlatMap(before, SentenceOf) + Seqs.FlatMap(after, SentenceOf)
    ensures Seqs.FlatMap(before + [bad] + after, TermsOf) == Seqs.FlatMap(before, TermsOf) + Seqs.FlatMap(after, TermsOf)
    ensures Seqs.FlatMap(before + [bad] + after, AltWordsOf) == Seqs.FlatMap(before, AltWordsOf) + Seqs.FlatMap(after, AltWordsOf)
  {
    Seqs.FlatMapSkips(before, bad, after, SentenceOf);
    Seqs.FlatMapSkips(before, bad, after, TermsOf);
    Seqs.FlatMapSkips(before, bad, after, AltWordsOf);
  }

  // ---------------------------------------------------------------- translate

  /** `translate_google`: the request is guarded, every failure gives []. */
  function Translate(text: string, sl: string, tl: string, fetch: string -> Option<Payload<Json>>): (r: Traced<seq<string>>)
    ensures text == "" ==> r.requested == [] && r.result == []
    ensures text != "" ==> r.requested == [BuildUrl(text, sl, tl)]
    ensures Translation.IsClean(r.result)
    ensures r.result != [] ==> exists raw :: fetch(BuildUrl(text, sl, tl)) == Some(Parsed(Obj(raw)))
                                             && r.result == ParseResponse(Obj(raw))
    ensures text != "" && fetch(BuildUrl(text, sl, tl)).Some? && fetch(BuildUrl(text, sl, tl)).value.Parsed? ==>
              r.result == ParseResponse(fetch(BuildUrl(text, sl, tl)).value.value)
    ensures !(fetch(BuildUrl(text, sl, tl)).Some? && fetch(BuildUrl(text, sl, tl)).value.Parsed?) ==> r.result == []
  {
    var url := BuildUrl(text, sl, tl);
    var r := Guarded(text, url, fetch, ParseResponse, []);
    assert r.result != [] ==> fetch(url) == Some(Parsed(Obj(fetch(url).value.value.fields)));
    r
  }
}

=== FILE: html.dfy ===
/**
 * The parsed HTML tree and its queries (translator/html_parser.py).
 *
 * A node owns its tag, its attribute dictionary and its ordered segments,
 * each either a run of text or a child element; the children of a node are
 * its element segments in order. Parent links become a location: a node
 * together with its strict ancestors, root first.
 */
module Html {
  import opened Wrappers
  import Text
  import Seqs

  /** `HtmlNode` without its parent link. */
  datatype Node = Node(tag: string, attrs: map<string, string>, segments: seq<Segment>)

  /** `HtmlSegment = str | HtmlNode`. */
  datatype Segment = Str(text: string) | Elem(node: Node)

  /** A node in its tree: `ancestors[|ancestors| - 1]` is its parent. */
  datatype Loc = Loc(node: Node, ancestors: seq<Node>)

  /** The document root: `HtmlNode("document", {}, None, [], [])` filled in. */
  function Root(segments: seq<Segment>): Node
  {
    Node("document", map[], segments)
  }

  // ---------------------------------------------------------------- node data

  /** `attrs.get("class", "")`. */
  function ClassAttr(n: Node): string
  {
    if "class" in n.attrs then n.attrs["class"] else ""
  }

  /** `HtmlNode.classes()` (translator/html_parser.py:16-18): the whitespace-separated words of `class`. */
  function Classes(n: Node): (r: set<string>)
    ensures forall c :: c in r ==> Text.IsToken(c)
  {
    var words := Text.Split(ClassAttr(n));
    set i | 0 <= i < |words| :: words[i]
  }

  /** A `class` attribute written as words joined by spaces yields exactly those words. */
  lemma ClassesOfWords(n: Node, words: seq<string>)
    requires Text.AllTokens(words)
    requires ClassAttr(n) == Text.Join(words)
    ensures Classes(n) == set i | 0 <= i < |words| :: words[i]
  {
    Text.SplitJoin(words);
  }

  /** Text of segments `i..` of `n`. */
  function SegmentsText(n: Node, i: nat): string
    requires i <= |n.segments|
    decreases n, |n.segments| - i
  {
    if i == |n.segments| then ""
    else
      (match n.segments[i]
       case Str(t) => t
       case Elem(c) => TextContent(c))
      + SegmentsText(n, i + 1)
  }

  /** `HtmlNode.text_content()` (translator/html_parser.py:20-27). */
  function TextContent(n: Node): string
    decreases n, |n.segments| + 1
  {
    SegmentsText(n, 0)
  }

  /** The text one segment contributes. */
  function SegmentText(seg: Segment): string
  {
    match seg
    case Str(t) => t
    case Elem(c) => TextContent(c)
  }

  /** Appending a segment appends its text. */
  lemma {:induction false} SegmentsTextSnoc(n: Node, seg: Segment, i: nat)
    requires i <= |n.segments|
    ensures var m := n.(segments := n.segments + [seg]);
            SegmentsText(m, i) == SegmentsText(n, i) + SegmentText(seg)
    decreases |n.segments| - i
  {
    var m := n.(segments := n.segments + [seg]);
    if i < |n.segments| {
      assert m.segments[i] == n.segments[i];
      SegmentsTextSnoc(n, seg, i + 1);
    } else {
      assert m.segments[i] == seg;
    }
  }

  /** `text_content` of a node with one more segment. */
  lemma TextContentSnoc(n: Node, seg: Segment)
    ensures TextContent(n.(segments := n.segments + [seg])) == TextContent(n) + SegmentText(seg)
  {
    SegmentsTextSnoc(n, seg, 0);
  }

  // ---------------------------------------------------------------- queries

  /** A node predicate, as the source's `Callable[[HtmlNode], bool]` (which may look at parents). */
  type NodePredicate = Loc -> bool

  /** The locations of the element children of segments `i..`. */
  function ChildLocsFrom(n: Node, path: seq<Node>, i: nat): seq<Loc>
    requires i <= |n.segments|
    decreases |n.segments| - i
  {
    if i == |n.segments| then []
    else
      (match n.segments[i]
       case Str(_) => []
       case Elem(c) => [Loc(c, path + [n])])
      + ChildLocsFrom(n, path, i + 1)
  }

  /** `node.children`, each placed under `l`. */
  function ChildLocs(l: Loc): seq<Loc>
  {
    ChildLocsFrom(l.node, l.ancestors, 0)
  }

  /**
   * Reference definition of `find_all`: the locations under `l` (itself
   * included) that satisfy `p`, in document order (pre-order).
   */
  function Matches(l: Loc, p: NodePredicate): seq<Loc>
    decreases l.node, 1
  {
    (if p(l) then [l] else []) + MatchesFrom(l.node, l.ancestors, p, 0)
  }

  function MatchesFrom(n: Node, path: seq<Node>, p: NodePredicate, i: nat): seq<Loc>
    requires i <= |n.segments|
    decreases n, 0, |n.segments| - i
  {
    if i == |n.segments| then []
    else
      (match n.segments[i]
       case Str(_) => []
       case Elem(c) => Matches(Loc(c, path + [n]), p))
      + MatchesFrom(n, path, p, i + 1)
  }

  /** The matches of a list of subtrees, one after the other. */
  function Forest(ls: seq<Loc>, p: NodePredicate): seq<Loc>
  {
    if ls == [] then [] else Matches(ls[0], p) + Forest(ls[1..], p)
  }

  lemma {:induction false} ForestAppend(a: seq<Loc>, b: seq<Loc>, p: NodePredicate)
    ensures Forest(a + b, p) == Forest(a, p) + Forest(b, p)
  {
    if a == [] {
      assert a + b == b;
    } else {
      assert (a + b)[1..] == a[1..] + b;
      ForestAppend(a[1..], b, p);
    }
  }

  lemma {:induction false} MatchesFromForest(n: Node, path: seq<Node>, p: NodePredicate, i: nat)
    requires i <= |n.segments|
    ensures MatchesFrom(n, path, p, i) == Forest(ChildLocsFrom(n, path, i), p)
    decreases |n.segments| - i
  {
    if i < |n.segments| {
      MatchesFromForest(n, path, p, i + 1);
      match n.segments[i]
      case Str(_) =>
        assert ChildLocsFrom(n, path, i) == ChildLocsFrom(n, path, i + 1);
        assert MatchesFrom(n, path, p, i) == MatchesFrom(n, path, p, i + 1);
      case Elem(c) =>
        var l := Loc(c, path + [n]);
        assert ChildLocsFrom(n, path, i) == [l] + ChildLocsFrom(n, path, i + 1);
        assert ([l] + ChildLocsFrom(n, path, i + 1))[1..] == ChildLocsFrom(n, path, i + 1);
    }
  }

  /** A subtree's matches: the node itself if it qualifies, then its children's subtrees in order. */
  lemma MatchesUnfold(l: Loc, p: NodePredicate)
    ensures Matches(l, p) == (if p(l) then [l] else []) + Forest(ChildLocs(l), p)
  {
    MatchesFromForest(l.node, l.ancestors, p, 0);
  }

  /** Number of nodes in a subtree. */
  function Size(n: Node): nat
    decreases n, 1
  {
    1 + SizeFrom(n, 0)
  }

  function SizeFrom(n: Node, i: nat): nat
    requires i <= |n.segments|
    decreases n, 0, |n.segments| - i
  {
    if i == |n.segments| then 0
    else
      (match n.segments[i]
       case Str(_) => 0
       case Elem(c) => Size(c))
      + SizeFrom(n, i + 1)
  }

  /** The nodes one segment contributes. */
  function SegmentSize(seg: Segment): nat
  {
    match seg
    case Str(_) => 0
    case Elem(c) => Size(c)
  }

  lemma {:induction false} SizeFromSnoc(n: Node, seg: Segment, i: nat)
    requires i <= |n.segments|
    ensures var m := n.(segments := n.segments + [seg]);
            SizeFrom(m, i) == SizeFrom(n, i) + SegmentSize(seg)
    decreases |n.segments| - i
  {
    var m := n.(segments := n.segments + [seg]);
    if i < |n.segments| {
      assert m.segments[i] == n.segments[i];
      SizeFromSnoc(n, seg, i + 1);
    } else {
      assert m.segments[i] == seg;
    }
  }

  /** Appending a segment adds the nodes of that segment. */
  lemma SizeSnoc(n: Node, seg: Segment)
    ensures Size(n.(segments := n.segments + [seg])) == Size(n) + SegmentSize(seg)
  {
    SizeFromSnoc(n, seg, 0);
  }

  function StackSize(ls: seq<Loc>): nat
  {
    if ls == [] then 0 else Size(ls[0].node) + StackSize(ls[1..])
  }

  lemma {:induction false} StackSizeAppend(a: seq<Loc>, b: seq<Loc>)
    ensures StackSize(a + b) == StackSize(a) + StackSize(b)
  {
    if a == [] {
      assert a + b == b;
    } else {
      assert (a + b)[1..] == a[1..] + b;
      StackSizeAppend(a[1..], b);
    }
  }

  lemma {:induction false} StackSizeReverse(a: seq<Loc>)
    ensures StackSize(Seqs.Reverse(a)) == StackSize(a)
  {
    if a != [] {
      StackSizeReverse(a[1..]);
      StackSizeAppend(Seqs.Reverse(a[1..]), [a[0]]);
      assert [a[0]][1..] == [];
    }
  }

  lemma {:induction false} ChildLocsSize(n: Node, path: seq<Node>, i: nat)
    requires i <= |n.segments|
    ensures StackSize(ChildLocsFrom(n, path, i)) == SizeFrom(n, i)
    decreases |n.segments| - i
  {
    if i < |n.segments| {
      ChildLocsSize(n, path, i + 1);
      var rest := ChildLocsFrom(n, path, i + 1);
      match n.segments[i]
      case Str(_) =>
        assert ChildLocsFrom(n, path, i) == rest;
      case Elem(c) =>
        StackSizeAppend([Loc(c, path + [n])], rest);
        assert [Loc(c, path + [n])][1..] == [];
    }
  }

  /** Popping `l` and pushing its reversed children shrinks the stack's node count by one. */
  lemma PopPushSize(s: seq<Loc>, l: Loc)
    ensures StackSize(s + Seqs.Reverse(ChildLocs(l))) < StackSize(s + [l])
  {
    StackSizeAppend(s, Seqs.Reverse(ChildLocs(l)));
    StackSizeAppend(s, [l]);
    StackSizeReverse(ChildLocs(l));
    ChildLocsSize(l.node, l.ancestors, 0);
    assert [l][1..] == [];
  }

  /** After popping `l` and pushing its reversed children, the stack still yields the same matches. */
  lemma PopPushForest(s: seq<Loc>, l: Loc, p: NodePredicate)
    ensures Forest(Seqs.Reverse(s + [l]), p)
            == Matches(l, p) + Forest(Seqs.Reverse(s), p)
    ensures Forest(Seqs.Reverse(s + Seqs.Reverse(ChildLocs(l))), p)
            == Forest(ChildLocs(l), p) + Forest(Seqs.Reverse(s), p)
  {
    Seqs.ReverseAppend(s, [l]);
    assert Seqs.Reverse([l]) == [l];
    assert ([l] + Seqs.Reverse(s))[1..] == Seqs.Reverse(s);
    Seqs.ReverseAppend(s, Seqs.Reverse(ChildLocs(l)));
    Seqs.ReverseReverse(ChildLocs(l));
    ForestAppend(ChildLocs(l), Seqs.Reverse(s), p);
  }

  /** One iteration of the walk keeps "collected so far, then what the stack still yields" equal to the answer. */
  lemma WalkStep(matches: seq<Loc>, rest: seq<Loc>, node: Loc, p: NodePredicate, goal: seq<Loc>)
    requires matches + Forest(Seqs.Reverse(rest + [node]), p) == goal
    ensures (matches + (if p(node) then [node] else []))
            + Forest(Seqs.Reverse(rest + Seqs.Reverse(ChildLocs(node))), p) == goal
    ensures StackSize(rest + Seqs.Reverse(ChildLocs(node))) < StackSize(rest + [node])
  {
    PopPushForest(rest, node, p);
    PopPushSize(rest, node);
    MatchesUnfold(node, p);
  }

  /**
   * `find_all` (translator/html_parser.py:64-72): the explicit-stack walk
   * that pushes children in reverse collects exactly the pre-order matches.
   */
  method FindAll(root: Loc, p: NodePredicate) returns (matches: seq<Loc>)
    ensures matches == Matches(root, p)
  {
    matches := [];
    var stack := [root];
    assert Seqs.Reverse(stack) == [root];
    while stack != []
      invariant matches + Forest(Seqs.Reverse(stack), p) == Matches(root, p)
      decreases StackSize(stack)
    {
      var node := stack[|stack| - 1];
      var rest := stack[..|stack| - 1];
      assert stack == rest + [node];
      WalkStep(matches, rest, node, p, Matches(root, p));
      matches := matches + (if p(node) then [node] else []);
      stack := rest + Seqs.Reverse(ChildLocs(node));
    }
  }

  /** The first match in document order, if any. */
  function FirstMatch(root: Loc, p: NodePredicate): Option<Loc>
  {
    var ms := Matches(root, p);
    if ms == [] then None else Some(ms[0])
  }

  /**
   * `find_first` (translator/html_parser.py:75-84): the same walk, stopping
   * at the first node that satisfies `p`.
   */
  method FindFirst(root: Loc, p: NodePredicate) returns (r: Option<Loc>)
    ensures r.None? <==> Matches(root, p) == []
    ensures r.Some? ==> r.value == Matches(root, p)[0] && p(r.value)
  {
    var stack := [root];
    assert Seqs.Reverse(stack) == [root];
    while stack != []
      invariant Forest(Seqs.Reverse(stack), p) == Matches(root, p)
      decreases StackSize(stack)
    {
      var node := stack[|stack| - 1];
      var rest := stack[..|stack| - 1];
      assert stack == rest + [node];
      WalkStep([], rest, node, p, Matches(root, p));
      if p(node) {
        PopPushForest(rest, node, p);
        MatchesUnfold(node, p);
        return Some(node);
      }
      stack := rest + Seqs.Reverse(ChildLocs(node));
    }
    return None;
  }

  predicate Everything(l: Loc) { true }

  /** Every location of a subtree, in document order. */
  function Descendants(l: Loc): seq<Loc>
  {
    Matches(l, Everything)
  }

  /** The matches of `p` are the subtree's nodes in document order, filtered by `p`. */
  lemma {:induction false} MatchesIsFilter(l: Loc, p: NodePredicate)
    ensures Matches(l, p) == Seqs.Filter(Descendants(l), p)
    decreases l.node, 1
  {
    MatchesFromIsFilter(l.node, l.ancestors, p, 0);
    var rest := MatchesFrom(l.node, l.ancestors, Everything, 0);
    Seqs.FilterAppend([l], rest, p);
    assert Seqs.Filter([l], p) == (if p(l) then [l] else []) by {
      assert [l][1..] == [];
    }
  }

  lemma {:induction false} MatchesFromIsFilter(n: Node, path: seq<Node>, p: NodePredicate, i: nat)
    requires i <= |n.segments|
    ensures MatchesFrom(n, path, p, i) == Seqs.Filter(MatchesFrom(n, path, Everything, i), p)
    decreases n, 0, |n.segments| - i
  {
    if i < |n.segments| {
      MatchesFromIsFilter(n, path, p, i + 1);
      var rest := MatchesFrom(n, path, Everything, i + 1);
      match n.segments[i]
      case Str(_) =>
        assert MatchesFrom(n, path, Everything, i) == rest;
      case Elem(c) =>
        var l := Loc(c, path + [n]);
        MatchesIsFilter(l, p);
        Seqs.FilterAppend(Descendants(l), rest, p);
    }
  }

  /** Every match satisfies `p`, and every node of the subtree satisfying `p` is a match. */
  lemma MatchesSound(l: Loc, p: NodePredicate)
    ensures forall i :: 0 <= i < |Matches(l, p)| ==> p(Matches(l, p)[i])
    ensures forall i :: 0 <= i < |Descendants(l)| && p(Descendants(l)[i]) ==> Descendants(l)[i] in Matches(l, p)
    ensures p(l) ==> Matches(l, p) != [] && Matches(l, p)[0] == l
  {
    MatchesIsFilter(l, p);
  }

  /** `find_first` answers the first node of the subtree, in document order, that satisfies `p`. */
  lemma FirstMatchIsFirst(l: Loc, p: NodePredicate)
    ensures FirstMatch(l, p) == Seqs.FindFirst(Descendants(l), p)
  {
    MatchesIsFilter(l, p);
    Seqs.FilterHead(Descendants(l), p);
  }

  /** Whether `c` is among the classes of some ancestor, walking up from the parent. */
  function AncestorsHaveClass(ancestors: seq<Node>, c: string): (r: bool)
    ensures r <==> exists i :: 0 <= i < |ancestors| && c in Classes(ancestors[i])
  {
    if ancestors == [] then false
    else if c in Classes(ancestors[|ancestors| - 1]) then true
    else
      var up := ancestors[..|ancestors| - 1];
      assert forall i :: 0 <= i < |up| ==> up[i] == ancestors[i];
      AncestorsHaveClass(up, c)
  }

  /**
   * `has_ancestor_with_class` (translator/html_parser.py:87-93): the node's
   * own classes do not count, only those of its strict ancestors.
   */
  function HasAncestorWithClass(l: Loc, c: string): (r: bool)
    ensures r <==> exists i :: 0 <= i < |l.ancestors| && c in Classes(l.ancestors[i])
  {
    AncestorsHaveClass(l.ancestors, c)
  }
}

=== FILE: html_builder.dfy ===
/**
 * Building the tree from the parser's callbacks (translator/html_parser.py:30-61).
 *
 * The tokenizer (`html.parser.HTMLParser`) is not part of this model: its
 * output is the list of callbacks it makes, one event each. The builder
 * keeps a stack of open elements whose bottom is the document root; an
 * element's node is complete once it is closed, and everything still open
 * at the end of input is closed into its parent.
 */
module HtmlBuilder {
  import opened Wrappers
  import opened Html

  /** One `HTMLParser` callback: `handle_starttag`, `handle_endtag`, `handle_startendtag`, `handle_data`. */
  datatype Event =
    | StartTag(tag: string, attrs: seq<(string, Option<string>)>)
    | EndTag(tag: string)
    | StartEndTag(tag: string, attrs: seq<(string, Option<string>)>)
    | Data(text: string)

  /** The attribute pair is kept: a non-empty name with a value. */
  predicate Kept(a: (string, Option<string>))
  {
    a.0 != "" && a.1.Some?
  }

  /**
   * `{key: value for key, value in attrs if key and value is not None}`:
   * a later pair with the same name overrides an earlier one.
   */
  function AttrDict(attrs: seq<(string, Option<string>)>): (r: map<string, string>)
    ensures forall k :: k in r <==> exists i :: 0 <= i < |attrs| && Kept(attrs[i]) && attrs[i].0 == k
    ensures forall i :: 0 <= i < |attrs| && Kept(attrs[i])
                        && (forall j :: i < j < |attrs| && Kept(attrs[j]) ==> attrs[j].0 != attrs[i].0)
                        ==> r[attrs[i].0] == attrs[i].1.value
  {
    if attrs == [] then map[]
    else
      var init := attrs[..|attrs| - 1];
      var a := attrs[|attrs| - 1];
      var m := AttrDict(init);
      assert forall i :: 0 <= i < |init| ==> init[i] == attrs[i];
      if Kept(a) then m[a.0 := a.1.value] else m
  }

  /** The builder's state: the open elements, bottom first; the bottom is the document. */
  type Stack = s: seq<Node> | |s| >= 1 witness [Root([])]

  /** Close the innermost open element into its parent. */
  function CloseTop(s: Stack): (r: Stack)
    requires |s| > 1
    ensures |r| == |s| - 1
    ensures r[..|r| - 1] == s[..|s| - 2]
    ensures r[|r| - 1].tag == s[|s| - 2].tag && r[|r| - 1].attrs == s[|s| - 2].attrs
    ensures r[|r| - 1].segments == s[|s| - 2].segments + [Elem(s[|s| - 1])]
  {
    var parent := s[|s| - 2];
    s[..|s| - 2] + [parent.(segments := parent.segments + [Elem(s[|s| - 1])])]
  }

  /** Append a segment to the innermost open element. */
  function AppendToTop(s: Stack, seg: Segment): (r: Stack)
    ensures |r| == |s|
  {
    var top := s[|s| - 1];
    s[..|s| - 1] + [top.(segments := top.segments + [seg])]
  }

  /** One callback (translator/html_parser.py:36-55). */
  function Step(s: Stack, e: Event): (r: Stack)
    ensures r[0].tag == s[0].tag && r[0].attrs == s[0].attrs
  {
    match e
    case StartTag(t, attrs) => s + [Node(t, AttrDict(attrs), [])]
    case EndTag(_) => if |s| > 1 then CloseTop(s) else s
    case StartEndTag(t, attrs) => AppendToTop(s, Elem(Node(t, AttrDict(attrs), [])))
    case Data(d) => if d != "" then AppendToTop(s, Str(d)) else s
  }

  /** `builder.feed(text)`: the callbacks in order. */
  function Feed(s: Stack, events: seq<Event>): (r: Stack)
    ensures r[0].tag == s[0].tag && r[0].attrs == s[0].attrs
    decreases |events|
  {
    if events == [] then s else Feed(Step(s, events[0]), events[1..])
  }

  /** Every element still open at the end of input is already attached to its parent. */
  function CloseAll(s: Stack): Node
    decreases |s|
  {
    if |s| == 1 then s[0] else CloseAll(CloseTop(s))
  }

  /** `parse_html`: the document root after all callbacks. */
  function ParseEvents(events: seq<Event>): (r: Node)
    ensures r.tag == "document" && r.attrs == map[]
  {
    CloseAllRoot(Feed([Root([])], events));
    CloseAll(Feed([Root([])], events))
  }

  lemma {:induction false} CloseAllRoot(s: Stack)
    ensures CloseAll(s).tag == s[0].tag && CloseAll(s).attrs == s[0].attrs
    decreases |s|
  {
    if |s| > 1 {
      CloseAllRoot(CloseTop(s));
    }
  }

  // ---------------------------------------------------------------- end tags

  /** The same callbacks with every end tag's name blanked out. */
  function EraseEndNames(events: seq<Event>): (r: seq<Event>)
    ensures |r| == |events|
  {
    if events == [] then []
    else (if events[0].EndTag? then [EndTag("")] else [events[0]]) + EraseEndNames(events[1..])
  }

  /**
   * `handle_endtag` ignores the tag's name: an end tag closes the innermost
   * open element whatever it names, so the tree does not depend on end-tag
   * names at all (translator/html_parser.py:43-45).
   */
  lemma {:induction false} EndTagNamesIrrelevant(s: Stack, events: seq<Event>)
    ensures Feed(s, events) == Feed(s, EraseEndNames(events))
    decreases |events|
  {
    if events != [] {
      var e := EraseEndNames(events);
      assert e[1..] == EraseEndNames(events[1..]);
      assert Step(s, events[0]) == Step(s, e[0]);
      EndTagNamesIrrelevant(Step(s, events[0]), events[1..]);
    }
  }

  /** An end tag with only the document open changes nothing. */
  lemma EndTagAtRootIgnored(root: Node, events: seq<Event>, t: string)
    ensures Feed([root], [EndTag(t)] + events) == Feed([root], events)
  {
    assert ([EndTag(t)] + events)[1..] == events;
  }

  // ---------------------------------------------------------------- text

  /** The text of every open element, bottom first. */
  function StackText(s: seq<Node>): string
  {
    if s == [] then "" else StackText(s[..|s| - 1]) + TextContent(s[|s| - 1])
  }

  /** The text delivered by the `handle_data` callbacks, in order. */
  function AllData(events: seq<Event>): string
  {
    if events == [] then ""
    else (if events[0].Data? then events[0].text else "") + AllData(events[1..])
  }

  lemma CloseTopText(s: Stack)
    requires |s| > 1
    ensures StackText(CloseTop(s)) == StackText(s)
  {
    var pre := s[..|s| - 2];
    var parent := s[|s| - 2];
    var top := s[|s| - 1];
    var closed := parent.(segments := parent.segments + [Elem(top)]);
    TextContentSnoc(parent, Elem(top));
    var r := CloseTop(s);
    assert r[|r| - 1] == closed;
    assert s[..|s| - 1][..|s| - 2] == pre && s[..|s| - 1][|s| - 2] == parent;
    calc {
      StackText(r);
      StackText(pre) + TextContent(closed);
      StackText(pre) + (TextContent(parent) + TextContent(top));
      (StackText(pre) + TextContent(parent)) + TextContent(top);
      StackText(s[..|s| - 1]) + TextContent(top);
      StackText(s);
    }
  }

  lemma AppendToTopText(s: Stack, seg: Segment)
    ensures StackText(AppendToTop(s, seg)) == StackText(s) + SegmentText(seg)
  {
    TextContentSnoc(s[|s| - 1], seg);
    var r := AppendToTop(s, seg);
    assert r[..|r| - 1] == s[..|s| - 1];
  }

  lemma StepText(s: Stack, e: Event)
    ensures StackText(Step(s, e)) == StackText(s) + (if e.Data? then e.text else "")
  {
    match e
    case StartTag(t, attrs) =>
      var n := Node(t, AttrDict(attrs), []);
      assert (s + [n])[..|s|] == s;
      assert TextContent(n) == "";
    case EndTag(_) =>
      if |s| > 1 { CloseTopText(s); }
    case StartEndTag(t, attrs) =>
      var n := Node(t, AttrDict(attrs), []);
      AppendToTopText(s, Elem(n));
      assert TextContent(n) == "";
    case Data(d) =>
      if d != "" { AppendToTopText(s, Str(d)); }
  }

  lemma {:induction false} FeedText(s: Stack, events: seq<Event>)
    ensures StackText(Feed(s, events)) == StackText(s) + AllData(events)
    decreases |events|
  {
    if events != [] {
      StepText(s, events[0]);
      FeedText(Step(s, events[0]), events[1..]);
    }
  }

  lemma {:induction false} CloseAllText(s: Stack)
    ensures TextContent(CloseAll(s)) == StackText(s)
    decreases |s|
  {
    if |s| > 1 {
      CloseTopText(s);
      CloseAllText(CloseTop(s));
    } else {
      assert s[..0] == [];
    }
  }

  /**
   * The text content of the parsed document is exactly the data the
   * tokenizer delivered, in order: no text is lost, duplicated or reordered
   * by the tree building (translator/html_parser.py:20-27, 53-55).
   */
  lemma ParseText(events: seq<Event>)
    ensures TextContent(ParseEvents(events)) == AllData(events)
  {
    var s0: Stack := [Root([])];
    assert TextContent(Root([])) == "";
    assert StackText(s0) == "" by {
      assert s0[..0] == [];
    }
    FeedText(s0, events);
    CloseAllText(Feed(s0, events));
  }

  // ---------------------------------------------------------------- nodes

  /** The nodes held by the open elements. */
  function StackNodes(s: seq<Node>): nat
  {
    if s == [] then 0 else StackNodes(s[..|s| - 1]) + Size(s[|s| - 1])
  }

  /** The callbacks that create an element. */
  function Opens(events: seq<Event>): nat
  {
    if events == [] then 0
    else (if events[0].StartTag? || events[0].StartEndTag? then 1 else 0) + Opens(events[1..])
  }

  lemma CloseTopNodes(s: Stack)
    requires |s| > 1
    ensures StackNodes(CloseTop(s)) == StackNodes(s)
  {
    var pre := s[..|s| - 2];
    SizeSnoc(s[|s| - 2], Elem(s[|s| - 1]));
    var r := CloseTop(s);
    assert r[..|r| - 1] == pre;
    assert s[..|s| - 1][..|s| - 2] == pre;
  }

  lemma AppendToTopNodes(s: Stack, seg: Segment)
    ensures StackNodes(AppendToTop(s, seg)) == StackNodes(s) + SegmentSize(seg)
  {
    SizeSnoc(s[|s| - 1], seg);
    var r := AppendToTop(s, seg);
    assert r[..|r| - 1] == s[..|s| - 1];
  }

  lemma StepNodes(s: Stack, e: Event)
    ensures StackNodes(Step(s, e)) == StackNodes(s) + (if e.StartTag? || e.StartEndTag? then 1 else 0)
  {
    match e
    case StartTag(t, attrs) =>
      var n := Node(t, AttrDict(attrs), []);
      assert (s + [n])[..|s|] == s;
      assert Size(n) == 1;
    case EndTag(_) =>
      if |s| > 1 { CloseTopNodes(s); }
    case StartEndTag(t, attrs) =>
      var n := Node(t, AttrDict(attrs), []);
      AppendToTopNodes(s, Elem(n));
      assert Size(n) == 1;
    case Data(d) =>
      if d != "" { AppendToTopNodes(s, Str(d)); }
  }

  lemma {:induction false} FeedNodes(s: Stack, events: seq<Event>)
    ensures StackNodes(Feed(s, events)) == StackNodes(s) + Opens(events)
    decreases |events|
  {
    if events != [] {
      StepNodes(s, events[0]);
      FeedNodes(Step(s, events[0]), events[1..]);
    }
  }

  lemma {:induction false} CloseAllNodes(s: Stack)
    ensures Size(CloseAll(s)) == StackNodes(s)
    decreases |s|
  {
    if |s| > 1 {
      CloseTopNodes(s);
      CloseAllNodes(CloseTop(s));
    } else {
      assert s[..0] == [];
    }
  }

  /**
   * Every start tag and self-closing tag becomes exactly one element of the
   * document, unclosed ones included: the tree has one node per such
   * callback plus the document root (translator/html_parser.py:36-51).
   */
  lemma ParseNodes(events: seq<Event>)
    ensures Size(ParseEvents(events)) == 1 + Opens(events)
  {
    var s0: Stack := [Root([])];
    assert Size(Root([])) == 1;
    assert StackNodes(s0) == 1 by {
      assert s0[..0] == [];
    }
    FeedNodes(s0, events);
    CloseAllNodes(Feed(s0, events));
  }
}

=== FILE: json.dfy ===
/**
 * Decoded JSON values and the defensive accessors the adapters use on them.
 *
 * A value is what `json.loads` returns: `null`, a boolean, a number, a
 * string, an array or an object (section 3 of RFC 8259). The accessors
 * are typed as taking any Python object, so an object's keys are kept
 * general here: section 4 of RFC 8259 only ever produces string names
 * (`Decoded`), but the older adapters still check every key.
 */
module Json {
  import opened Wrappers
  import Text
  import Seqs

  /** An object key: a string, or anything else a Python dict may hold. */
  datatype Key = StrKey(name: string) | OtherKey(id: int)

  /** Numbers are never read by the adapters, so their value is an integer placeholder. */
  datatype Json =
    | Null
    | Bool(b: bool)
    | Number(n: int)
    | Str(s: string)
    | Arr(items: seq<Json>)
    | Obj(fields: map<Key, Json>)

  /** `d.get(name)`: None when the key is absent. */
  function Get(d: map<Key, Json>, name: string): (r: Option<Json>)
    ensures r.Some? <==> StrKey(name) in d
  {
    if StrKey(name) in d then Some(d[StrKey(name)]) else None
  }

  /** Every key of the object is a string. */
  predicate StringKeys(d: map<Key, Json>)
  {
    forall k | k in d :: k.StrKey?
  }

  /** A value `json.loads` can return: every object, at every depth, has string keys. */
  predicate Decoded(j: Json)
  {
    match j
    case Arr(items) => forall i | 0 <= i < |items| :: Decoded(items[i])
    case Obj(fields) => StringKeys(fields) && forall k | k in fields :: Decoded(fields[k])
    case _ => true
  }

  /** How `_coerce_dict` treats keys: the newer adapters accept any dict, the older ones only string-keyed ones. */
  datatype KeyCheck = AnyKeys | StringKeysOnly

  /** `_coerce_dict`: the value as a dict, or None. */
  function CoerceDict(v: Option<Json>, check: KeyCheck): (r: Option<map<Key, Json>>)
    ensures r.Some? <==> v.Some? && v.value.Obj? && (check.StringKeysOnly? ==> StringKeys(v.value.fields))
    ensures r.Some? ==> r.value == v.value.fields
  {
    if v.Some? && v.value.Obj? && (check.AnyKeys? || StringKeys(v.value.fields)) then Some(v.value.fields)
    else None
  }

  /** On a decoded value the key check never rejects anything: both variants coerce alike. */
  lemma CoerceDictDecoded(v: Json)
    requires Decoded(v)
    ensures CoerceDict(Some(v), StringKeysOnly) == CoerceDict(Some(v), AnyKeys)
  {
  }

  /** `_coerce_list` / `_as_list`: the value as a list, or None. */
  function AsList(v: Option<Json>): (r: Option<seq<Json>>)
    ensures r.Some? <==> v.Some? && v.value.Arr?
  {
    if v.Some? && v.value.Arr? then Some(v.value.items) else None
  }

  /** `_coerce_dict_list`: the dict items of a list, in order; anything else is skipped, a non-list gives []. */
  function CoerceDictList(v: Option<Json>, check: KeyCheck): (r: seq<map<Key, Json>>)
    ensures !(v.Some? && v.value.Arr?) ==> r == []
    ensures v.Some? && v.value.Arr? ==> |r| <= |v.value.items|
  {
    if v.Some? && v.value.Arr? then DictItems(v.value.items, check) else []
  }

  function DictItems(items: seq<Json>, check: KeyCheck): (r: seq<map<Key, Json>>)
    ensures |r| <= |items|
    ensures forall i :: 0 <= i < |r| ==> exists j :: 0 <= j < |items| && items[j] == Obj(r[i])
  {
    if items == [] then []
    else
      var rest := DictItems(items[1..], check);
      assert forall i :: 0 <= i < |rest| ==> exists j :: 0 <= j < |items| && items[j] == Obj(rest[i]) by {
        forall i | 0 <= i < |rest| ensures exists j :: 0 <= j < |items| && items[j] == Obj(rest[i]) {
          var j :| 0 <= j < |items[1..]| && items[1..][j] == Obj(rest[i]);
          assert items[j + 1] == Obj(rest[i]);
        }
      }
      match CoerceDict(Some(items[0]), check)
      case Some(d) => [d] + rest
      case None => rest
  }

  /** The items `_coerce_dict` accepts under `check`. */
  function Accepted(check: KeyCheck): Json -> bool
  {
    (j: Json) => CoerceDict(Some(j), check).Some?
  }

  /**
   * The dicts kept are exactly the accepted items, in order: every object
   * passing the key check is kept, and everything else is skipped.
   */
  lemma {:induction false} DictItemsAccepted(items: seq<Json>, check: KeyCheck)
    ensures var kept := Seqs.Filter(items, Accepted(check));
            |DictItems(items, check)| == |kept|
            && forall i :: 0 <= i < |kept| ==> DictItems(items, check)[i] == kept[i].fields
  {
    if items != [] {
      DictItemsAccepted(items[1..], check);
      var rest := DictItems(items[1..], check);
      var kept := Seqs.Filter(items[1..], Accepted(check));
      if Accepted(check)(items[0]) {
        var r := DictItems(items, check);
        var all := Seqs.Filter(items, Accepted(check));
        assert r == [items[0].fields] + rest;
        assert all == [items[0]] + kept;
        forall i | 0 <= i < |all| ensures r[i] == all[i].fields {
          if i > 0 { assert r[i] == rest[i - 1] && all[i] == kept[i - 1]; }
        }
      }
    }
  }

  /** `_coerce_dict_list` of a list: its accepted items' dicts, in order. */
  lemma CoerceDictListAccepted(items: seq<Json>, check: KeyCheck)
    ensures var kept := Seqs.Filter(items, Accepted(check));
            |CoerceDictList(Some(Arr(items)), check)| == |kept|
            && forall i :: 0 <= i < |kept| ==> CoerceDictList(Some(Arr(items)), check)[i] == kept[i].fields
  {
    DictItemsAccepted(items, check);
  }

  /** A list holding only dicts is kept whole by the permissive check. */
  lemma {:induction false} DictItemsAllObjects(items: seq<Json>)
    requires forall i :: 0 <= i < |items| ==> items[i].Obj?
    ensures |DictItems(items, AnyKeys)| == |items|
  {
    if items != [] {
      DictItemsAllObjects(items[1..]);
    }
  }

  /** On decoded values both key checks keep the same dicts. */
  lemma {:induction false} DictItemsDecoded(items: seq<Json>)
    requires forall i :: 0 <= i < |items| ==> Decoded(items[i])
    ensures DictItems(items, StringKeysOnly) == DictItems(items, AnyKeys)
  {
    if items != [] {
      CoerceDictDecoded(items[0]);
      DictItemsDecoded(items[1..]);
    }
  }

  /** The strip-based `_get_str` (Tatoeba, Dictionary API): a string's stripped form when non-empty. */
  function GetStripped(v: Option<Json>): (r: Option<string>)
    ensures r.Some? <==> v.Some? && v.value.Str? && !Text.AllSpace(v.value.s)
    ensures r.Some? ==> r.value == Text.Strip(v.value.s) && r.value != ""
  {
    if v.Some? && v.value.Str? then
      var stripped := Text.Strip(v.value.s);
      Text.StripEmptyIff(v.value.s);
      if stripped == "" then None else Some(stripped)
    else None
  }

  /** The normalising `_get_str` (Google): a string's collapsed form when non-empty. */
  function GetNormalized(v: Option<Json>): (r: Option<string>)
    ensures r.Some? <==> v.Some? && v.value.Str? && !Text.AllSpace(v.value.s)
    ensures r.Some? ==> r.value == Text.NormalizeWhitespace(v.value.s) && r.value != ""
  {
    if v.Some? && v.value.Str? then
      var normalized := Text.NormalizeWhitespace(v.value.s);
      Text.NormalizeEmptyIff(v.value.s);
      if normalized == "" then None else Some(normalized)
    else None
  }

  /** `_get_bool`: only a JSON boolean counts. */
  function GetBool(v: Option<Json>): (r: Option<bool>)
    ensures r.Some? <==> v.Some? && v.value.Bool?
  {
    if v.Some? && v.value.Bool? then Some(v.value.b) else None
  }
}

=== FILE: legacy_cambridge.dfy ===
/**
 * The older Cambridge Dictionary adapter (translator/providers/cambridge.py).
 *
 * It fetches the English and the English-Russian dictionary page of the
 * word's slug one after the other, reads each page as a whole (no entry
 * blocks, no language filter, no ranking), and reports a result only when
 * the Russian page has a dictionary body, an entry and a translation,
 * listing the fields it could not find.
 */
module LegacyCambridge {
  import opened Wrappers
  import opened Text
  import Seqs
  import opened Html
  import HtmlBuilder
  import opened Models
  import opened Fetch
  import Cambridge

  const EnglishUrl: string := Cambridge.BaseUrl + "/dictionary/english/"
  const EnglishRussianUrl: string := Cambridge.BaseUrl + "/dictionary/english-russian/"

  const ParseFailed: string := "Cambridge parse failed"
  const MissingIpa: string := "Cambridge missing UK IPA"
  const MissingAudio: string := "Cambridge missing UK audio"
  const MissingExamples: string := "Cambridge missing examples"

  /** `CambridgePageData` of this variant. */
  datatype PageData = PageData(hasDiBody: bool, hasEntry: bool, ipaUk: Option<string>, audioUkUrl: Option<string>,
                               translations: seq<string>, examples: seq<Example>)

  /** `CambridgeResult` of this variant: the first Russian translation only, and the problems met. */
  datatype Result = Result(found: bool, translationRu: Option<string>, ipaUk: Option<string>, audioUkUrl: Option<string>,
                           examples: seq<Example>, errors: seq<string>)

  /** The result with nothing found and the given errors. */
  function NotFound(errors: seq<string>): Result
  {
    Result(false, None, None, None, [], errors)
  }

  /** `build_cambridge_urls`: both dictionary prefixes followed by the same slug. */
  function BuildUrls(text: string): (r: Cambridge.Urls)
    ensures StartsWith(r.english, EnglishUrl) && StartsWith(r.englishRussian, EnglishRussianUrl)
    ensures r.english[|EnglishUrl|..] == r.englishRussian[|EnglishRussianUrl|..] == ToCambridgeSlug(text)
  {
    var slug := ToCambridgeSlug(text);
    Cambridge.Urls(EnglishUrl + slug, EnglishRussianUrl + slug)
  }

  /** Blank text gives the bare dictionary prefixes; the slug never holds a space. */
  lemma UrlsOfBlankText(text: string)
    ensures AllSpace(text) <==> BuildUrls(text) == Cambridge.Urls(EnglishUrl, EnglishRussianUrl)
    ensures forall i :: |EnglishUrl| <= i < |BuildUrls(text).english| ==> BuildUrls(text).english[i] != ' '
  {
    SlugEmptyIff(text);
    var r := BuildUrls(text);
    if r == Cambridge.Urls(EnglishUrl, EnglishRussianUrl) {
      assert r.english[|EnglishUrl|..] == "";
    }
    forall i | |EnglishUrl| <= i < |r.english| ensures r.english[i] != ' ' {
      assert r.english[i] == ToCambridgeSlug(text)[i - |EnglishUrl|];
    }
  }

  // ---------------------------------------------------------------- page

  /** `_is_di_body`. */
  predicate IsDiBody(l: Loc)
  {
    l.node.tag == "div" && "di-body" in Classes(l.node)
  }

  /**
   * `_extract_ipa_uk`: among the UK-scoped `pron` spans, the first whose
   * text is not blank (unlike the newer variant, which looks at the first
   * span of each kind only and falls back to other kinds).
   */
  function ExtractIpaUk(root: Loc): (r: Option<string>)
    ensures var spans := UkPronSpans(root);
            r.None? <==> forall i :: 0 <= i < |spans| ==> Cambridge.TextOf(spans[i]) == ""
    ensures var spans := UkPronSpans(root);
            r.Some? ==> r.value != "" && exists i :: 0 <= i < |spans| && Cambridge.TextOf(spans[i]) == r.value
                                                  && forall j :: 0 <= j < i ==> Cambridge.TextOf(spans[j]) == ""
  {
    Cambridge.FirstText(UkPronSpans(root))
  }

  /** The `pron` spans inside a UK block. */
  function UkPronSpans(root: Loc): (r: seq<Loc>)
    ensures forall i :: 0 <= i < |r| ==> Cambridge.IsUkPron(r[i])
  {
    MatchesSound(root, Cambridge.IsUkPron);
    Matches(root, Cambridge.IsUkPron)
  }

  /** A `source` element of type `audio/mpeg` inside a UK block. */
  predicate IsUkAudio(l: Loc)
  {
    l.node.tag == "source" && "type" in l.node.attrs && l.node.attrs["type"] == "audio/mpeg"
    && HasAncestorWithClass(l, "uk")
  }

  /** `node.attrs.get("src", "").strip()`. */
  function Src(l: Loc): string
  {
    Strip(if "src" in l.node.attrs then l.node.attrs["src"] else "")
  }

  predicate HasSrc(l: Loc)
  {
    Src(l) != ""
  }

  /** An absolute `http(s)` address is kept; anything else is taken relative to the site. */
  function Absolute(src: string): (r: string)
    ensures StartsWith(src, "http://") || StartsWith(src, "https://") ==> r == src
    ensures !(StartsWith(src, "http://") || StartsWith(src, "https://")) ==> r == Cambridge.BaseUrl + src
    ensures StartsWith(r, "http://") || StartsWith(r, "https://")
  {
    if StartsWith(src, "http://") || StartsWith(src, "https://") then src
    else
      assert (Cambridge.BaseUrl + src)[..|"https://"|] == "https://";
      Cambridge.BaseUrl + src
  }

  /**
   * `_extract_audio_uk`: the first UK `audio/mpeg` source with a non-blank
   * `src`, made absolute.
   */
  function ExtractAudioUk(root: Loc): (r: Option<string>)
    ensures r.None? <==> forall i :: 0 <= i < |Matches(root, IsUkAudio)| ==> Src(Matches(root, IsUkAudio)[i]) == ""
    ensures r.Some? ==> StartsWith(r.value, "http://") || StartsWith(r.value, "https://")
    ensures r.Some? ==> exists i :: 0 <= i < |Matches(root, IsUkAudio)| && r.value == Absolute(Src(Matches(root, IsUkAudio)[i]))
                                    && forall j :: 0 <= j < i ==> Src(Matches(root, IsUkAudio)[j]) == ""
  {
    match Seqs.FindFirst(Matches(root, IsUkAudio), HasSrc)
    case None => None
    case Some(l) => Some(Absolute(Src(l)))
  }

  /** `_extract_translations`: the newer variant's extraction without a language filter. */
  function ExtractTranslations(root: Loc): (r: seq<string>)
    ensures Seqs.Distinct(r)
    ensures forall t :: t in r <==> exists i :: 0 <= i < |Cambridge.TransSpans(root)|
                                                && !Cambridge.InExample(Cambridge.TransSpans(root)[i])
                                                && Cambridge.TextOf(Cambridge.TransSpans(root)[i]) == t && t != ""
  {
    var r := Cambridge.ExtractTranslations(root, None);
    assert forall l :: Cambridge.LangAccepted(l, None);
    r
  }

  /** A `trans` span outside examples with non-blank text: what `_extract_translations` keeps. */
  predicate Kept(l: Loc)
  {
    !Cambridge.InExample(l) && Cambridge.TextOf(l) != ""
  }

  /**
   * The translations are in document order: the earlier of two comes from
   * a kept span before every kept span carrying the later one, and the
   * first is the text of the first kept span.
   */
  lemma TranslationsInOrder(root: Loc)
    ensures var r, spans := ExtractTranslations(root), Cambridge.TransSpans(root);
            forall i, j :: 0 <= i < j < |r| ==>
              exists a :: 0 <= a < |spans| && Kept(spans[a]) && Cambridge.TextOf(spans[a]) == r[i]
                          && forall b :: 0 <= b < a && Kept(spans[b]) ==> Cambridge.TextOf(spans[b]) != r[j]
    ensures var r, spans := ExtractTranslations(root), Cambridge.TransSpans(root);
            r != [] ==> exists a :: 0 <= a < |spans| && Kept(spans[a]) && Cambridge.TextOf(spans[a]) == r[0]
                                    && forall b :: 0 <= b < a ==> !Kept(spans[b])
  {
    assert forall l :: Cambridge.Accepted(l, None) <==> Kept(l);
    assert ExtractTranslations(root) == Cambridge.ExtractTranslations(root, None);
    Cambridge.ExtractTranslationsOrder(root, None);
    Cambridge.FirstTranslation(root, None);
  }

  /** One example block's example: the `eg` sentence (no lead-in fallback) or the block's text, and its translation. */
  function ExampleOf(l: Loc): (r: Option<Example>)
    ensures r.Some? ==> Cambridge.WellFormed(r.value) && r.value.ru == Cambridge.ExampleText(l, "trans")
    ensures Cambridge.ExampleText(l, "eg").Some? ==> r.Some? && r.value.en == Cambridge.ExampleText(l, "eg").value
    ensures r.None? <==> Cambridge.ExampleText(l, "eg").None? && Cambridge.TextOf(l) == ""
  {
    var en := match Cambridge.ExampleText(l, "eg") case Some(s) => s case None => Cambridge.TextOf(l);
    NormalizeIdempotent(TextContent(l.node));
    if en == "" then None else Some(Example(en, Cambridge.ExampleText(l, "trans")))
  }

  function ExampleSeq(l: Loc): (r: seq<Example>)
    ensures |r| <= 1
  {
    Seqs.OptionToSeq(ExampleOf(l))
  }

  /** `_extract_examples`: one example per non-blank example block, in document order, repeats kept. */
  function ExtractExamples(root: Loc): (r: seq<Example>)
    ensures |r| <= |Cambridge.ExampBlocks(root)|
    ensures forall i :: 0 <= i < |r| ==> Cambridge.WellFormed(r[i])
  {
    var blocks := Cambridge.ExampBlocks(root);
    Seqs.FlatMapAll(blocks, ExampleSeq, Cambridge.WellFormed);
    Seqs.FlatMap(blocks, ExampleSeq)
  }

  /** Example blocks contribute in document order, each exactly its own example. */
  lemma ExamplesInOrder(a: seq<Loc>, b: seq<Loc>)
    ensures Seqs.FlatMap(a + b, ExampleSeq) == Seqs.FlatMap(a, ExampleSeq) + Seqs.FlatMap(b, ExampleSeq)
    ensures Seqs.FlatMap([], ExampleSeq) == []
  {
    Seqs.FlatMapAppend(a, b, ExampleSeq);
  }

  /** `parse_cambridge_page` after `parse_html`: every field read off the whole page. */
  function ParsePage(doc: Node): (r: PageData)
    ensures r.hasDiBody <==> exists i :: 0 <= i < |Descendants(Loc(doc, []))| && IsDiBody(Descendants(Loc(doc, []))[i])
    ensures r.hasEntry <==> exists i :: 0 <= i < |Descendants(Loc(doc, []))| && Cambridge.IsEntryBlock(Descendants(Loc(doc, []))[i])
    ensures Seqs.Distinct(r.translations)
    ensures forall i :: 0 <= i < |r.examples| ==> Cambridge.WellFormed(r.examples[i])
    ensures r.ipaUk == ExtractIpaUk(Loc(doc, [])) && r.audioUkUrl == ExtractAudioUk(Loc(doc, []))
    ensures r.translations == ExtractTranslations(Loc(doc, [])) && r.examples == ExtractExamples(Loc(doc, []))
  {
    var root := Loc(doc, []);
    MatchesIsFilter(root, IsDiBody);
    MatchesIsFilter(root, Cambridge.IsEntryBlock);
    Seqs.FilterHead(Descendants(root), IsDiBody);
    Seqs.FilterHead(Descendants(root), Cambridge.IsEntryBlock);
    PageData(FirstMatch(root, IsDiBody).Some?, Matches(root, Cambridge.IsEntryBlock) != [],
             ExtractIpaUk(root), ExtractAudioUk(root), ExtractTranslations(root), ExtractExamples(root))
  }

  // ---------------------------------------------------------------- lookup

  /**
   * The decision once both pages are parsed: found only with a Russian
   * dictionary body, entry and translation; then the first Russian
   * translation, English pronunciation and audio before Russian, Russian
   * examples before English, and a note for each field still missing.
   */
  function Decide(english: PageData, russian: PageData): (r: Result)
    ensures r.found <==> russian.hasDiBody && russian.hasEntry && russian.translations != []
    ensures !r.found ==> r == NotFound([])
    ensures r.found ==> r.translationRu == Some(russian.translations[0])
    ensures r.found ==> (MissingIpa in r.errors <==> r.ipaUk.None?)
    ensures r.found ==> (MissingAudio in r.errors <==> r.audioUkUrl.None?)
    ensures r.found ==> (MissingExamples in r.errors <==> r.examples == [])
    ensures r.found ==> |r.errors| <= 3
    ensures r.found ==> r.errors == Seqs.Filter([MissingIpa, MissingAudio, MissingExamples], e => e in r.errors)
    ensures r.found && Truthy(english.ipaUk) ==> r.ipaUk == english.ipaUk
    ensures r.found && !Truthy(english.ipaUk) ==> r.ipaUk == russian.ipaUk
    ensures r.found && Truthy(english.audioUkUrl) ==> r.audioUkUrl == english.audioUkUrl
    ensures r.found && !Truthy(english.audioUkUrl) ==> r.audioUkUrl == russian.audioUkUrl
    ensures r.found ==> r.examples == if russian.examples != [] then russian.examples else english.examples
  {
    var translationRu := if russian.translations != [] then Some(russian.translations[0]) else None;
    var ipa := OrElse(english.ipaUk, russian.ipaUk);
    var audio := OrElse(english.audioUkUrl, russian.audioUkUrl);
    var examples := if russian.examples != [] then russian.examples else english.examples;
    if !(russian.hasDiBody && russian.hasEntry && translationRu.Some?) then NotFound([])
    else
      var errors := (if ipa.None? then [MissingIpa] else [])
                    + (if audio.None? then [MissingAudio] else [])
                    + (if examples == [] then [MissingExamples] else []);
      MissingNotes(ipa.None?, audio.None?, examples == []);
      Result(true, translationRu, ipa, audio, examples, errors)
  }

  /**
   * The notes recorded for missing fields are exactly the missing ones,
   * each once, in the order IPA, audio, examples.
   */
  lemma MissingNotes(ipa: bool, audio: bool, examples: bool)
    ensures var errors := (if ipa then [MissingIpa] else []) + (if audio then [MissingAudio] else [])
                          + (if examples then [MissingExamples] else []);
            errors == Seqs.Filter([MissingIpa, MissingAudio, MissingExamples], e => e in errors)
  {
    var errors := (if ipa then [MissingIpa] else []) + (if audio then [MissingAudio] else [])
                  + (if examples then [MissingExamples] else []);
    var p := e => e in errors;
    var notes := [MissingIpa, MissingAudio, MissingExamples];
    assert MissingIpa[21] != MissingAudio[21] && MissingIpa[21] != MissingExamples[21];
    assert MissingAudio[21] != MissingExamples[21];
    assert p(MissingIpa) == ipa && p(MissingAudio) == audio && p(MissingExamples) == examples;
    assert notes[1..] == [MissingAudio, MissingExamples] && notes[1..][1..] == [MissingExamples];
    calc {
      Seqs.Filter(notes, p);
      (if ipa then [MissingIpa] else []) + Seqs.Filter([MissingAudio, MissingExamples], p);
      (if ipa then [MissingIpa] else []) + ((if audio then [MissingAudio] else []) + Seqs.Filter([MissingExamples], p));
      { assert [MissingExamples][1..] == []; }
      (if ipa then [MissingIpa] else []) + ((if audio then [MissingAudio] else []) + (if examples then [MissingExamples] else []));
    }
  }

  /** A page fetcher, as for the newer variant. */
  type Fetcher = Cambridge.Fetcher

  /**
   * `translate_cambridge`: the English page, then the Russian one. A failed
   * request ends the lookup with its message (the Russian page is not
   * requested after the English one failed); a page that does not parse
   * ends it with the parse-failure note.
   */
  function Translate(text: string, fetch: Fetcher): (r: Traced<Result>)
    ensures var urls := BuildUrls(text);
            fetch(urls.english).None? ==> r == Traced(NotFound([FetchErrorMessage(urls.english)]), [urls.english])
    ensures var urls := BuildUrls(text);
            fetch(urls.english).Some? ==> r.requested == [urls.english, urls.englishRussian]
    ensures var urls := BuildUrls(text);
            fetch(urls.english).Some? && fetch(urls.englishRussian).None? ==>
              r.result == NotFound([FetchErrorMessage(urls.englishRussian)])
    ensures var urls := BuildUrls(text);
            fetch(urls.english).Some? && fetch(urls.englishRussian).Some?
            && (fetch(urls.english).value.Malformed? || fetch(urls.englishRussian).value.Malformed?) ==>
              r.result == NotFound([ParseFailed])
    ensures !r.result.found ==> r.result.translationRu.None? && r.result.ipaUk.None? && r.result.audioUkUrl.None?
                                && r.result.examples == [] && |r.result.errors| <= 1
    ensures r.result.found ==> exists e, ru :: r.requested == [BuildUrls(text).english, BuildUrls(text).englishRussian]
                                             && fetch(BuildUrls(text).english) == Some(Parsed(e))
                                             && fetch(BuildUrls(text).englishRussian) == Some(Parsed(ru))
                                             && r.result == Decide(ParsePage(HtmlBuilder.ParseEvents(e)),
                                                                   ParsePage(HtmlBuilder.ParseEvents(ru)))
  {
    var urls := BuildUrls(text);
    match fetch(urls.english)
    case None => Traced(NotFound([FetchErrorMessage(urls.english)]), [urls.english])
    case Some(english) =>
      var requested := [urls.english, urls.englishRussian];
      match fetch(urls.englishRussian)
      case None => Traced(NotFound([FetchErrorMessage(urls.englishRussian)]), requested)
      case Some(russian) =>
        if english.Malformed? || russian.Malformed? then Traced(NotFound([ParseFailed]), requested)
        else
          var r := Traced(Decide(ParsePage(HtmlBuilder.ParseEvents(english.value)),
                                 ParsePage(HtmlBuilder.ParseEvents(russian.value))), requested);
          assert fetch(urls.english) == Some(Parsed(english.value));
          assert fetch(urls.englishRussian) == Some(Parsed(russian.value));
          r
  }
}

=== FILE: legacy_dictionary_api.dfy ===
/**
 * The older Free Dictionary API adapter
 * (translator/providers/dictionary_api.py). Its URL and its walk over the
 * answer are the same code as the newer adapter's, except that
 * `_coerce_dict` rejects a mapping holding any non-string key.
 */
module LegacyDictionaryApi {
  import opened Wrappers
  import opened Json
  import Seqs
  import opened Fetch
  import DictionaryApi

  /** `_parse_dictionary_api_payload` after `json.loads`: only string-keyed objects are walked. */
  function Parse(j: Json): (r: DictionaryApi.DictionaryResult)
    ensures !j.Arr? ==> r == DictionaryApi.NoResult
    ensures j.Arr? ==> r.ipaUk == DictionaryApi.SelectPhonetics(
                                   DictionaryApi.EntryPhonetics(CoerceDictList(Some(j), StringKeysOnly), StringKeysOnly))
    ensures Seqs.Distinct(r.examples)
    ensures forall k :: 0 <= k < |r.examples| ==> r.examples[k].ru.None?
  {
    DictionaryApi.ParseWith(j, StringKeysOnly)
  }

  /** A list of decoded values. */
  predicate AllDecoded(items: seq<Json>)
  {
    forall i :: 0 <= i < |items| ==> Decoded(items[i])
  }

  /** Dicts taken from decoded JSON. */
  predicate DecodedMaps(ms: seq<map<Key, Json>>)
  {
    forall i :: 0 <= i < |ms| ==> Decoded(Obj(ms[i]))
  }

  /** On a decoded value both key checks keep the same dicts, and those dicts are decoded. */
  lemma CoerceListDecoded(v: Option<Json>)
    requires v.Some? ==> Decoded(v.value)
    ensures CoerceDictList(v, StringKeysOnly) == CoerceDictList(v, AnyKeys)
    ensures DecodedMaps(CoerceDictList(v, AnyKeys))
  {
    if v.Some? && v.value.Arr? {
      var items := v.value.items;
      assert AllDecoded(items);
      DictItemsDecoded(items);
      var ms := DictItems(items, AnyKeys);
      forall i | 0 <= i < |ms| ensures Decoded(Obj(ms[i])) {
        var j :| 0 <= j < |items| && items[j] == Obj(ms[i]);
      }
    }
  }

  lemma FieldDecoded(m: map<Key, Json>, name: string)
    requires Decoded(Obj(m))
    ensures Get(m, name).Some? ==> Decoded(Get(m, name).value)
  {
  }

  lemma {:induction false} MeaningsAgree(ms: seq<map<Key, Json>>)
    requires DecodedMaps(ms)
    ensures DictionaryApi.MeaningTexts(ms, StringKeysOnly) == DictionaryApi.MeaningTexts(ms, AnyKeys)
  {
    if ms != [] {
      FieldDecoded(ms[0], "definitions");
      CoerceListDecoded(Get(ms[0], "definitions"));
      MeaningsAgree(ms[1..]);
    }
  }

  lemma {:induction false} EntriesAgree(es: seq<map<Key, Json>>)
    requires DecodedMaps(es)
    ensures DictionaryApi.EntryTexts(es, StringKeysOnly) == DictionaryApi.EntryTexts(es, AnyKeys)
    ensures DictionaryApi.EntryPhonetics(es, StringKeysOnly) == DictionaryApi.EntryPhonetics(es, AnyKeys)
  {
    if es != [] {
      FieldDecoded(es[0], "meanings");
      CoerceListDecoded(Get(es[0], "meanings"));
      MeaningsAgree(CoerceDictList(Get(es[0], "meanings"), AnyKeys));
      FieldDecoded(es[0], "phonetics");
      CoerceListDecoded(Get(es[0], "phonetics"));
      EntriesAgree(es[1..]);
    }
  }

  /**
   * On anything `json.loads` can return the two adapters agree: the string
   * key check never fires on decoded JSON.
   */
  lemma AgreesOnDecoded(j: Json)
    requires Decoded(j)
    ensures Parse(j) == DictionaryApi.Parse(j)
  {
    CoerceListDecoded(Some(j));
    EntriesAgree(CoerceDictList(Some(j), AnyKeys));
  }

  /** A top-level list whose entries all hold a non-string key yields nothing here. */
  lemma NonStringKeyedEntriesIgnored(items: seq<Json>)
    requires forall i :: 0 <= i < |items| ==> items[i].Obj? && !StringKeys(items[i].fields)
    ensures Parse(Arr(items)) == DictionaryApi.NoResult
  {
    NoStrictDicts(items);
  }

  lemma {:induction false} NoStrictDicts(items: seq<Json>)
    requires forall i :: 0 <= i < |items| ==> items[i].Obj? && !StringKeys(items[i].fields)
    ensures DictItems(items, StringKeysOnly) == []
  {
    if items != [] {
      NoStrictDicts(items[1..]);
    }
  }

  /** `translate_dictionary_api`: empty text makes no request; every failure gives `(None, [])`. */
  function Translate(text: string, fetch: string -> Option<Payload<Json>>): (r: Traced<DictionaryApi.DictionaryResult>)
    ensures text == "" ==> r.requested == [] && r.result == DictionaryApi.NoResult
    ensures text != "" ==> r.requested == [DictionaryApi.BuildUrl(text)]
    ensures Seqs.Distinct(r.result.examples)
    ensures r.result != DictionaryApi.NoResult ==>
              exists j: Json :: fetch(DictionaryApi.BuildUrl(text)) == Some(Parsed(j)) && j.Arr? && r.result == Parse(j)
    ensures text != "" && fetch(DictionaryApi.BuildUrl(text)).Some? && fetch(DictionaryApi.BuildUrl(text)).value.Parsed? ==>
              r.result == Parse(fetch(DictionaryApi.BuildUrl(text)).value.value)
    ensures !(fetch(DictionaryApi.BuildUrl(text)).Some? && fetch(DictionaryApi.BuildUrl(text)).value.Parsed?) ==> r.result == DictionaryApi.NoResult
  {
    var r := Guarded(text, DictionaryApi.BuildUrl(text), fetch, Parse, DictionaryApi.NoResult);
    if r.result != DictionaryApi.NoResult then
      var j := fetch(DictionaryApi.BuildUrl(text)).value.value;
      assert j.Arr?;
      r
    else r
  }
}

=== FILE: legacy_google.dfy ===
/**
 * The older Google Translate adapter (translator/providers/google.py). Its
 * URL builder and its dict-term and sentence extractors are the same code as
 * the newer adapter's and are shared; it differs in gathering no
 * alternative translations.
 */
module LegacyGoogle {
  import opened Wrappers
  import opened Json
  import Translation
  import Google
  import opened Fetch

  /** `_parse_google_response` after `json.loads`: dict terms, then sentences, cleaned. */
  function ParseResponse(j: Json): (r: seq<string>)
    ensures !j.Obj? ==> r == []
    ensures Translation.IsClean(r)
    ensures j.Obj? ==> Translation.Clean(Google.DictTerms(j.fields)) <= r
  {
    match CoerceDict(Some(j), AnyKeys)
    case None => []
    case Some(raw) =>
      Translation.CleanExtends(Google.DictTerms(raw), Google.Sentences(raw));
      Translation.Clean(Google.DictTerms(raw) + Google.Sentences(raw))
  }

  /** The parsed list is the first of every casefold class among the dict terms and then the sentences, in that order. */
  lemma ParseOrder(raw: map<Key, Json>)
    ensures ParseResponse(Obj(raw)) == Translation.FirstOfClass(Google.DictTerms(raw) + Google.Sentences(raw))
  {
    assert ParseResponse(Obj(raw)) == Translation.Clean(Google.DictTerms(raw) + Google.Sentences(raw));
    Translation.CleanIsFirstOfClass(Google.DictTerms(raw) + Google.Sentences(raw));
  }

  /**
   * The two variants agree on every answer without alternative translations,
   * and always agree on the cleaned dict terms they start with.
   */
  lemma AgreesWithoutAlternatives(j: Json)
    ensures j.Obj? && Google.Alternatives(j.fields) == [] ==> ParseResponse(j) == Google.ParseResponse(j)
    ensures j.Obj? ==> var d := Translation.Clean(Google.DictTerms(j.fields));
                       d <= ParseResponse(j) && d <= Google.ParseResponse(j)
    ensures !j.Obj? ==> ParseResponse(j) == Google.ParseResponse(j) == []
  {
    if j.Obj? && Google.Alternatives(j.fields) == [] {
      var raw := j.fields;
      assert Google.Candidates(raw) == Google.DictTerms(raw) + Google.Sentences(raw);
    }
  }

  /** `translate_google`: empty text makes no request; every failure gives []. */
  function Translate(text: string, sl: string, tl: string, fetch: string -> Option<Payload<Json>>): (r: Traced<seq<string>>)
    ensures text == "" ==> r.requested == [] && r.result == []
    ensures text != "" ==> r.requested == [Google.BuildUrl(text, sl, tl)]
    ensures Translation.IsClean(r.result)
    ensures r.result != [] ==> exists raw :: fetch(Google.BuildUrl(text, sl, tl)) == Some(Parsed(Obj(raw)))
                                             && r.result == ParseResponse(Obj(raw))
    ensures text != "" && fetch(Google.BuildUrl(text, sl, tl)).Some? && fetch(Google.BuildUrl(text, sl, tl)).value.Parsed? ==>
              r.result == ParseResponse(fetch(Google.BuildUrl(text, sl, tl)).value.value)
    ensures !(fetch(Google.BuildUrl(text, sl, tl)).Some? && fetch(Google.BuildUrl(text, sl, tl)).value.Parsed?) ==> r.result == []
  {
    var url := Google.BuildUrl(text, sl, tl);
    var r := Guarded(text, url, fetch, ParseResponse, []);
    assert r.result != [] ==> fetch(url) == Some(Parsed(Obj(fetch(url).value.value.fields)));
    r
  }
}

=== FILE: legacy_tatoeba.dfy ===
/**
 * The older Tatoeba adapter (translator/providers/tatoeba.py). Its URL is
 * built by the same code as the newer adapter's; its walk over the answer is
 * the same except that `_coerce_dict` rejects a mapping holding any
 * non-string key.
 */
module LegacyTatoeba {
  import opened Wrappers
  import opened Json
  import Seqs
  import opened Models
  import opened Fetch
  import Tatoeba

  /** `_parse_tatoeba_payload` after `json.loads`: items and translations must be string-keyed objects. */
  function Parse(j: Json): (r: seq<Example>)
    ensures !j.Obj? ==> r == []
    ensures Seqs.Distinct(r)
    ensures forall k :: 0 <= k < |r| ==> Tatoeba.WellFormed(r[k])
  {
    Tatoeba.ParseWith(j, StringKeysOnly)
  }

  /** An item holding a non-string key yields nothing here, whatever it holds. */
  lemma NonStringKeysRejected(item: Json)
    requires item.Obj? && !StringKeys(item.fields)
    ensures Tatoeba.ItemExamples(item, StringKeysOnly) == []
  {
  }

  lemma {:induction false} ItemsAgreeOnDecoded(items: seq<Json>)
    requires forall i :: 0 <= i < |items| ==> Decoded(items[i])
    ensures Tatoeba.Candidates(items, StringKeysOnly) == Tatoeba.Candidates(items, AnyKeys)
  {
    if items != [] {
      ItemAgreesOnDecoded(items[0]);
      ItemsAgreeOnDecoded(items[1..]);
    }
  }

  lemma ItemAgreesOnDecoded(item: Json)
    requires Decoded(item)
    ensures Tatoeba.ItemExamples(item, StringKeysOnly) == Tatoeba.ItemExamples(item, AnyKeys)
  {
    CoerceDictDecoded(item);
    if item.Obj? && StrKey("translations") in item.fields {
      var t := item.fields[StrKey("translations")];
      if t.Arr? {
        DictItemsDecoded(t.items);
      }
    }
  }

  /**
   * On anything `json.loads` can return the two adapters agree: the string
   * key check never fires on decoded JSON.
   */
  lemma AgreesOnDecoded(j: Json)
    requires Decoded(j)
    ensures Parse(j) == Tatoeba.Parse(j)
  {
    if j.Obj? && StrKey("data") in j.fields && j.fields[StrKey("data")].Arr? {
      ItemsAgreeOnDecoded(j.fields[StrKey("data")].items);
    }
  }

  /** `translate_tatoeba`: empty text makes no request; every failure gives []. */
  function Translate(text: string, fetch: string -> Option<Payload<Json>>): (r: Traced<seq<Example>>)
    ensures text == "" ==> r.requested == [] && r.result == []
    ensures text != "" ==> r.requested == [Tatoeba.BuildUrl(text)]
    ensures Seqs.Distinct(r.result)
    ensures forall k :: 0 <= k < |r.result| ==> Tatoeba.WellFormed(r.result[k])
    ensures r.result != [] ==> exists j :: fetch(Tatoeba.BuildUrl(text)) == Some(Parsed(j)) && r.result == Parse(j)
    ensures text != "" && fetch(Tatoeba.BuildUrl(text)).Some? && fetch(Tatoeba.BuildUrl(text)).value.Parsed? ==>
              r.result == Parse(fetch(Tatoeba.BuildUrl(text)).value.value)
    ensures !(fetch(Tatoeba.BuildUrl(text)).Some? && fetch(Tatoeba.BuildUrl(text)).value.Parsed?) ==> r.result == []
  {
    Guarded(text, Tatoeba.BuildUrl(text), fetch, Parse, [])
  }
}

=== FILE: models.dfy ===
/** The records the adapters share (translator/models.py). */
module Models {
  import opened Wrappers

  /** A usage example: an English sentence and, when one is known, its Russian translation. */
  datatype Example = Example(en: string, ru: Option<string>)
}

=== FILE: query.dfy ===
/**
 * Query strings of the adapters' request URLs: `name=value` fields joined
 * with `&`, as section 3.4 of RFC 3986 leaves to the application.
 */
module Query {
  import Url
  import Text

  /** `"&".join(fields)`. */
  function Query(fields: seq<string>): string
  {
    Text.JoinWith("&", fields)
  }

  /** `name=value`. */
  function Field(name: string, value: string): string
  {
    name + "=" + value
  }

  /** A query splits back on `&` into its fields when no field holds `&`. */
  lemma QuerySplitsBack(fields: seq<string>)
    requires |fields| > 0
    requires forall i :: 0 <= i < |fields| ==> Text.Lacks(fields[i], '&')
    ensures Text.SplitOn(Query(fields), "&") == fields
  {
    Text.SplitOnJoinWith(fields, "&");
  }

  /** Percent-encoded text never holds `&`, so an encoded value cannot split a field. */
  lemma EncodedLacksAmpersand(s: string)
    ensures Text.Lacks(Url.QuotePlus(s), '&')
    ensures Text.Lacks(Url.Quote(s), '&')
  {
    Url.QuotePlusIsUrlText(s);
    Url.QuoteIsUrlText(s);
  }

  lemma FieldLacks(name: string, value: string)
    requires Text.Lacks(name, '&') && Text.Lacks(value, '&')
    ensures Text.Lacks(Field(name, value), '&')
  {
  }

  /** `str(n)` for a natural number: its decimal digits, most significant first. */
  function Decimal(n: nat): (r: string)
    ensures |r| >= 1
    ensures forall i :: 0 <= i < |r| ==> '0' <= r[i] <= '9'
  {
    if n < 10 then [(48 + n) as char] else Decimal(n / 10) + [(48 + n % 10) as char]
  }

  lemma DecimalLacks(n: nat)
    ensures Text.Lacks(Decimal(n), '&')
  {
  }
}

=== FILE: ranking.dfy ===
/**
 * Stable sorting by a descending integer key, as Python's `list.sort` with
 * the key `(-score, index)` performs it.
 */
module Ranking {
  import Seqs

  /** Keys never increase along the list. */
  predicate Descending<T>(xs: seq<T>, key: T -> int)
  {
    forall i, j :: 0 <= i < j < |xs| ==> key(xs[i]) >= key(xs[j])
  }

  /** `x` placed after every element with a strictly greater key, before the rest. */
  function Insert<T>(x: T, ys: seq<T>, key: T -> int): (r: seq<T>)
    ensures multiset(r) == multiset(ys) + multiset{x}
  {
    if ys == [] || key(x) >= key(ys[0]) then [x] + ys
    else
      assert ys == [ys[0]] + ys[1..];
      [ys[0]] + Insert(x, ys[1..], key)
  }

  lemma {:induction false} InsertDescending<T>(x: T, ys: seq<T>, key: T -> int)
    requires Descending(ys, key)
    ensures Descending(Insert(x, ys, key), key)
  {
    if !(ys == [] || key(x) >= key(ys[0])) {
      var rest := Insert(x, ys[1..], key);
      InsertDescending(x, ys[1..], key);
      var r := [ys[0]] + rest;
      assert Insert(x, ys, key) == r;
      forall j | 0 < j < |r| ensures key(r[0]) >= key(r[j]) {
        assert r[j] == rest[j - 1];
        assert r[j] in multiset(ys[1..]) + multiset{x};
        if r[j] != x {
          assert r[j] in ys[1..];
          var m :| 0 <= m < |ys[1..]| && ys[1..][m] == r[j];
          assert ys[m + 1] == r[j];
        }
      }
      forall i, j | 0 < i < j < |r| ensures key(r[i]) >= key(r[j]) {
        assert r[i] == rest[i - 1] && r[j] == rest[j - 1];
      }
    }
  }

  /** Insertion sort: each element goes in front of the sorted rest, after the elements that outrank it. */
  function SortDescending<T>(xs: seq<T>, key: T -> int): (r: seq<T>)
    ensures multiset(r) == multiset(xs)
    ensures |r| == |xs|
    ensures Descending(r, key)
  {
    if xs == [] then []
    else
      var rest := SortDescending(xs[1..], key);
      assert xs == [xs[0]] + xs[1..];
      InsertDescending(xs[0], rest, key);
      Insert(xs[0], rest, key)
  }

  /** Reordering a list without repeats leaves it without repeats. */
  lemma PermutationDistinct<T>(xs: seq<T>, ys: seq<T>)
    requires multiset(xs) == multiset(ys)
    requires Seqs.Distinct(xs)
    ensures Seqs.Distinct(ys)
  {
    DistinctMultiplicity(xs);
    DistinctMultiplicity(ys);
  }

  /** A list is free of repeats exactly when no element occurs twice in its multiset. */
  lemma DistinctMultiplicity<T>(xs: seq<T>)
    ensures Seqs.Distinct(xs) <==> forall x :: multiset(xs)[x] <= 1
  {
    if Seqs.Distinct(xs) {
      DistinctCounts(xs);
    } else {
      var i, j :| 0 <= i < j < |xs| && xs[i] == xs[j];
      TwiceCounted(xs, i, j);
    }
  }

  lemma {:induction false} DistinctCounts<T>(xs: seq<T>)
    requires Seqs.Distinct(xs)
    ensures forall x :: multiset(xs)[x] <= 1
  {
    if xs != [] {
      assert xs == [xs[0]] + xs[1..];
      assert Seqs.Distinct(xs[1..]);
      DistinctCounts(xs[1..]);
      assert xs[0] !in xs[1..];
    }
  }

  lemma TwiceCounted<T>(xs: seq<T>, i: nat, j: nat)
    requires i < j < |xs| && xs[i] == xs[j]
    ensures multiset(xs)[xs[i]] >= 2
  {
    assert xs == xs[..i] + [xs[i]] + xs[i + 1..j] + [xs[j]] + xs[j + 1..];
  }

  /** The elements with key `k`, in order. */
  function WithKey<T>(xs: seq<T>, key: T -> int, k: int): seq<T>
  {
    if xs == [] then [] else (if key(xs[0]) == k then [xs[0]] else []) + WithKey(xs[1..], key, k)
  }

  lemma WithKeyCons<T>(a: T, s: seq<T>, key: T -> int, k: int)
    ensures WithKey([a] + s, key, k) == (if key(a) == k then [a] else []) + WithKey(s, key, k)
  {
    assert ([a] + s)[1..] == s;
  }

  lemma {:induction false} InsertStable<T>(x: T, ys: seq<T>, key: T -> int, k: int)
    ensures WithKey(Insert(x, ys, key), key, k) == WithKey([x] + ys, key, k)
  {
    if !(ys == [] || key(x) >= key(ys[0])) {
      var rest := Insert(x, ys[1..], key);
      var h0 := if key(ys[0]) == k then [ys[0]] else [];
      var hx := if key(x) == k then [x] else [];
      assert h0 == [] || hx == [];
      assert ys == [ys[0]] + ys[1..];
      calc {
        WithKey(Insert(x, ys, key), key, k);
        WithKey([ys[0]] + rest, key, k);
        { WithKeyCons(ys[0], rest, key, k); }
        h0 + WithKey(rest, key, k);
        { InsertStable(x, ys[1..], key, k); }
        h0 + WithKey([x] + ys[1..], key, k);
        { WithKeyCons(x, ys[1..], key, k); }
        h0 + (hx + WithKey(ys[1..], key, k));
        hx + (h0 + WithKey(ys[1..], key, k));
        { WithKeyCons(ys[0], ys[1..], key, k); }
        hx + WithKey(ys, key, k);
        { WithKeyCons(x, ys, key, k); }
        WithKey([x] + ys, key, k);
      }
    }
  }

  /** Elements with equal keys keep their input order: the sort is stable. */
  lemma {:induction false} SortStable<T>(xs: seq<T>, key: T -> int, k: int)
    ensures WithKey(SortDescending(xs, key), key, k) == WithKey(xs, key, k)
  {
    if xs != [] {
      var rest := SortDescending(xs[1..], key);
      SortStable(xs[1..], key, k);
      InsertStable(xs[0], rest, key, k);
      assert ([xs[0]] + rest)[1..] == rest;
    }
  }
}

=== FILE: seqs.dfy ===
/** Sequence helpers shared by the model: order-preserving filtering and Python's prefix slice. */
module Seqs {
  import opened Wrappers

  /** The elements of `xs` satisfying `p`, in their original order (a list comprehension with a guard). */
  function Filter<T>(xs: seq<T>, p: T -> bool): (r: seq<T>)
    ensures |r| <= |xs|
    ensures forall i :: 0 <= i < |r| ==> p(r[i])
    ensures forall i :: 0 <= i < |r| ==> r[i] in xs
    ensures forall i :: 0 <= i < |xs| && p(xs[i]) ==> xs[i] in r
  {
    if xs == [] then [] else (if p(xs[0]) then [xs[0]] else []) + Filter(xs[1..], p)
  }

  lemma {:induction false} FilterAppend<T>(xs: seq<T>, ys: seq<T>, p: T -> bool)
    ensures Filter(xs + ys, p) == Filter(xs, p) + Filter(ys, p)
  {
    if xs == [] {
      assert xs + ys == ys;
    } else {
      assert (xs + ys)[1..] == xs[1..] + ys;
      FilterAppend(xs[1..], ys, p);
    }
  }

  lemma FilterSnoc<T>(xs: seq<T>, y: T, p: T -> bool)
    ensures Filter(xs + [y], p) == Filter(xs, p) + (if p(y) then [y] else [])
  {
    FilterAppend(xs, [y], p);
    assert [y][1..] == [];
  }

  /** `xs[:n]` in Python: a negative `n` counts from the end, and the result never exceeds `xs`. */
  function PyPrefix<T>(xs: seq<T>, n: int): (r: seq<T>)
    ensures r <= xs
    ensures n >= 0 ==> |r| == (if n < |xs| then n else |xs|)
    ensures n < 0 ==> |r| == (if |xs| + n > 0 then |xs| + n else 0)
  {
    if n >= 0 then (if n < |xs| then xs[..n] else xs)
    else (if |xs| + n > 0 then xs[..|xs| + n] else [])
  }

  /** The first element satisfying `p`, if any. */
  function FindFirst<T>(xs: seq<T>, p: T -> bool): (r: Option<T>)
    ensures r.None? <==> forall i :: 0 <= i < |xs| ==> !p(xs[i])
    ensures r.Some? ==> exists i :: 0 <= i < |xs| && xs[i] == r.value && p(xs[i])
                                    && forall j :: 0 <= j < i ==> !p(xs[j])
  {
    if xs == [] then None
    else if p(xs[0]) then Some(xs[0])
    else
      var r := FindFirst(xs[1..], p);
      assert forall i :: 0 < i < |xs| ==> xs[i] == xs[1..][i - 1];
      if r.Some? then
        assert exists i :: 0 <= i < |xs| && xs[i] == r.value && p(xs[i]) && forall j :: 0 <= j < i ==> !p(xs[j]) by {
          var k :| 0 <= k < |xs[1..]| && xs[1..][k] == r.value && p(xs[1..][k])
                   && forall j :: 0 <= j < k ==> !p(xs[1..][j]);
          assert xs[k + 1] == r.value;
          forall j | 0 <= j < k + 1 ensures !p(xs[j]) {
            if j > 0 { assert xs[j] == xs[1..][j - 1]; }
          }
        }
        r
      else r
  }

  /** The head of a filter is the first element satisfying the guard. */
  lemma {:induction false} FilterHead<T>(xs: seq<T>, p: T -> bool)
    ensures Filter(xs, p) == [] <==> FindFirst(xs, p).None?
    ensures Filter(xs, p) != [] ==> Filter(xs, p)[0] == FindFirst(xs, p).value
  {
    if xs != [] {
      FilterHead(xs[1..], p);
    }
  }

  /** Filtering with a guard every element meets changes nothing. */
  lemma {:induction false} FilterAll<T>(xs: seq<T>, p: T -> bool)
    requires forall i :: 0 <= i < |xs| ==> p(xs[i])
    ensures Filter(xs, p) == xs
  {
    if xs != [] {
      FilterAll(xs[1..], p);
    }
  }

  /** The nested loop `for x in xs: out.extend(f(x))`: every element's contribution, in order. */
  function FlatMap<T, U>(xs: seq<T>, f: T -> seq<U>): (r: seq<U>)
    ensures (forall i :: 0 <= i < |xs| ==> |f(xs[i])| <= 1) ==> |r| <= |xs|
  {
    if xs == [] then []
    else
      assert forall i :: 0 < i < |xs| ==> xs[i] == xs[1..][i - 1];
      f(xs[0]) + FlatMap(xs[1..], f)
  }

  /** Exactly the elements of the contributions appear in the result. */
  lemma {:induction false} FlatMapMembers<T, U>(xs: seq<T>, f: T -> seq<U>)
    ensures forall i, j :: 0 <= i < |xs| && 0 <= j < |f(xs[i])| ==> f(xs[i])[j] in FlatMap(xs, f)
    ensures forall k :: 0 <= k < |FlatMap(xs, f)| ==> exists i :: 0 <= i < |xs| && FlatMap(xs, f)[k] in f(xs[i])
  {
    if xs != [] {
      var r := FlatMap(xs, f);
      var rest := FlatMap(xs[1..], f);
      FlatMapMembers(xs[1..], f);
      assert r == f(xs[0]) + rest;
      forall i, j | 0 <= i < |xs| && 0 <= j < |f(xs[i])| ensures f(xs[i])[j] in r {
        if i > 0 {
          assert xs[i] == xs[1..][i - 1];
        }
      }
      forall k | 0 <= k < |FlatMap(xs, f)| ensures exists i :: 0 <= i < |xs| && FlatMap(xs, f)[k] in f(xs[i]) {
        if k < |f(xs[0])| {
          assert r[k] == f(xs[0])[k];
          assert r[k] in f(xs[0]);
        } else {
          assert r[k] == rest[k - |f(xs[0])|];
          var i :| 0 <= i < |xs[1..]| && rest[k - |f(xs[0])|] in f(xs[1..][i]);
          assert xs[1..][i] == xs[i + 1];
          assert r[k] in f(xs[i + 1]);
        }
      }
    } else {
      assert FlatMap(xs, f) == [];
    }
  }

  /** Nothing comes out exactly when no element contributes anything. */
  lemma {:induction false} FlatMapEmpty<T, U>(xs: seq<T>, f: T -> seq<U>)
    ensures FlatMap(xs, f) == [] <==> forall i :: 0 <= i < |xs| ==> f(xs[i]) == []
  {
    if xs != [] {
      FlatMapEmpty(xs[1..], f);
      assert forall i :: 0 < i < |xs| ==> xs[i] == xs[1..][i - 1];
    }
  }

  /** A property every contribution's elements have, the result's elements have. */
  lemma {:induction false} FlatMapAll<T, U>(xs: seq<T>, f: T -> seq<U>, p: U -> bool)
    requires forall i :: 0 <= i < |xs| ==> forall j :: 0 <= j < |f(xs[i])| ==> p(f(xs[i])[j])
    ensures forall k :: 0 <= k < |FlatMap(xs, f)| ==> p(FlatMap(xs, f)[k])
  {
    if xs != [] {
      assert forall i :: 0 < i < |xs| ==> xs[i] == xs[1..][i - 1];
      FlatMapAll(xs[1..], f, p);
      var r := FlatMap(xs, f);
      var h := f(xs[0]);
      forall k | 0 <= k < |r| ensures p(r[k]) {
        if k >= |h| {
          assert r[k] == FlatMap(xs[1..], f)[k - |h|];
        }
      }
    }
  }

  lemma {:induction false} FlatMapAppend<T, U>(xs: seq<T>, ys: seq<T>, f: T -> seq<U>)
    ensures FlatMap(xs + ys, f) == FlatMap(xs, f) + FlatMap(ys, f)
  {
    if xs == [] {
      assert xs + ys == ys;
    } else {
      calc {
        FlatMap(xs + ys, f);
        { assert (xs + ys)[0] == xs[0]; assert (xs + ys)[1..] == xs[1..] + ys; }
        f(xs[0]) + FlatMap(xs[1..] + ys, f);
        { FlatMapAppend(xs[1..], ys, f); }
        f(xs[0]) + (FlatMap(xs[1..], f) + FlatMap(ys, f));
      }
    }
  }

  /** An element contributing nothing can be dropped: the loop skips it and carries on. */
  lemma FlatMapSkips<T, U>(xs: seq<T>, x: T, ys: seq<T>, f: T -> seq<U>)
    requires f(x) == []
    ensures FlatMap(xs + [x] + ys, f) == FlatMap(xs, f) + FlatMap(ys, f)
  {
    assert [x][1..] == [];
    assert FlatMap([x], f) == [];
    calc {
      FlatMap(xs + [x] + ys, f);
      { FlatMapAppend(xs + [x], ys, f); }
      FlatMap(xs + [x], f) + FlatMap(ys, f);
      { FlatMapAppend(xs, [x], f); }
      FlatMap(xs, f) + FlatMap([x], f) + FlatMap(ys, f);
      FlatMap(xs, f) + FlatMap(ys, f);
    }
  }

  /** A property both halves' elements have, their concatenation's elements have. */
  lemma AllAppend<T>(a: seq<T>, b: seq<T>, p: T -> bool)
    requires forall i :: 0 <= i < |a| ==> p(a[i])
    requires forall i :: 0 <= i < |b| ==> p(b[i])
    ensures forall i :: 0 <= i < |a + b| ==> p((a + b)[i])
  {
    forall i | 0 <= i < |a + b| ensures p((a + b)[i]) {
      if i >= |a| { assert (a + b)[i] == b[i - |a|]; }
    }
  }

  /** An optional value as a list of at most one element. */
  function OptionToSeq<T>(o: Option<T>): (r: seq<T>)
    ensures |r| <= 1
    ensures o.None? <==> r == []
    ensures o.Some? ==> r == [o.value]
  {
    if o.Some? then [o.value] else []
  }

  /** `reversed(xs)`. */
  function Reverse<T>(xs: seq<T>): (r: seq<T>)
    ensures |r| == |xs|
    ensures forall i :: 0 <= i < |xs| ==> r[i] == xs[|xs| - 1 - i]
  {
    if xs == [] then [] else Reverse(xs[1..]) + [xs[0]]
  }

  lemma ReverseAppend<T>(xs: seq<T>, ys: seq<T>)
    ensures Reverse(xs + ys) == Reverse(ys) + Reverse(xs)
  {
  }

  lemma ReverseReverse<T>(xs: seq<T>)
    ensures Reverse(Reverse(xs)) == xs
  {
  }

  /** No element occurs twice. */
  predicate Distinct<T(==)>(xs: seq<T>)
  {
    forall i, j :: 0 <= i < j < |xs| ==> xs[i] != xs[j]
  }

  /**
   * The loop `if x not in seen: out.append(x); seen.add(x)`: the first
   * occurrence of every element, in input order.
   */
  function Dedup<T(==)>(xs: seq<T>): (r: seq<T>)
    ensures |r| <= |xs|
    ensures Distinct(r)
    ensures forall i :: 0 <= i < |xs| ==> xs[i] in r
    ensures forall i :: 0 <= i < |r| ==> r[i] in xs
  {
    if xs == [] then []
    else
      var prev := Dedup(xs[..|xs| - 1]);
      var x := xs[|xs| - 1];
      assert xs == xs[..|xs| - 1] + [x];
      if x in prev then prev else prev + [x]
  }

  /** Deduplicating keeps exactly the members. */
  lemma DedupMembers<T>(xs: seq<T>)
    ensures forall x :: x in Dedup(xs) <==> x in xs
  {
    var r := Dedup(xs);
    forall x ensures x in r <==> x in xs {
      if x in r {
        var i :| 0 <= i < |r| && r[i] == x;
      }
      if x in xs {
        var i :| 0 <= i < |xs| && xs[i] == x;
      }
    }
  }

  /** Items seen later never displace earlier ones: deduplicating a prefix gives a prefix. */
  lemma {:induction false} DedupPrefix<T>(xs: seq<T>, ys: seq<T>)
    ensures Dedup(xs) <= Dedup(xs + ys)
    decreases |ys|
  {
    if ys == [] {
      assert xs + ys == xs;
    } else {
      var zs := xs + ys;
      assert zs[..|zs| - 1] == xs + ys[..|ys| - 1];
      DedupPrefix(xs, ys[..|ys| - 1]);
      DedupGrows(zs);
    }
  }

  /** Deduplicating a list extends the deduplication of all but its last element. */
  lemma DedupGrows<T>(zs: seq<T>)
    requires zs != []
    ensures Dedup(zs[..|zs| - 1]) <= Dedup(zs)
  {
    var prev := Dedup(zs[..|zs| - 1]);
    assert Dedup(zs) == prev || Dedup(zs) == prev + [zs[|zs| - 1]];
  }

  /** A list without repeats passes through unchanged; so deduplicating twice is deduplicating once. */
  lemma {:induction false} DedupDistinct<T>(xs: seq<T>)
    requires Distinct(xs)
    ensures Dedup(xs) == xs
  {
    if xs != [] {
      var p := xs[..|xs| - 1];
      assert Distinct(p);
      DedupDistinct(p);
      assert xs == p + [xs[|xs| - 1]];
    }
  }

  /** Some occurrence of `x` in `xs` comes before every occurrence of `y`. */
  predicate Precedes<T(==)>(xs: seq<T>, x: T, y: T)
  {
    exists a :: 0 <= a < |xs| && xs[a] == x && forall b :: 0 <= b <= a ==> xs[b] != y
  }

  /**
   * Deduplicating keeps first-seen order: of two kept items, the earlier
   * one is met in the input before any occurrence of the later one.
   */
  lemma {:induction false} DedupOrder<T>(xs: seq<T>)
    ensures forall i, j :: 0 <= i < j < |Dedup(xs)| ==> Precedes(xs, Dedup(xs)[i], Dedup(xs)[j])
    decreases |xs|
  {
    if xs != [] {
      var p := xs[..|xs| - 1];
      var x := xs[|xs| - 1];
      var prev := Dedup(p);
      DedupOrder(p);
      DedupMembers(p);
      var r := Dedup(xs);
      assert x in prev ==> r == prev;
      assert x !in prev ==> r == prev + [x];
      forall i, j | 0 <= i < j < |r| ensures Precedes(xs, r[i], r[j]) {
        assert r[i] == prev[i];
        if j < |prev| {
          assert r[j] == prev[j];
          assert Precedes(p, prev[i], prev[j]);
          var a :| 0 <= a < |p| && p[a] == prev[i] && forall b :: 0 <= b <= a ==> p[b] != prev[j];
          assert xs[a] == r[i];
          forall b | 0 <= b <= a ensures xs[b] != r[j] {
            assert xs[b] == p[b];
          }
        } else {
          assert r[j] == x && x !in p;
          assert prev[i] in p;
          var a :| 0 <= a < |p| && p[a] == prev[i];
          assert xs[a] == r[i];
          forall b | 0 <= b <= a ensures xs[b] != r[j] {
            assert xs[b] == p[b];
          }
        }
      }
    }
  }

  /** The first kept item is the input's first. */
  lemma DedupHead<T>(xs: seq<T>)
    requires xs != []
    ensures Dedup(xs) != [] && Dedup(xs)[0] == xs[0]
  {
    DedupPrefix([xs[0]], xs[1..]);
    assert [xs[0]] + xs[1..] == xs;
    assert Dedup([xs[0]]) == [xs[0]];
  }

  lemma DedupIdempotent<T>(xs: seq<T>)
    ensures Dedup(Dedup(xs)) == Dedup(xs)
  {
    DedupDistinct(Dedup(xs));
  }
}

=== FILE: tatoeba.dfy ===
/**
 * The newer Tatoeba adapter (translate_logic/providers/tatoeba.py): the
 * sentence-search URL, the example extraction over the decoded JSON answer,
 * and the guard around the single request.
 *
 * The older adapter (translator/providers/tatoeba.py) walks the answer the
 * same way and differs only in how it accepts an object, so the walk takes
 * the key check as a parameter; `LegacyTatoeba` instantiates it.
 */
module Tatoeba {
  import opened Wrappers
  import Text
  import Url
  import Query
  import opened Json
  import Seqs
  import opened Models
  import opened Fetch

  const BaseUrl: string := "https://api.tatoeba.org/unstable/sentences"
  const DefaultLimit: nat := 5

  // ---------------------------------------------------------------- url

  /** The `params` tuple: language filters, the encoded normalised text second, the limit last. */
  function Params(text: string): seq<string>
  {
    ParamsWith(Url.QuotePlus(Text.NormalizeText(text)))
  }

  function ParamsWith(encoded: string): seq<string>
  {
    [ Query.Field("lang", "eng"),
      Query.Field("q", encoded),
      Query.Field("trans:lang", "rus"),
      Query.Field("showtrans:lang", "rus"),
      Query.Field("showtrans:is_direct", "yes"),
      Query.Field("sort", "relevance"),
      Query.Field("limit", Query.Decimal(DefaultLimit)) ]
  }

  /** `build_tatoeba_url`. */
  function BuildUrl(text: string): string
  {
    BaseUrl + "?" + Query.Query(Params(text))
  }

  /**
   * The query splits back into its seven fields, in their fixed order, with
   * the text normalised and encoded in the second and the limit 5 last.
   */
  lemma UrlFields(text: string)
    ensures var fields := Text.SplitOn(Query.Query(Params(text)), "&");
            && |fields| == 7
            && fields == Params(text)
            && fields[1] == Query.Field("q", Url.QuotePlus(Text.NormalizeText(text)))
            && fields[6] == Query.Field("limit", "5")
  {
    var encoded := Url.QuotePlus(Text.NormalizeText(text));
    Query.EncodedLacksAmpersand(Text.NormalizeText(text));
    ParamsSplitBack(encoded);
    assert Query.Decimal(DefaultLimit) == "5";
  }

  lemma ParamsSplitBack(encoded: string)
    requires Text.Lacks(encoded, '&')
    ensures Text.SplitOn(Query.Query(ParamsWith(encoded)), "&") == ParamsWith(encoded)
  {
    var ps := ParamsWith(encoded);
    FixedParamsLack();
    Query.FieldLacks("q", encoded);
    Query.DecimalLacks(DefaultLimit);
    Query.FieldLacks("limit", Query.Decimal(DefaultLimit));
    Query.QuerySplitsBack(ps);
  }

  lemma FixedParamsLack()
    ensures Text.Lacks(Query.Field("lang", "eng"), '&')
    ensures Text.Lacks(Query.Field("trans:lang", "rus"), '&')
    ensures Text.Lacks(Query.Field("showtrans:lang", "rus"), '&')
    ensures Text.Lacks(Query.Field("showtrans:is_direct", "yes"), '&')
    ensures Text.Lacks(Query.Field("sort", "relevance"), '&')
  {
    Query.FieldLacks("lang", "eng");
    Query.FieldLacks("trans:lang", "rus");
    Query.FieldLacks("showtrans:lang", "rus");
    Query.FieldLacks("showtrans:is_direct", "yes");
    Query.FieldLacks("sort", "relevance");
  }

  // ---------------------------------------------------------------- parse

  /**
   * The Russian text a translation object contributes: its stripped `text`,
   * provided that text is non-blank, its stripped `lang` is `rus`, and
   * `is_direct` is not the boolean false (absent or non-boolean flags pass).
   */
  function RussianOf(t: map<Key, Json>): (r: Option<string>)
    ensures r.Some? <==> && GetStripped(Get(t, "text")).Some?
                         && GetStripped(Get(t, "lang")) == Some("rus")
                         && GetBool(Get(t, "is_direct")) != Some(false)
    ensures r.Some? ==> r == GetStripped(Get(t, "text"))
  {
    var ru := GetStripped(Get(t, "text"));
    if ru.None? || GetStripped(Get(t, "lang")) != Some("rus") then None
    else if GetBool(Get(t, "is_direct")) == Some(false) then None
    else ru
  }

  /** An example built from the stripped English and Russian texts, both whitespace-normalised. */
  function MakeExample(en: string, ru: string): Example
  {
    Example(Text.NormalizeWhitespace(en), Some(Text.NormalizeWhitespace(ru)))
  }

  /** `RussianOf` as a list of at most one text, so the translations can be walked with `FlatMap`. */
  function RussianSeq(t: map<Key, Json>): (r: seq<string>)
    ensures |r| <= 1
  {
    Seqs.OptionToSeq(RussianOf(t))
  }

  /** The examples pairing one English text with each accepted Russian text, in order. */
  function Pair(en: string, rus: seq<string>): (r: seq<Example>)
    ensures |r| == |rus|
    ensures forall i :: 0 <= i < |rus| ==> r[i] == MakeExample(en, rus[i])
  {
    if rus == [] then [] else [MakeExample(en, rus[0])] + Pair(en, rus[1..])
  }

  /** The Russian texts a sentence's translation objects supply, in order. */
  function RussianTexts(ts: seq<map<Key, Json>>): (r: seq<string>)
    ensures |r| <= |ts|
  {
    Seqs.FlatMap(ts, RussianSeq)
  }

  /**
   * The examples one `data` item yields: none unless it is an object whose
   * stripped `lang` is `eng` and whose `text` is non-blank.
   */
  function ItemExamples(item: Json, check: KeyCheck): (r: seq<Example>)
    ensures CoerceDict(Some(item), check).None? ==> r == []
    ensures item.Obj? && GetStripped(Get(item.fields, "lang")) != Some("eng") ==> r == []
    ensures item.Obj? && GetStripped(Get(item.fields, "text")).None? ==> r == []
  {
    match CoerceDict(Some(item), check)
    case None => []
    case Some(d) =>
      if GetStripped(Get(d, "lang")) != Some("eng") then []
      else
        match GetStripped(Get(d, "text"))
        case None => []
        case Some(en) => Pair(en, RussianTexts(CoerceDictList(Get(d, "translations"), check)))
  }

  /** Every example the walk produces, before de-duplication, in document order. */
  function Candidates(items: seq<Json>, check: KeyCheck): seq<Example>
  {
    if items == [] then [] else ItemExamples(items[0], check) + Candidates(items[1..], check)
  }

  /** A produced example: normalised non-empty English, and a normalised non-empty Russian translation. */
  predicate WellFormed(e: Example)
  {
    && e.en != "" && Text.NormalizeWhitespace(e.en) == e.en
    && e.ru.Some? && e.ru.value != "" && Text.NormalizeWhitespace(e.ru.value) == e.ru.value
  }

  /** `_parse_tatoeba_payload` after `json.loads`, with the item key check as a parameter. */
  function ParseWith(j: Json, check: KeyCheck): (r: seq<Example>)
    ensures !j.Obj? ==> r == []
    ensures j.Obj? && AsList(Get(j.fields, "data")).None? ==> r == []
    ensures Seqs.Distinct(r)
    ensures forall k :: 0 <= k < |r| ==> WellFormed(r[k])
  {
    if !j.Obj? then []
    else
      match AsList(Get(j.fields, "data"))
      case None => []
      case Some(items) =>
        CandidatesWellFormed(items, check);
        Seqs.Dedup(Candidates(items, check))
  }

  /** The newer adapter's parse: every dict is accepted, whatever its keys. */
  function Parse(j: Json): (r: seq<Example>)
    ensures Seqs.Distinct(r)
    ensures forall k :: 0 <= k < |r| ==> WellFormed(r[k])
  {
    ParseWith(j, AnyKeys)
  }

  lemma MakeExampleWellFormed(en: string, ru: string)
    requires Readable(en) && Readable(ru)
    ensures WellFormed(MakeExample(en, ru))
  {
    Text.NormalizeIdempotent(en);
    Text.NormalizeIdempotent(ru);
    Text.NormalizeEmptyIff(en);
    Text.NormalizeEmptyIff(ru);
  }

  lemma StrippedNotBlank(s: string)
    requires Text.Strip(s) != ""
    ensures Readable(Text.Strip(s))
  {
    Text.StripEmptyIff(s);
    Text.StripEmptyIff(Text.Strip(s));
    assert !Text.IsSpace(Text.Strip(s)[0]);
  }

  /** A stripped, non-empty text is not blank. */
  predicate Readable(s: string)
  {
    s != "" && !Text.AllSpace(s)
  }

  lemma RussianTextsReadable(ts: seq<map<Key, Json>>)
    ensures forall k :: 0 <= k < |RussianTexts(ts)| ==> Readable(RussianTexts(ts)[k])
  {
    var rus := RussianTexts(ts);
    Seqs.FlatMapMembers(ts, RussianSeq);
    forall k | 0 <= k < |rus| ensures Readable(rus[k]) {
      var i :| 0 <= i < |ts| && rus[k] in RussianSeq(ts[i]);
      StrippedNotBlank(ts[i][StrKey("text")].s);
    }
  }

  lemma PairWellFormed(en: string, rus: seq<string>)
    requires Readable(en)
    requires forall k :: 0 <= k < |rus| ==> Readable(rus[k])
    ensures forall k :: 0 <= k < |Pair(en, rus)| ==> WellFormed(Pair(en, rus)[k])
  {
    forall k | 0 <= k < |rus| ensures WellFormed(Pair(en, rus)[k]) {
      MakeExampleWellFormed(en, rus[k]);
    }
  }

  lemma ItemExamplesWellFormed(item: Json, check: KeyCheck)
    ensures forall k :: 0 <= k < |ItemExamples(item, check)| ==> WellFormed(ItemExamples(item, check)[k])
  {
    if CoerceDict(Some(item), check).Some? {
      assert item.Obj?;
      var d := item.fields;
      if GetStripped(Get(d, "lang")) == Some("eng") && GetStripped(Get(d, "text")).Some? {
        var en := GetStripped(Get(d, "text")).value;
        var ts := CoerceDictList(Get(d, "translations"), check);
        ItemPairs(item, check);
        StrippedNotBlank(d[StrKey("text")].s);
        RussianTextsReadable(ts);
        PairWellFormed(en, RussianTexts(ts));
      }
    }
  }

  lemma {:induction false} CandidatesWellFormed(items: seq<Json>, check: KeyCheck)
    ensures forall k :: 0 <= k < |Candidates(items, check)| ==> WellFormed(Candidates(items, check)[k])
  {
    if items != [] {
      ItemExamplesWellFormed(items[0], check);
      CandidatesWellFormed(items[1..], check);
    }
  }

  /** Every accepted translation of an English `eng` sentence yields its example. */
  lemma AcceptedTranslationYields(item: Json, check: KeyCheck, i: nat)
    requires CoerceDict(Some(item), check).Some?
    requires GetStripped(Get(item.fields, "lang")) == Some("eng")
    requires GetStripped(Get(item.fields, "text")).Some?
    requires i < |CoerceDictList(Get(item.fields, "translations"), check)|
    requires RussianOf(CoerceDictList(Get(item.fields, "translations"), check)[i]).Some?
    ensures MakeExample(GetStripped(Get(item.fields, "text")).value,
                        RussianOf(CoerceDictList(Get(item.fields, "translations"), check)[i]).value)
            in ItemExamples(item, check)
  {
    var ts := CoerceDictList(Get(item.fields, "translations"), check);
    var en := GetStripped(Get(item.fields, "text")).value;
    ItemPairs(item, check);
    RussianTextsMember(ts, i);
    PairMember(en, RussianTexts(ts), RussianOf(ts[i]).value);
  }

  /** An accepted English sentence yields its text paired with each accepted translation. */
  lemma ItemPairs(item: Json, check: KeyCheck)
    requires CoerceDict(Some(item), check).Some?
    requires GetStripped(Get(item.fields, "lang")) == Some("eng")
    requires GetStripped(Get(item.fields, "text")).Some?
    ensures ItemExamples(item, check)
            == Pair(GetStripped(Get(item.fields, "text")).value,
                    RussianTexts(CoerceDictList(Get(item.fields, "translations"), check)))
  {
    assert CoerceDict(Some(item), check).value == item.fields;
  }

  lemma RussianTextsMember(ts: seq<map<Key, Json>>, i: nat)
    requires i < |ts| && RussianOf(ts[i]).Some?
    ensures RussianOf(ts[i]).value in RussianTexts(ts)
  {
    Seqs.FlatMapMembers(ts, RussianSeq);
    assert RussianSeq(ts[i])[0] == RussianOf(ts[i]).value;
  }

  lemma PairMember(en: string, rus: seq<string>, ru: string)
    requires ru in rus
    ensures MakeExample(en, ru) in Pair(en, rus)
  {
    var k :| 0 <= k < |rus| && rus[k] == ru;
    assert Pair(en, rus)[k] == MakeExample(en, ru);
  }

  lemma {:induction false} CandidatesAppend(xs: seq<Json>, ys: seq<Json>, check: KeyCheck)
    ensures Candidates(xs + ys, check) == Candidates(xs, check) + Candidates(ys, check)
  {
    if xs == [] {
      assert xs + ys == ys;
    } else {
      calc {
        Candidates(xs + ys, check);
        { assert (xs + ys)[0] == xs[0]; assert (xs + ys)[1..] == xs[1..] + ys; }
        ItemExamples(xs[0], check) + Candidates(xs[1..] + ys, check);
        { CandidatesAppend(xs[1..], ys, check); }
        ItemExamples(xs[0], check) + (Candidates(xs[1..], check) + Candidates(ys, check));
      }
    }
  }

  /**
   * The result is the first occurrence of every candidate example, in
   * document order: an example is kept iff some item yields it, and items
   * further on never displace or reorder what earlier items produced.
   * Other keys of the payload object play no part.
   */
  lemma FirstSeenOrder(o: map<Key, Json>, o': map<Key, Json>, items: seq<Json>, more: seq<Json>, check: KeyCheck)
    requires Get(o, "data") == Some(Arr(items))
    requires Get(o', "data") == Some(Arr(items + more))
    ensures forall e :: e in ParseWith(Obj(o), check) <==> e in Candidates(items, check)
    ensures ParseWith(Obj(o), check) <= ParseWith(Obj(o'), check)
  {
    ParseData(o, items, check);
    ParseData(o', items + more, check);
    Seqs.DedupMembers(Candidates(items, check));
    CandidatesAppend(items, more, check);
    Seqs.DedupPrefix(Candidates(items, check), Candidates(more, check));
  }

  /** A payload whose `data` is a list is parsed into that list's deduplicated candidates. */
  lemma ParseData(o: map<Key, Json>, items: seq<Json>, check: KeyCheck)
    requires Get(o, "data") == Some(Arr(items))
    ensures ParseWith(Obj(o), check) == Seqs.Dedup(Candidates(items, check))
  {
  }

  // ---------------------------------------------------------------- translate

  /** `translate_tatoeba`: empty text makes no request; every failure gives []. */
  function Translate(text: string, fetch: string -> Option<Payload<Json>>): (r: Traced<seq<Example>>)
    ensures text == "" ==> r.requested == [] && r.result == []
    ensures text != "" ==> r.requested == [BuildUrl(text)]
    ensures Seqs.Distinct(r.result)
    ensures forall k :: 0 <= k < |r.result| ==> WellFormed(r.result[k])
    ensures r.result != [] ==> exists j :: fetch(BuildUrl(text)) == Some(Parsed(j)) && r.result == Parse(j)
    ensures text != "" && fetch(BuildUrl(text)).Some? && fetch(BuildUrl(text)).value.Parsed? ==>
              r.result == Parse(fetch(BuildUrl(text)).value.value)
    ensures !(fetch(BuildUrl(text)).Some? && fetch(BuildUrl(text)).value.Parsed?) ==> r.result == []
  {
    Guarded(text, BuildUrl(text), fetch, Parse, [])
  }
}

=== FILE: text.dfy ===
/**
 * Text normalisation (translator/text.py): Python's argument-less `str.split()`
 * and `" ".join`, `strip`, `lower`/`casefold`, and the Cambridge URL slug.
 */
module Text {
  import Url

  /** Python's `str.isspace` for one character: the separators `str.split()` splits on. */
  predicate IsSpace(c: char) {
    ('\t' <= c <= '\r') || ('\U{1C}' <= c <= '\U{1F}') || c == ' '
    || c == '\U{85}' || c == '\U{A0}' || c == '\U{1680}'
    || ('\U{2000}' <= c <= '\U{200A}') || c == '\U{2028}' || c == '\U{2029}'
    || c == '\U{202F}' || c == '\U{205F}' || c == '\U{3000}'
  }

  predicate NoSpace(s: string) {
    forall i :: 0 <= i < |s| ==> !IsSpace(s[i])
  }

  predicate AllSpace(s: string) {
    forall i :: 0 <= i < |s| ==> IsSpace(s[i])
  }

  /** A token of `str.split()`: a non-empty run of non-whitespace. */
  predicate IsToken(t: string) {
    t != [] && NoSpace(t)
  }

  predicate AllTokens(ts: seq<string>) {
    forall i :: 0 <= i < |ts| ==> IsToken(ts[i])
  }

  /** Length of the leading run of non-whitespace characters. */
  function TokenLength(s: string): (k: nat)
    ensures k <= |s|
    ensures NoSpace(s[..k])
    ensures k < |s| ==> IsSpace(s[k])
  {
    if s == [] || IsSpace(s[0]) then 0
    else
      var k := 1 + TokenLength(s[1..]);
      assert s[..k] == [s[0]] + s[1..][..k - 1];
      k
  }

  /** Python's `value.split()`: the maximal runs of non-whitespace, in order. */
  function Split(s: string): (ts: seq<string>)
    ensures AllTokens(ts)
    decreases |s|
  {
    if s == [] then []
    else if IsSpace(s[0]) then Split(s[1..])
    else
      var k := TokenLength(s);
      [s[..k]] + Split(s[k..])
  }

  /** The pieces glued back together with nothing in between. */
  function Concat(ts: seq<string>): string
  {
    if ts == [] then [] else ts[0] + Concat(ts[1..])
  }

  /** The non-whitespace characters of `s`, in order. */
  function Visible(s: string): string
  {
    if s == [] then [] else (if IsSpace(s[0]) then [] else [s[0]]) + Visible(s[1..])
  }

  /**
   * How many runs of non-whitespace begin in `s`: positions holding a
   * non-whitespace character right after whitespace, or after the start
   * when `afterSpace` holds.
   */
  function RunStarts(s: string, afterSpace: bool): nat
  {
    if s == [] then 0
    else (if afterSpace && !IsSpace(s[0]) then 1 else 0) + RunStarts(s[1..], IsSpace(s[0]))
  }

  lemma {:induction false} VisibleAppend(a: string, b: string)
    ensures Visible(a + b) == Visible(a) + Visible(b)
  {
    if a == [] {
      assert a + b == b;
    } else {
      assert (a + b)[1..] == a[1..] + b;
      VisibleAppend(a[1..], b);
    }
  }

  lemma {:induction false} VisibleNoSpace(t: string)
    requires NoSpace(t)
    ensures Visible(t) == t
  {
    if t != [] {
      VisibleNoSpace(t[1..]);
    }
  }

  /** Walking through a token adds its one run start, and leaves the walk inside a run. */
  lemma {:induction false} RunStartsToken(t: string, rest: string, afterSpace: bool)
    requires NoSpace(t) && t != []
    ensures RunStarts(t + rest, afterSpace) == (if afterSpace then 1 else 0) + RunStarts(rest, false)
  {
    assert (t + rest)[0] == t[0] && (t + rest)[1..] == t[1..] + rest;
    if |t| > 1 {
      RunStartsToken(t[1..], rest, false);
    } else {
      assert t[1..] + rest == rest;
    }
  }

  /**
   * `str.split()` against an independent description of its result: the
   * pieces, glued together, are the input's non-whitespace characters in
   * order, and there is one piece per run of non-whitespace. With every
   * piece a token this pins the result down to the maximal runs.
   */
  lemma {:induction false} SplitRuns(s: string)
    ensures Concat(Split(s)) == Visible(s)
    ensures |Split(s)| == RunStarts(s, true)
    decreases |s|
  {
    if s != [] {
      if IsSpace(s[0]) {
        SplitRuns(s[1..]);
      } else {
        var k := TokenLength(s);
        var t, rest := s[..k], s[k..];
        assert s == t + rest;
        SplitRuns(rest);
        var ts := Split(rest);
        assert Split(s) == [t] + ts;
        assert ([t] + ts)[1..] == ts;
        VisibleAppend(t, rest);
        VisibleNoSpace(t);
        RunStartsToken(t, rest, true);
        if rest != [] {
          assert IsSpace(rest[0]);
          assert RunStarts(rest, false) == RunStarts(rest, true);
        }
      }
    }
  }

  /** Python's `sep.join(ts)`. */
  function JoinWith(sep: string, ts: seq<string>): string
  {
    if |ts| == 0 then ""
    else if |ts| == 1 then ts[0]
    else ts[0] + sep + JoinWith(sep, ts[1..])
  }

  /** Python's `" ".join(ts)`. */
  function Join(ts: seq<string>): string
  {
    JoinWith(" ", ts)
  }

  /** `normalize_whitespace` (translator/text.py:10-11). */
  function NormalizeWhitespace(value: string): string
  {
    Join(Split(value))
  }

  /** `normalize_text` (translator/text.py:6-7): the same expression, written twice in the source. */
  function NormalizeText(value: string): string
  {
    Join(Split(value))
  }

  /** A string `normalize_whitespace` produces: single spaces between non-blank runs, no other whitespace. */
  predicate IsNormalized(s: string) {
    && (forall i :: 0 <= i < |s| && IsSpace(s[i]) ==> s[i] == ' ')
    && (|s| > 0 ==> s[0] != ' ' && s[|s| - 1] != ' ')
    && (forall i :: 0 <= i < |s| - 1 && s[i] == ' ' ==> s[i + 1] != ' ')
  }

  // ---------------------------------------------------------------- split / join

  lemma TokenLengthOfToken(t: string, rest: string)
    requires IsToken(t)
    requires rest == [] || IsSpace(rest[0])
    ensures TokenLength(t + rest) == |t|
    decreases |t|
  {
    if |t| > 1 {
      assert (t + rest)[1..] == t[1..] + rest;
      TokenLengthOfToken(t[1..], rest);
    } else {
      assert (t + rest)[1..] == rest;
    }
  }

  lemma SplitToken(t: string, rest: string)
    requires IsToken(t)
    requires rest == [] || IsSpace(rest[0])
    ensures Split(t + rest) == [t] + Split(rest)
  {
    TokenLengthOfToken(t, rest);
    assert (t + rest)[..|t|] == t;
    assert (t + rest)[|t|..] == rest;
  }

  lemma JoinEnds(ts: seq<string>)
    requires AllTokens(ts) && |ts| > 0
    ensures |Join(ts)| > 0
    ensures Join(ts)[0] == ts[0][0]
    ensures !IsSpace(Join(ts)[0]) && !IsSpace(Join(ts)[|Join(ts)| - 1])
  {
    if |ts| > 1 {
      JoinEnds(ts[1..]);
      var j := Join(ts[1..]);
      assert Join(ts) == ts[0] + " " + j;
      assert Join(ts)[|Join(ts)| - 1] == j[|j| - 1];
    }
  }

  /** Splitting a join of tokens gives the tokens back. */
  lemma {:induction false} SplitJoin(ts: seq<string>)
    requires AllTokens(ts)
    ensures Split(Join(ts)) == ts
  {
    if |ts| == 1 {
      SplitToken(ts[0], "");
      assert ts[0] + "" == ts[0];
    } else if |ts| > 1 {
      var j := Join(ts[1..]);
      JoinEnds(ts[1..]);
      assert Join(ts) == ts[0] + (" " + j);
      SplitToken(ts[0], " " + j);
      assert (" " + j)[1..] == j;
      SplitJoin(ts[1..]);
    }
  }

  /** `normalize_whitespace` is idempotent (translator/text.py:10-11). */
  lemma NormalizeIdempotent(value: string)
    ensures NormalizeWhitespace(NormalizeWhitespace(value)) == NormalizeWhitespace(value)
    ensures Split(NormalizeWhitespace(value)) == Split(value)
  {
    SplitJoin(Split(value));
  }

  /** The shape of a join of tokens: what `IsNormalized` asks for. */
  lemma {:induction false} JoinIsNormalized(ts: seq<string>)
    requires AllTokens(ts)
    ensures IsNormalized(Join(ts))
  {
    if |ts| == 1 {
      assert IsToken(ts[0]);
    } else if |ts| > 1 {
      JoinIsNormalized(ts[1..]);
      JoinEnds(ts[1..]);
      var t := ts[0];
      var j := Join(ts[1..]);
      var s := Join(ts);
      assert s == t + " " + j;
      assert IsToken(t);
      forall i | 0 <= i < |s| && IsSpace(s[i])
        ensures s[i] == ' '
      {
        if i > |t| { assert s[i] == j[i - |t| - 1]; }
      }
      forall i | 0 <= i < |s| - 1 && s[i] == ' '
        ensures s[i + 1] != ' '
      {
        if i > |t| {
          assert s[i] == j[i - |t| - 1];
          assert s[i + 1] == j[i - |t|];
        } else if i == |t| {
          assert s[i + 1] == j[0];
        }
      }
      assert s[|s| - 1] == j[|j| - 1];
    }
  }

  /**
   * The output of `normalize_whitespace` has no leading, trailing or doubled
   * space and no whitespace other than `' '` (translator/text.py:11).
   */
  lemma NormalizedShape(value: string)
    ensures IsNormalized(NormalizeWhitespace(value))
  {
    JoinIsNormalized(Split(value));
  }

  lemma {:induction false} SplitEmptyIffAllSpace(s: string)
    ensures Split(s) == [] <==> AllSpace(s)
    decreases |s|
  {
    if s != [] {
      SplitEmptyIffAllSpace(s[1..]);
      if IsSpace(s[0]) {
        assert AllSpace(s) <==> AllSpace(s[1..]) by {
          if AllSpace(s[1..]) {
            forall i | 0 <= i < |s| ensures IsSpace(s[i]) {
              if i > 0 { assert s[i] == s[1..][i - 1]; }
            }
          }
        }
      }
    }
  }

  /** The normalised text is empty exactly when the input is all whitespace (translator/text.py:11). */
  lemma NormalizeEmptyIff(value: string)
    ensures NormalizeWhitespace(value) == "" <==> AllSpace(value)
  {
    SplitEmptyIffAllSpace(value);
    if Split(value) != [] {
      JoinEnds(Split(value));
    }
  }

  /** `normalize_text` and `normalize_whitespace` are one function (translator/text.py:6-11). */
  lemma NormalizeTextIsNormalizeWhitespace(value: string)
    ensures NormalizeText(value) == NormalizeWhitespace(value)
  {
  }

  // ---------------------------------------------------------------- split(' ')

  /** Python's `s.split(sep)` for a non-empty separator: empty fields are kept. */
  function SplitOn(s: string, sep: string): (fs: seq<string>)
    requires sep != []
    ensures |fs| >= 1
  {
    if s == [] then [""]
    else if StartsWith(s, sep) then [""] + SplitOn(s[|sep|..], sep)
    else
      var rest := SplitOn(s[1..], sep);
      [[s[0]] + rest[0]] + rest[1..]
  }

  /** `c` does not occur in `s`. */
  predicate Lacks(s: string, c: char) {
    forall i :: 0 <= i < |s| ==> s[i] != c
  }

  lemma {:induction false} SplitOnField(t: string, rest: string, sep: string)
    requires sep != [] && Lacks(t, sep[0])
    ensures SplitOn(t + rest, sep) == [t + SplitOn(rest, sep)[0]] + SplitOn(rest, sep)[1..]
    decreases |t|
  {
    if t == [] {
      assert t + rest == rest;
      assert t + SplitOn(rest, sep)[0] == SplitOn(rest, sep)[0];
    } else {
      var s := t + rest;
      assert s[0] == t[0] && s[1..] == t[1..] + rest;
      assert !StartsWith(s, sep);
      SplitOnField(t[1..], rest, sep);
      assert [t[0]] + (t[1..] + SplitOn(rest, sep)[0]) == t + SplitOn(rest, sep)[0];
    }
  }

  /** Joining two non-empty lists is joining each and putting the separator between. */
  lemma {:induction false} JoinWithAppend(sep: string, a: seq<string>, b: seq<string>)
    requires |a| > 0 && |b| > 0
    ensures JoinWith(sep, a + b) == JoinWith(sep, a) + sep + JoinWith(sep, b)
  {
    if |a| == 1 {
      assert (a + b)[1..] == b;
    } else {
      assert (a + b)[1..] == a[1..] + b;
      JoinWithAppend(sep, a[1..], b);
    }
  }

  /** Splitting `sep.join(ts)` on `sep` gives `ts` back when no field holds the separator's first character. */
  lemma {:induction false} SplitOnJoinWith(ts: seq<string>, sep: string)
    requires sep != [] && |ts| > 0
    requires forall i :: 0 <= i < |ts| ==> Lacks(ts[i], sep[0])
    ensures SplitOn(JoinWith(sep, ts), sep) == ts
  {
    if |ts| == 1 {
      SplitOnField(ts[0], "", sep);
      assert ts[0] + "" == ts[0];
    } else {
      var j := JoinWith(sep, ts[1..]);
      assert JoinWith(sep, ts) == ts[0] + (sep + j);
      SplitOnField(ts[0], sep + j, sep);
      assert StartsWith(sep + j, sep) && (sep + j)[|sep|..] == j;
      SplitOnJoinWith(ts[1..], sep);
      assert SplitOn(sep + j, sep) == [""] + ts[1..];
      assert ts[0] + "" == ts[0];
    }
  }

  /**
   * Splitting a non-empty normalised string on `' '` gives exactly the
   * whitespace-split tokens of the input, in order (translator/text.py:11).
   */
  lemma NormalizeSplitOnSpace(value: string)
    requires NormalizeWhitespace(value) != ""
    ensures SplitOn(NormalizeWhitespace(value), " ") == Split(value)
  {
    var ts := Split(value);
    assert ts != [];
    forall i | 0 <= i < |ts| ensures Lacks(ts[i], ' ') {
      assert IsToken(ts[i]);
    }
    SplitOnJoinWith(ts, " ");
  }

  // ---------------------------------------------------------------- strip

  function LStrip(s: string): (r: string)
    ensures |r| <= |s| && r == s[|s| - |r|..]
    ensures r == [] || !IsSpace(r[0])
  {
    if s != [] && IsSpace(s[0]) then LStrip(s[1..]) else s
  }

  function RStrip(s: string): (r: string)
    ensures |r| <= |s| && r == s[..|r|]
    ensures r == [] || !IsSpace(r[|r| - 1])
  {
    if s != [] && IsSpace(s[|s| - 1]) then RStrip(s[..|s| - 1]) else s
  }

  /** Python's `value.strip()`: leading and trailing whitespace removed. */
  function Strip(s: string): (r: string)
  {
    RStrip(LStrip(s))
  }

  lemma {:induction false} SplitSpaceSuffix(s: string, c: char)
    requires IsSpace(c)
    ensures Split(s + [c]) == Split(s)
    decreases |s|
  {
    var sc := s + [c];
    if s == [] {
      assert sc[1..] == [];
    } else if IsSpace(s[0]) {
      assert sc[1..] == s[1..] + [c];
      SplitSpaceSuffix(s[1..], c);
    } else {
      var k := TokenLength(s);
      if k < |s| {
        TokenLengthOfToken(s[..k], s[k..] + [c]);
        assert s[..k] + (s[k..] + [c]) == sc;
        assert sc[..k] == s[..k];
        assert sc[k..] == s[k..] + [c];
        SplitSpaceSuffix(s[k..], c);
      } else {
        assert s[..k] == s;
        SplitToken(s, [c]);
        assert [c][1..] == [];
        assert Split([c]) == Split([]);
        assert s[k..] == [];
      }
    }
  }

  lemma {:induction false} SplitRStrip(s: string)
    ensures Split(RStrip(s)) == Split(s)
    decreases |s|
  {
    if s != [] && IsSpace(s[|s| - 1]) {
      SplitRStrip(s[..|s| - 1]);
      assert s == s[..|s| - 1] + [s[|s| - 1]];
      SplitSpaceSuffix(s[..|s| - 1], s[|s| - 1]);
    }
  }

  lemma {:induction false} SplitLStrip(s: string)
    ensures Split(LStrip(s)) == Split(s)
    decreases |s|
  {
    if s != [] && IsSpace(s[0]) {
      SplitLStrip(s[1..]);
    }
  }

  /** Stripping first does not change the whitespace-split tokens, hence not the normalised text. */
  lemma StripKeepsTokens(s: string)
    ensures Split(Strip(s)) == Split(s)
    ensures NormalizeWhitespace(Strip(s)) == NormalizeWhitespace(s)
  {
    SplitLStrip(s);
    SplitRStrip(LStrip(s));
  }

  /** `strip()` yields the empty string exactly for all-whitespace input, and never leaves whitespace at its ends. */
  lemma StripEmptyIff(s: string)
    ensures Strip(s) == "" <==> AllSpace(s)
    ensures Strip(s) != "" ==> !IsSpace(Strip(s)[0]) && !IsSpace(Strip(s)[|Strip(s)| - 1])
  {
    StripKeepsTokens(s);
    SplitEmptyIffAllSpace(s);
    SplitEmptyIffAllSpace(Strip(s));
    var l := LStrip(s);
    if l != [] {
      assert RStrip(l) == l[..|RStrip(l)|];
      if RStrip(l) != [] {
        assert RStrip(l)[0] == l[0];
      }
    }
  }

  // ---------------------------------------------------------------- case

  /**
   * `str.lower` for one character, on the Latin (ASCII and Latin-1) and
   * Cyrillic capitals; other characters are left as they are.
   */
  function LowerChar(c: char): (r: char)
    ensures IsSpace(r) <==> IsSpace(c)
  {
    if 'A' <= c <= 'Z' || ('\U{C0}' <= c <= '\U{DE}' && c != '\U{D7}') || ('\U{410}' <= c <= '\U{42F}') then
      (c as int + 32) as char
    else if '\U{400}' <= c <= '\U{40F}' then (c as int + 0x50) as char
    else c
  }

  function Lower(s: string): (r: string)
    ensures |r| == |s|
    ensures forall i :: 0 <= i < |s| ==> r[i] == LowerChar(s[i])
  {
    if s == [] then [] else [LowerChar(s[0])] + Lower(s[1..])
  }

  /** `str.casefold`; on the characters `LowerChar` covers it agrees with `str.lower`. */
  function CaseFold(s: string): string
  {
    Lower(s)
  }

  /** Every occurrence of `a` replaced by `b` (`str.replace` with one-character arguments). */
  function ReplaceChar(s: string, a: char, b: char): (r: string)
    ensures |r| == |s|
    ensures forall i :: 0 <= i < |s| ==> r[i] == (if s[i] == a then b else s[i])
  {
    if s == [] then [] else [if s[0] == a then b else s[0]] + ReplaceChar(s[1..], a, b)
  }

  /** `needle` occurs in `haystack` starting at index `i`. */
  predicate OccursAt(haystack: string, needle: string, i: int) {
    0 <= i <= |haystack| - |needle| && haystack[i..i + |needle|] == needle
  }

  /** Substring test (`needle in haystack`). */
  predicate Contains(haystack: string, needle: string) {
    exists i | 0 <= i <= |haystack| - |needle| :: OccursAt(haystack, needle, i)
  }

  /** Prefix test (`s.startswith(p)`). */
  predicate StartsWith(s: string, p: string) {
    |p| <= |s| && s[..|p|] == p
  }

  // ---------------------------------------------------------------- slug

  /** The slug before percent-encoding: lower-cased normalised text with spaces turned into hyphens. */
  function SlugText(value: string): string
  {
    ReplaceChar(Lower(NormalizeText(value)), ' ', '-')
  }

  /** `to_cambridge_slug` (translator/text.py:14-17). */
  function ToCambridgeSlug(value: string): string
  {
    Url.Quote(SlugText(value))
  }

  /**
   * The unencoded slug has no whitespace at all, has the length of the
   * normalised text, and is empty exactly when the input is all whitespace
   * (translator/text.py:15-16).
   */
  lemma SlugTextShape(value: string)
    ensures NoSpace(SlugText(value))
    ensures |SlugText(value)| == |NormalizeWhitespace(value)|
    ensures SlugText(value) == "" <==> AllSpace(value)
  {
    var n := NormalizeText(value);
    NormalizedShape(value);
    NormalizeEmptyIff(value);
    var s := SlugText(value);
    forall i | 0 <= i < |s|
      ensures !IsSpace(s[i])
    {
      assert Lower(n)[i] == LowerChar(n[i]);
    }
  }

  /**
   * `to_cambridge_slug` is empty exactly for whitespace-only input, and its
   * output never contains a space (translator/text.py:15-17).
   */
  lemma SlugEmptyIff(value: string)
    ensures ToCambridgeSlug(value) == "" <==> AllSpace(value)
    ensures forall i :: 0 <= i < |ToCambridgeSlug(value)| ==> ToCambridgeSlug(value)[i] != ' '
  {
    SlugTextShape(value);
    Url.QuoteNonEmpty(SlugText(value));
    Url.QuoteIsUrlText(SlugText(value));
  }
}

=== FILE: translation.dfy ===
/**
 * Candidate cleaning, meta classification and selection (translator/translation.py).
 * Candidates are the translation strings a source offers; "meta" candidates are
 * grammatical annotations ("plural of ...", "от гл. ...") rather than usable words.
 */
module Translation {
  import opened Wrappers
  import opened Text
  import Seqs

  /** `TranslationSeparator.DEFAULT`. */
  const Separator: string := "; "
  /** `TranslationThreshold.MAX_WORDS` and `MAX_CHARS`. */
  const MaxWords: nat := 8
  const MaxChars: nat := 80
  /** `TranslationLimit.PRIMARY` (translator/models.py:21-22). */
  const PrimaryLimit: nat := 3

  /** `TranslationMetaMarker`, in declaration order. */
  const MetaMarkers: seq<string> := [
    "от гл.", "от сущ.", "от прил.", "от нареч.", "прич.", "прош. вр.", "форма",
    "аббр", "abbr", "сокр.", "past participle", "plural of", "указывает",
    "означает", "в сочетании", "передается", "выражает", "обозначает"
  ]

  // ---------------------------------------------------------------- clean

  /** The casefold keys of a list: the `seen` set of `clean_translations`. */
  function Folds(ys: seq<string>): set<string>
  {
    set i | 0 <= i < |ys| :: CaseFold(ys[i])
  }

  /** The casefold keys of every input that normalises to something non-empty. */
  function InputFolds(xs: seq<string>): set<string>
  {
    set i | 0 <= i < |xs| && NormalizeWhitespace(xs[i]) != "" :: CaseFold(NormalizeWhitespace(xs[i]))
  }

  /**
   * `clean_translations`: normalise each item, drop empties and later
   * casefold-duplicates. Written as the source's loop after each item, so
   * `Clean(xs[..k])` is the `cleaned` list after `k` iterations.
   */
  function Clean(xs: seq<string>): (r: seq<string>)
    ensures |r| <= |xs|
    ensures forall i :: 0 <= i < |r| ==> r[i] != "" && NormalizeWhitespace(r[i]) == r[i]
    ensures forall i, j :: 0 <= i < j < |r| ==> CaseFold(r[i]) != CaseFold(r[j])
  {
    if xs == [] then []
    else
      var prev := Clean(xs[..|xs| - 1]);
      var n := NormalizeWhitespace(xs[|xs| - 1]);
      NormalizeIdempotent(xs[|xs| - 1]);
      if n == "" || CaseFold(n) in Folds(prev) then prev else prev + [n]
  }

  lemma FoldsSnoc(prev: seq<string>, n: string)
    ensures Folds(prev + [n]) == Folds(prev) + {CaseFold(n)}
  {
    var r := prev + [n];
    forall k | k in Folds(r) ensures k in Folds(prev) + {CaseFold(n)} {
      var i :| 0 <= i < |r| && k == CaseFold(r[i]);
      if i < |prev| { assert r[i] == prev[i]; }
    }
    forall k | k in Folds(prev) ensures k in Folds(r) {
      var i :| 0 <= i < |prev| && k == CaseFold(prev[i]);
      assert r[i] == prev[i];
    }
    assert r[|prev|] == n;
  }

  lemma InputFoldsSnoc(p: seq<string>, last: string)
    ensures var n := NormalizeWhitespace(last);
            InputFolds(p + [last]) == InputFolds(p) + (if n != "" then {CaseFold(n)} else {})
  {
    var xs := p + [last];
    var n := NormalizeWhitespace(last);
    forall k | k in InputFolds(xs) ensures k in InputFolds(p) + (if n != "" then {CaseFold(n)} else {}) {
      var i :| 0 <= i < |xs| && NormalizeWhitespace(xs[i]) != "" && k == CaseFold(NormalizeWhitespace(xs[i]));
      if i < |p| { assert xs[i] == p[i]; }
    }
    forall k | k in InputFolds(p) ensures k in InputFolds(xs) {
      var i :| 0 <= i < |p| && NormalizeWhitespace(p[i]) != "" && k == CaseFold(NormalizeWhitespace(p[i]));
      assert xs[i] == p[i];
    }
    assert xs[|p|] == last;
  }

  /** The `seen` set after the loop is exactly the keys of the non-empty inputs. */
  lemma {:induction false} CleanFolds(xs: seq<string>)
    ensures Folds(Clean(xs)) == InputFolds(xs)
  {
    if xs != [] {
      var p := xs[..|xs| - 1];
      var last := xs[|xs| - 1];
      assert xs == p + [last];
      CleanFolds(p);
      InputFoldsSnoc(p, last);
      FoldsSnoc(Clean(p), NormalizeWhitespace(last));
    }
  }

  /** Item `i` is the first input of its casefold class (the item `clean_translations` keeps). */
  predicate IsFirstOfClass(xs: seq<string>, i: nat)
    requires i < |xs|
  {
    var n := NormalizeWhitespace(xs[i]);
    && n != ""
    && forall j :: 0 <= j < i ==>
         NormalizeWhitespace(xs[j]) == "" || CaseFold(NormalizeWhitespace(xs[j])) != CaseFold(n)
  }

  /** Reference definition: the normalised inputs that open a new casefold class, in input order. */
  function FirstOfClass(xs: seq<string>): seq<string>
  {
    if xs == [] then []
    else
      FirstOfClass(xs[..|xs| - 1])
      + (if IsFirstOfClass(xs, |xs| - 1) then [NormalizeWhitespace(xs[|xs| - 1])] else [])
  }

  /**
   * `clean_translations` keeps exactly the first input of every casefold
   * class, normalised, in input order (translator/translation.py:39-51).
   */
  lemma {:induction false} CleanIsFirstOfClass(xs: seq<string>)
    ensures Clean(xs) == FirstOfClass(xs)
  {
    if xs != [] {
      var p := xs[..|xs| - 1];
      var n := NormalizeWhitespace(xs[|xs| - 1]);
      CleanIsFirstOfClass(p);
      CleanFolds(p);
      assert forall j :: 0 <= j < |p| ==> p[j] == xs[j];
      if n != "" {
        if CaseFold(n) in InputFolds(p) {
          var j :| 0 <= j < |p| && NormalizeWhitespace(p[j]) != "" && CaseFold(n) == CaseFold(NormalizeWhitespace(p[j]));
          assert !IsFirstOfClass(xs, |xs| - 1);
        } else {
          assert IsFirstOfClass(xs, |xs| - 1) by {
            forall j | 0 <= j < |xs| - 1 && NormalizeWhitespace(xs[j]) != ""
              ensures CaseFold(NormalizeWhitespace(xs[j])) != CaseFold(n)
            {
              assert NormalizeWhitespace(p[j]) != "";
              assert CaseFold(NormalizeWhitespace(p[j])) in InputFolds(p);
            }
          }
        }
      }
    }
  }

  /**
   * Every cleaned item is the normalisation of some input, and every input
   * that normalises to something non-empty is represented by a cleaned item
   * of the same casefold class (translator/translation.py:42-50).
   */
  lemma CleanCoverage(xs: seq<string>)
    ensures forall k :: 0 <= k < |Clean(xs)| ==>
              exists i :: 0 <= i < |xs| && Clean(xs)[k] == NormalizeWhitespace(xs[i])
    ensures forall i :: 0 <= i < |xs| && NormalizeWhitespace(xs[i]) != "" ==>
              exists k :: 0 <= k < |Clean(xs)| && CaseFold(Clean(xs)[k]) == CaseFold(NormalizeWhitespace(xs[i]))
  {
    CleanFolds(xs);
    CleanSound(xs);
    forall i | 0 <= i < |xs| && NormalizeWhitespace(xs[i]) != ""
      ensures exists k :: 0 <= k < |Clean(xs)| && CaseFold(Clean(xs)[k]) == CaseFold(NormalizeWhitespace(xs[i]))
    {
      assert CaseFold(NormalizeWhitespace(xs[i])) in InputFolds(xs);
    }
  }

  /**
   * On already-normalised, non-empty candidates, cleaning keeps one
   * representative of each casefold class and nothing else.
   */
  lemma CleanRepresents(xs: seq<string>)
    requires forall i :: 0 <= i < |xs| ==> xs[i] != "" && NormalizeWhitespace(xs[i]) == xs[i]
    ensures forall k :: 0 <= k < |Clean(xs)| ==> Clean(xs)[k] in xs
    ensures forall i :: 0 <= i < |xs| ==> exists k :: 0 <= k < |Clean(xs)| && CaseFold(Clean(xs)[k]) == CaseFold(xs[i])
  {
    CleanCoverage(xs);
    forall i | 0 <= i < |xs| ensures exists k :: 0 <= k < |Clean(xs)| && CaseFold(Clean(xs)[k]) == CaseFold(xs[i]) {
      assert NormalizeWhitespace(xs[i]) == xs[i] && xs[i] != "";
      var k :| 0 <= k < |Clean(xs)| && CaseFold(Clean(xs)[k]) == CaseFold(NormalizeWhitespace(xs[i]));
      assert CaseFold(Clean(xs)[k]) == CaseFold(xs[i]);
    }
  }

  lemma {:induction false} CleanSound(xs: seq<string>)
    ensures forall k :: 0 <= k < |Clean(xs)| ==>
              exists i :: 0 <= i < |xs| && Clean(xs)[k] == NormalizeWhitespace(xs[i])
  {
    if xs != [] {
      var p := xs[..|xs| - 1];
      CleanSound(p);
      var c := Clean(xs);
      assert c == Clean(p) || c == Clean(p) + [NormalizeWhitespace(xs[|xs| - 1])];
      forall k | 0 <= k < |Clean(xs)|
        ensures exists i :: 0 <= i < |xs| && Clean(xs)[k] == NormalizeWhitespace(xs[i])
      {
        if k < |Clean(p)| {
          var i :| 0 <= i < |p| && Clean(p)[k] == NormalizeWhitespace(p[i]);
          assert xs[i] == p[i];
          assert c[k] == Clean(p)[k];
          assert 0 <= i < |xs| && c[k] == NormalizeWhitespace(xs[i]);
        } else {
          assert c[k] == NormalizeWhitespace(xs[|xs| - 1]);
          assert 0 <= |xs| - 1 < |xs| && c[k] == NormalizeWhitespace(xs[|xs| - 1]);
        }
      }
    } else {
      assert Clean(xs) == [];
    }
  }

  /** A list that is already clean: normalised, non-empty, casefold-distinct items. */
  predicate IsClean(ys: seq<string>) {
    && (forall i :: 0 <= i < |ys| ==> ys[i] != "" && NormalizeWhitespace(ys[i]) == ys[i])
    && (forall i, j :: 0 <= i < j < |ys| ==> CaseFold(ys[i]) != CaseFold(ys[j]))
  }

  lemma {:induction false} CleanOfClean(ys: seq<string>)
    requires IsClean(ys)
    ensures Clean(ys) == ys
  {
    if ys != [] {
      var p := ys[..|ys| - 1];
      var y := ys[|ys| - 1];
      assert IsClean(p);
      CleanOfClean(p);
      assert CaseFold(y) !in Folds(p);
      assert p + [y] == ys;
    }
  }

  /** `clean_translations` is idempotent (translator/translation.py:39-51). */
  lemma CleanIdempotent(xs: seq<string>)
    ensures Clean(Clean(xs)) == Clean(xs)
  {
    CleanOfClean(Clean(xs));
  }

  /** `merge_translations` (translator/translation.py:66-67): the primary list's items come first. */
  function Merge(primary: seq<string>, secondary: seq<string>): (r: seq<string>)
  {
    Clean(primary + secondary)
  }

  lemma {:induction false} CleanExtends(xs: seq<string>, ys: seq<string>)
    ensures Clean(xs) <= Clean(xs + ys)
    decreases |ys|
  {
    if ys != [] {
      var zs := xs + ys;
      var p := xs + ys[..|ys| - 1];
      assert zs[..|zs| - 1] == p;
      CleanExtends(xs, ys[..|ys| - 1]);
      CleanGrows(zs);
    } else {
      assert xs + ys == xs;
    }
  }

  /** Cleaning a list extends the cleaning of all but its last item. */
  lemma CleanGrows(zs: seq<string>)
    requires zs != []
    ensures Clean(zs[..|zs| - 1]) <= Clean(zs)
  {
    var prev := Clean(zs[..|zs| - 1]);
    assert Clean(zs) == prev || Clean(zs) == prev + [NormalizeWhitespace(zs[|zs| - 1])];
  }

  /**
   * Merging keeps the cleaned primary list as a prefix: primary candidates
   * take priority over secondary ones (translator/translation.py:66-67).
   */
  lemma MergeKeepsPrimaryFirst(primary: seq<string>, secondary: seq<string>)
    ensures Clean(primary) <= Merge(primary, secondary)
    ensures |Merge(primary, secondary)| <= |primary| + |secondary|
  {
    CleanExtends(primary, secondary);
  }

  // ---------------------------------------------------------------- meta

  /** `_exceeds_thresholds` (translator/translation.py:101-105). */
  predicate ExceedsThresholds(value: string) {
    |Split(value)| > MaxWords || |value| > MaxChars
  }

  predicate HasMetaMarker(lowered: string) {
    exists k | 0 <= k < |MetaMarkers| :: Contains(lowered, MetaMarkers[k])
  }

  /** `is_meta_translation` (translator/translation.py:93-98). */
  predicate IsMeta(value: string) {
    var normalized := NormalizeWhitespace(value);
    ExceedsThresholds(normalized) || HasMetaMarker(CaseFold(normalized))
  }

  /**
   * A candidate is meta exactly when it has more than eight words, or more
   * than 80 characters once whitespace is collapsed, or its casefolded form
   * contains a marker; so the classification ignores whitespace layout
   * (translator/translation.py:93-105).
   */
  lemma IsMetaCharacterisation(value: string)
    ensures IsMeta(value) <==>
              |Split(value)| > MaxWords
              || |NormalizeWhitespace(value)| > MaxChars
              || HasMetaMarker(CaseFold(NormalizeWhitespace(value)))
    ensures IsMeta(NormalizeWhitespace(value)) == IsMeta(value)
  {
    NormalizeIdempotent(value);
  }

  predicate NotMeta(value: string) {
    !IsMeta(value)
  }

  // ---------------------------------------------------------------- partition

  /** The source's partition loop over an already cleaned list, as of after the last item. */
  function PartitionCleaned(ys: seq<string>): (r: (seq<string>, seq<string>))
    ensures r.0 == Seqs.Filter(ys, NotMeta)
    ensures r.1 == Seqs.Filter(ys, IsMeta)
  {
    if ys == [] then ([], [])
    else
      var prev := PartitionCleaned(ys[..|ys| - 1]);
      var y := ys[|ys| - 1];
      assert ys == ys[..|ys| - 1] + [y];
      Seqs.FilterSnoc(ys[..|ys| - 1], y, NotMeta);
      Seqs.FilterSnoc(ys[..|ys| - 1], y, IsMeta);
      if IsMeta(y) then (prev.0, prev.1 + [y]) else (prev.0 + [y], prev.1)
  }

  /**
   * `partition_translations` (translator/translation.py:54-63): the cleaned
   * list split, order kept, into non-meta and meta candidates.
   */
  function Partition(xs: seq<string>): (r: (seq<string>, seq<string>))
    ensures r.0 == Seqs.Filter(Clean(xs), NotMeta)
    ensures r.1 == Seqs.Filter(Clean(xs), IsMeta)
    ensures forall i :: 0 <= i < |r.0| ==> !IsMeta(r.0[i])
    ensures forall i :: 0 <= i < |r.1| ==> IsMeta(r.1[i])
    ensures |r.0| + |r.1| == |Clean(xs)|
  {
    PartitionSizes(Clean(xs));
    PartitionCleaned(Clean(xs))
  }

  lemma {:induction false} PartitionSizes(ys: seq<string>)
    ensures |Seqs.Filter(ys, NotMeta)| + |Seqs.Filter(ys, IsMeta)| == |ys|
  {
    if ys != [] {
      PartitionSizes(ys[1..]);
    }
  }

  // ---------------------------------------------------------------- limit / combine

  /** `limit or TranslationLimit.PRIMARY.value`: a missing or zero limit means three. */
  function EffectiveLimit(limit: Option<int>): (n: int)
    ensures n != 0
    ensures limit.Some? && limit.value != 0 ==> n == limit.value
  {
    if limit.None? || limit.value == 0 then PrimaryLimit else limit.value
  }

  /**
   * `limit_translations` (translator/translation.py:70-72): Python's
   * `translations[:effective_limit]`, so a negative limit drops items from the end.
   */
  function Limit(xs: seq<string>, limit: Option<int>): (r: seq<string>)
    ensures r <= xs
    ensures (limit.None? || limit.value == 0) ==> |r| == (if |xs| < PrimaryLimit then |xs| else PrimaryLimit)
    ensures limit.Some? && limit.value > 0 ==> |r| == (if |xs| < limit.value then |xs| else limit.value)
    ensures limit.Some? && limit.value < 0 ==> |r| == (if |xs| + limit.value > 0 then |xs| + limit.value else 0)
  {
    Seqs.PyPrefix(xs, EffectiveLimit(limit))
  }

  /** `combine_translations` (translator/translation.py:75-82). */
  function Combine(xs: seq<string>, limit: Option<int>): (r: Option<string>)
    ensures r.None? <==> Limit(Clean(xs), limit) == []
    ensures (limit.None? || limit.value >= 0) ==> (r.None? <==> Clean(xs) == [])
  {
    var limited := Limit(Clean(xs), limit);
    if limited == [] then None else Some(JoinWith(Separator, limited))
  }

  /**
   * The combined string splits back on `"; "` into the limited cleaned
   * candidates, as long as no candidate itself contains `;`
   * (translator/translation.py:75-82).
   */
  lemma CombineSplitsBack(xs: seq<string>, limit: Option<int>)
    requires Combine(xs, limit).Some?
    requires forall i :: 0 <= i < |Clean(xs)| ==> Lacks(Clean(xs)[i], ';')
    ensures SplitOn(Combine(xs, limit).value, Separator) == Limit(Clean(xs), limit)
  {
    var limited := Limit(Clean(xs), limit);
    forall i | 0 <= i < |limited| ensures Lacks(limited[i], Separator[0]) {
      assert limited[i] == Clean(xs)[i];
    }
    SplitOnJoinWith(limited, Separator);
  }

  // ---------------------------------------------------------------- select

  /**
   * `select_primary_translation` (translator/translation.py:85-90): the first
   * non-meta cleaned candidate, else the first cleaned candidate (which is
   * then meta), else None.
   */
  function SelectPrimary(xs: seq<string>): (r: Option<string>)
    ensures r.None? <==> Clean(xs) == []
    ensures Seqs.FindFirst(Clean(xs), NotMeta).Some? ==> r == Seqs.FindFirst(Clean(xs), NotMeta)
    ensures Seqs.FindFirst(Clean(xs), NotMeta).None? && Clean(xs) != [] ==>
              r == Some(Clean(xs)[0]) && IsMeta(r.value)
  {
    var parts := Partition(xs);
    Seqs.FilterHead(Clean(xs), NotMeta);
    if parts.0 != [] then Some(parts.0[0])
    else
      Seqs.FilterAll(Clean(xs), IsMeta);
      if parts.1 == [] then None else Some(parts.1[0])
  }
}

=== FILE: translation_state.dfy ===
/**
 * The desktop window's bookkeeping for asynchronous lookups
 * (desktop_app/controllers/translation_state.py): which request is the
 * current one, whether its result has been shown already, and whether the
 * last result may be reused for the same text.
 */
module TranslationState {
  import opened Wrappers
  import opened Text

  /** `TranslationStatus`: only success is told apart from the other outcomes. */
  datatype Status = Success | OtherStatus(code: nat)

  /** `TranslationResult`, reduced to the one field read here. */
  datatype TranslationResult = TranslationResult(status: Status)

  // ---------------------------------------------------------------- memory

  /** `TranslationMemory`: the last looked-up text and its result. */
  datatype TranslationMemory = TranslationMemory(text: string, result: Option<TranslationResult>)

  /** A fresh memory, and the state `reset` returns to. */
  const EmptyMemory: TranslationMemory := TranslationMemory("", None)

  /** `reset`. */
  function Reset(m: TranslationMemory): (r: TranslationMemory)
    ensures r == EmptyMemory
  {
    EmptyMemory
  }

  /** `update`: remember a text and its result (or the lack of one). */
  function Update(m: TranslationMemory, text: string, result: Option<TranslationResult>): (r: TranslationMemory)
    ensures r.text == text && r.result == result
  {
    TranslationMemory(text, result)
  }

  /**
   * `can_reuse`: never while a lookup is loading; otherwise only a
   * successful result whose remembered text, stripped, is the asked text.
   */
  function CanReuse(m: TranslationMemory, text: string, loading: bool): (r: bool)
    ensures r ==> !loading && m.result.Some?
  {
    if loading || m.result.None? then false
    else m.result.value.status == Success && Strip(m.text) == text
  }

  /**
   * Remembering a successful lookup makes it reusable for exactly its
   * stripped text while nothing is loading; any other result is never reused.
   */
  lemma ReuseAfterUpdate(m: TranslationMemory, text: string, result: Option<TranslationResult>, asked: string, loading: bool)
    ensures CanReuse(Update(m, text, result), asked, loading)
            <==> !loading && result == Some(TranslationResult(Success)) && asked == Strip(text)
  {
  }

  /** After a reset nothing is reused. */
  lemma NoReuseAfterReset(m: TranslationMemory, asked: string, loading: bool)
    ensures !CanReuse(Reset(m), asked, loading)
  {
  }

  /** Only a text without surrounding whitespace can be reused: the comparison is against the stripped text. */
  lemma ReusedTextIsStripped(m: TranslationMemory, asked: string, loading: bool)
    requires CanReuse(m, asked, loading)
    ensures asked == "" || (!IsSpace(asked[0]) && !IsSpace(asked[|asked| - 1]))
  {
    StripEmptyIff(m.text);
  }

  // ---------------------------------------------------------------- requests

  /** `RequestTracker`: the id of the latest request and the id whose result was last presented. */
  datatype RequestTracker = RequestTracker(currentId: int, presentedId: Option<int>)

  const NewTracker: RequestTracker := RequestTracker(0, None)

  /** `next_id`: a new request id; nothing of it has been presented yet. */
  function NextId(t: RequestTracker): (r: (RequestTracker, int))
    ensures r.1 == t.currentId + 1 && r.0.currentId == r.1
    ensures r.0.presentedId.None?
  {
    var id := t.currentId + 1;
    (RequestTracker(id, None), id)
  }

  /** `is_active`: a result is wanted only if it answers the latest request. */
  predicate IsActive(t: RequestTracker, id: int)
  {
    id == t.currentId
  }

  /** `should_present`: present again unless the current result is already shown in a visible window. */
  predicate ShouldPresent(t: RequestTracker, visible: bool)
  {
    !(t.presentedId == Some(t.currentId) && visible)
  }

  /** `mark_presented`. */
  function MarkPresented(t: RequestTracker): (r: RequestTracker)
    ensures r.currentId == t.currentId
  {
    t.(presentedId := Some(t.currentId))
  }

  /** The calls the window makes on the tracker. */
  datatype Call = Next | Present

  function Step(t: RequestTracker, c: Call): RequestTracker
  {
    match c
    case Next => NextId(t).0
    case Present => MarkPresented(t)
  }

  function Run(t: RequestTracker, calls: seq<Call>): RequestTracker
    decreases |calls|
  {
    if calls == [] then t else Run(Step(t, calls[0]), calls[1..])
  }

  /** How many new requests a run issues. */
  function Requests(calls: seq<Call>): (n: nat)
    ensures n <= |calls|
    ensures n == 0 <==> Next !in calls
  {
    if calls == [] then 0
    else
      assert calls == [calls[0]] + calls[1..];
      (if calls[0] == Next then 1 else 0) + Requests(calls[1..])
  }

  /** The presented id is never stale: it is absent or the current id. */
  predicate Consistent(t: RequestTracker)
  {
    t.presentedId.None? || t.presentedId.value == t.currentId
  }

  /** Every id goes up by one per request and consistency is kept whatever the calls. */
  lemma {:induction false} RunCounts(t: RequestTracker, calls: seq<Call>)
    requires Consistent(t)
    ensures Run(t, calls).currentId == t.currentId + Requests(calls)
    ensures Consistent(Run(t, calls))
    decreases |calls|
  {
    if calls != [] {
      RunCounts(Step(t, calls[0]), calls[1..]);
    }
  }

  /**
   * A request stays active exactly until the next one is issued: results
   * arriving for an older request are dropped.
   */
  lemma ActiveUntilNext(t: RequestTracker, calls: seq<Call>)
    ensures var (t1, id) := NextId(t);
            IsActive(Run(t1, calls), id) <==> Next !in calls
  {
    RunCounts(NextId(t).0, calls);
  }

  /** With the current result shown, presenting again changes nothing. */
  lemma {:induction false} PresentsKeep(t: RequestTracker, calls: seq<Call>)
    requires t.presentedId == Some(t.currentId) && Next !in calls
    ensures Run(t, calls) == t
    decreases |calls|
  {
    if calls != [] {
      assert calls[0] == Present;
      assert Next !in calls[1..];
      PresentsKeep(Step(t, calls[0]), calls[1..]);
    }
  }

  /** Once presented, a result is not presented again in a visible window until the next request. */
  lemma PresentedUntilNext(t: RequestTracker, calls: seq<Call>)
    requires Next !in calls
    ensures !ShouldPresent(Run(MarkPresented(t), calls), true)
  {
    PresentsKeep(MarkPresented(t), calls);
  }

  /**
   * A shown result is not shown again while the window is visible; a new
   * request, or a hidden window, always asks for presenting.
   */
  lemma PresentOnce(t: RequestTracker, visible: bool)
    ensures !ShouldPresent(MarkPresented(t), true)
    ensures ShouldPresent(NextId(t).0, visible)
    ensures ShouldPresent(t, false)
  {
  }
}

=== FILE: url.dfy ===
/**
 * Percent-encoding as done by Python's `urllib.parse.quote` and `quote_plus`:
 * the text is encoded as UTF-8 and every byte outside the unreserved set of
 * section 2.3 of RFC 3986 (and outside the caller's `safe` characters) becomes
 * `%XX` with upper-case hex digits, as section 2.1 of RFC 3986 describes.
 * `quote` keeps `/`; `quote_plus` keeps nothing extra and writes a space as `+`
 * (the HTML form encoding).
 */
module Url {

  /** An octet of the UTF-8 encoding. */
  type Byte = b: int | 0 <= b < 256

  /** Section 2.3 of RFC 3986: ALPHA / DIGIT / "-" / "." / "_" / "~". */
  predicate IsUnreserved(c: char) {
    ('A' <= c <= 'Z') || ('a' <= c <= 'z') || ('0' <= c <= '9')
    || c == '-' || c == '.' || c == '_' || c == '~'
  }

  /** The UTF-8 encoding of one Unicode scalar value. */
  function Utf8(c: char): (bs: seq<Byte>)
    ensures 1 <= |bs| <= 4
    ensures (c as int < 0x80) <==> |bs| == 1
    ensures c as int < 0x80 ==> bs == [c as int]
  {
    var n := c as int;
    if n < 0x80 then [n]
    else if n < 0x800 then [0xC0 + n / 0x40, 0x80 + n % 0x40]
    else if n < 0x10000 then [0xE0 + n / 0x1000, 0x80 + (n / 0x40) % 0x40, 0x80 + n % 0x40]
    else [0xF0 + n / 0x40000, 0x80 + (n / 0x1000) % 0x40, 0x80 + (n / 0x40) % 0x40, 0x80 + n % 0x40]
  }

  /** The UTF-8 encoding of a string (`str.encode("utf-8")`). */
  function Utf8Encode(s: string): seq<Byte>
  {
    if s == [] then [] else Utf8(s[0]) + Utf8Encode(s[1..])
  }

  /** The upper-case hex digit of a value below 16. */
  function HexDigit(n: nat): (c: char)
    requires n < 16
    ensures IsHexDigit(c)
  {
    if n < 10 then ('0' as int + n) as char else ('A' as int + n - 10) as char
  }

  predicate IsHexDigit(c: char) {
    ('0' <= c <= '9') || ('A' <= c <= 'F')
  }

  function HexValue(c: char): (v: nat)
    requires IsHexDigit(c)
    ensures v < 16 && HexDigit(v) == c
  {
    if '0' <= c <= '9' then c as int - '0' as int else c as int - 'A' as int + 10
  }

  /** `%XX` for one byte, upper-case hex as Python writes it. */
  function PercentByte(b: Byte): (r: string)
    ensures |r| == 3 && r[0] == '%' && IsHexDigit(r[1]) && IsHexDigit(r[2])
    ensures HexValue(r[1]) * 16 + HexValue(r[2]) == b
  {
    ['%', HexDigit(b / 16), HexDigit(b % 16)]
  }

  function PercentBytes(bs: seq<Byte>): string
  {
    if bs == [] then [] else PercentByte(bs[0]) + PercentBytes(bs[1..])
  }

  /** One character of `quote(s, safe)`: kept when unreserved or safe, else its UTF-8 bytes escaped. */
  function QuoteChar(c: char, safe: set<char>): string
  {
    if IsUnreserved(c) || c in safe then [c] else PercentBytes(Utf8(c))
  }

  /** `urllib.parse.quote(s)` with its default `safe="/"`. */
  function Quote(s: string): string
  {
    if s == [] then [] else QuoteChar(s[0], {'/'}) + Quote(s[1..])
  }

  /** `urllib.parse.quote_plus(s)`: `safe=""`, and a space becomes `+`. */
  function QuotePlus(s: string): string
  {
    if s == [] then []
    else (if s[0] == ' ' then "+" else QuoteChar(s[0], {})) + QuotePlus(s[1..])
  }

  /** The characters percent-encoded output is made of. */
  predicate IsUrlChar(c: char) {
    IsUnreserved(c) || c == '%' || c == '/' || c == '+'
  }

  predicate IsUrlText(s: string) {
    forall i :: 0 <= i < |s| ==> IsUrlChar(s[i])
  }

  /** Percent-decoding back to bytes (`unquote_to_bytes`); with `plus`, `+` decodes to a space. */
  function PercentDecode(s: string, plus: bool): seq<int>
  {
    if s == [] then []
    else if s[0] == '%' && |s| >= 3 && IsHexDigit(s[1]) && IsHexDigit(s[2]) then
      [HexValue(s[1]) * 16 + HexValue(s[2])] + PercentDecode(s[3..], plus)
    else if plus && s[0] == '+' then [' ' as int] + PercentDecode(s[1..], plus)
    else [s[0] as int] + PercentDecode(s[1..], plus)
  }

  lemma {:induction false} PercentBytesShape(bs: seq<Byte>)
    ensures IsUrlText(PercentBytes(bs))
    ensures |PercentBytes(bs)| == 3 * |bs|
  {
    if bs != [] {
      PercentBytesShape(bs[1..]);
      var head := PercentByte(bs[0]);
      var tail := PercentBytes(bs[1..]);
      assert PercentBytes(bs) == head + tail;
      forall i | 0 <= i < |head + tail|
        ensures IsUrlChar((head + tail)[i])
      {
        if i >= 3 {
          assert (head + tail)[i] == tail[i - 3];
        }
      }
    }
  }

  lemma PercentByteDecode(b: Byte, rest: string, plus: bool)
    ensures PercentDecode(PercentByte(b) + rest, plus) == [b] + PercentDecode(rest, plus)
  {
    var s := PercentByte(b) + rest;
    assert s[0] == '%' && |s| >= 3 && IsHexDigit(s[1]) && IsHexDigit(s[2]);
    assert s[1] == PercentByte(b)[1] && s[2] == PercentByte(b)[2];
    assert s[3..] == rest;
  }

  lemma {:induction false} PercentBytesDecode(bs: seq<Byte>, rest: string, plus: bool)
    ensures PercentDecode(PercentBytes(bs) + rest, plus) == bs + PercentDecode(rest, plus)
  {
    if bs == [] {
      assert PercentBytes(bs) + rest == rest;
    } else {
      var tail := PercentBytes(bs[1..]);
      assert PercentBytes(bs) + rest == PercentByte(bs[0]) + (tail + rest);
      PercentByteDecode(bs[0], tail + rest, plus);
      PercentBytesDecode(bs[1..], rest, plus);
      assert bs == [bs[0]] + bs[1..];
    }
  }

  /** Every character of `quote`'s output is unreserved, `/` or part of a `%XX` escape. */
  lemma {:induction false} QuoteIsUrlText(s: string)
    ensures IsUrlText(Quote(s))
    ensures forall i :: 0 <= i < |Quote(s)| ==> Quote(s)[i] != ' '
  {
    if s != [] {
      QuoteIsUrlText(s[1..]);
      var head := QuoteChar(s[0], {'/'});
      if !(IsUnreserved(s[0]) || s[0] == '/') {
        PercentBytesShape(Utf8(s[0]));
      }
      assert Quote(s) == head + Quote(s[1..]);
      forall i | 0 <= i < |Quote(s)|
        ensures IsUrlChar(Quote(s)[i])
      {
        if i >= |head| {
          assert Quote(s)[i] == Quote(s[1..])[i - |head|];
        }
      }
    }
  }

  /** `quote_plus` never leaves a space in its output. */
  lemma {:induction false} QuotePlusIsUrlText(s: string)
    ensures IsUrlText(QuotePlus(s))
    ensures forall i :: 0 <= i < |QuotePlus(s)| ==> QuotePlus(s)[i] != ' '
  {
    if s != [] {
      QuotePlusIsUrlText(s[1..]);
      var head := if s[0] == ' ' then "+" else QuoteChar(s[0], {});
      if s[0] != ' ' && !IsUnreserved(s[0]) {
        PercentBytesShape(Utf8(s[0]));
      }
      assert QuotePlus(s) == head + QuotePlus(s[1..]);
      forall i | 0 <= i < |QuotePlus(s)|
        ensures IsUrlChar(QuotePlus(s)[i])
      {
        if i >= |head| {
          assert QuotePlus(s)[i] == QuotePlus(s[1..])[i - |head|];
        }
      }
    }
  }

  /** Round trip: percent-decoding `quote(s)` gives back the UTF-8 bytes of `s`. */
  lemma {:induction false} QuoteRoundTrip(s: string)
    ensures PercentDecode(Quote(s), false) == Utf8Encode(s)
  {
    if s != [] {
      var c := s[0];
      QuoteRoundTrip(s[1..]);
      if IsUnreserved(c) || c == '/' {
        assert Quote(s) == [c] + Quote(s[1..]);
      } else {
        assert Quote(s) == PercentBytes(Utf8(c)) + Quote(s[1..]);
        PercentBytesDecode(Utf8(c), Quote(s[1..]), false);
      }
    }
  }

  /** Round trip: form-decoding `quote_plus(s)` gives back the UTF-8 bytes of `s`. */
  lemma {:induction false} QuotePlusRoundTrip(s: string)
    ensures PercentDecode(QuotePlus(s), true) == Utf8Encode(s)
  {
    if s != [] {
      var c := s[0];
      QuotePlusRoundTrip(s[1..]);
      if c == ' ' {
        assert QuotePlus(s) == "+" + QuotePlus(s[1..]);
      } else if IsUnreserved(c) {
        assert QuotePlus(s) == [c] + QuotePlus(s[1..]);
      } else {
        assert QuotePlus(s) == PercentBytes(Utf8(c)) + QuotePlus(s[1..]);
        PercentBytesDecode(Utf8(c), QuotePlus(s[1..]), true);
      }
    }
  }

  /** `quote` leaves a string of unreserved characters and slashes untouched. */
  lemma {:induction false} QuoteKeepsSafeText(s: string)
    requires forall i :: 0 <= i < |s| ==> IsUnreserved(s[i]) || s[i] == '/'
    ensures Quote(s) == s
  {
    if s != [] {
      QuoteKeepsSafeText(s[1..]);
    }
  }

  /** Both encoders map a non-empty string to a non-empty one. */
  lemma {:induction false} QuoteNonEmpty(s: string)
    ensures |Quote(s)| >= |s|
    ensures |QuotePlus(s)| >= |s|
  {
    if s != [] {
      QuoteNonEmpty(s[1..]);
      if !(IsUnreserved(s[0]) || s[0] == '/') {
        PercentBytesShape(Utf8(s[0]));
      }
      if !(s[0] == ' ' || IsUnreserved(s[0])) {
        PercentBytesShape(Utf8(s[0]));
      }
    }
  }
}

=== FILE: wrappers.dfy ===
/** Optional values, standing in for Python's `X | None`. */
module Wrappers {

  datatype Option<+T> = None | Some(value: T) {

    /** The value, or `default` when there is none (Python's `x if x is not None else default`). */
    function GetOr(default: T): T {
      match this
      case Some(v) => v
      case None => default
    }
  }

  /** Python's `a or b` on two optional strings: the empty string is falsy, like None. */
  function OrElse(a: Option<string>, b: Option<string>): (r: Option<string>)
    ensures a.Some? && a.value != "" ==> r == a
    ensures (a.None? || a.value == "") ==> r == b
  {
    if a.Some? && a.value != "" then a else b
  }

  /** Python truthiness of an optional string. */
  predicate Truthy(a: Option<string>) {
    a.Some? && a.value != ""
  }
}
